=== FILE: README.md ===
# Dataset I/O and export for the amplus digital twin, in Dafny

This project models two parts of the simulated-microscopy toolkit:

- **The dataset I/O layer** (`src/elfantasma/io.py`):
  - format dispatch on the lower-cased `os.path.splitext` extension, in both
    `new` (writers) and `Reader.from_file` (readers);
  - the MRC writer's silent dtype narrowing;
  - the per-frame metadata proxies that route `(row, component)` writes into
    FEI extended-header records or HDF5 arrays;
  - the NeXus writer's `data` group, which aliases the detector and sample
    arrays;
  - the image writer's `DataProxy`, its 0..255 scaling and its sticky
    `vmin`/`vmax`;
  - the `Reader` value with its derived start/stop/step scalars;
  - the permissive MRC read and the strict NeXus read.
- **The `export` command** (`amplus/command_line/__init__.py`):
  - frame selection by index range or by half-open angle window;
  - round-robin interlacing;
  - region of interest;
  - output dtype, shape and pixel size under rot90 and rebin;
  - the dataset-wide intensity range for image output;
  - the frame copy loop and the final `update`.

## Modules and files

- `common.dfy`: `Option`, `Result`, the error cases, `Vec3`, and numpy's
  negative indexing (`NormIndex`).
- `dtypes.dfy`: numpy dtypes and the MRC narrowing table.
- `dispatch.dfy`: `splitext`, `lower` and the two dispatch tables.
- `images.dfy`: frames as rows of complex pixels, and the operations on them:
  - Python slicing and `rot90`;
  - the complex modes;
  - casting into a dataset's dtype;
  - `rebin`'s shape law;
  - minimum and maximum.
- `reader.dfy`: `Reader.__init__` and the derived scalars.
- `mrc.dfy`: `MrcFileWriter` as a class over an array of extended-header
  records and an array of frames, plus `from_mrcfile`.
- `nexus.dfy`:
  - `NexusWriter` as a class over the HDF5 arrays;
  - the file as a tree of groups, in which `entry/data/*` and
    `entry/sample/*` are built from the same arrays;
  - `from_nexus`.
- `imagewriter.dfy`: `ImageWriter` and `DataProxy`, and the `%` formatting
  that names each image file.
- `writers.dfy`:
  - the writer returned by `new`, a tagged union of the three classes;
  - what a saved file reads back as through `from_file`.
- `export.dfy`: the `export` command, split into:
  - `PlanOf` / `MakePlan`: indices, ROI, dtype and geometry;
  - `Open`: `new` plus the range precomputation;
  - `CopyFrames`: the copy loop;
  - `Produce` and `Export`.

Foreign numerics are the fields of a `Kernels` record passed as a parameter:

- numpy's `abs`, `angle` and `unwrap`;
- `scipy.signal.decimate`.

The only thing assumed about `decimate` is its output shape (`DecimateLaw`):
along axis `q` it yields `ceil(n / q)` samples and keeps complexity. The
model treats `decimate` as total (see "Left out").

The following become explicit inputs:

- external stores: the MRC file, the HDF5 tree and the image files;
- the reader that `export` opens;
- the parsed command-line arguments.

Notes on how the code behaves:

- The NeXus extension list holds `"nxtomo"` without a leading dot. No
  `splitext` extension can equal it, so `scan.nxtomo` is rejected.
- `rebin` asks for `d = dim // r` samples per axis, but decimates by
  `q = dim // d`, which yields `ceil(dim / q)` samples. That is at least
  `dim // r`, and larger exactly when `dim // r` does not divide `dim`.
  The writer's declared shape uses `dim // r`, so such frames overshoot it
  (Finding 3).
- `step_position` is modelled as written, with its vacuous check.
  The intended check is modelled beside it (Finding 1).
- Opening a writer checks the shape only where numpy does: a negative
  dimension is refused.
- The MRC writer needs an element type that `mrcfile` has a mode for. After
  narrowing, `bool`, `int64` and `uint64` have none, and `new` fails with
  `UnsupportedDType` (the `ValueError` of `mode_from_dtype`).
- Frame assignment `data[j, :, :] = image` broadcasts: an extent of 1 is
  repeated along its axis. Any other mismatch fails with `ShapeMismatch`.
- The NeXus read fails with the error each failed lookup or assertion gives:
  - `MissingKey` for a missing member;
  - `NotAnEntry` when the `NX_class` is wrong;
  - `NotTomography` when the definition is wrong.
- The image writer takes the output name as its file-name template and
  names frame j's file `template % (j + 1)`, after the frame's bounds are
  known. A name that does not take exactly that one integer raises at the
  first write. So `-o out.png`, which the `.png` extension sends to the
  image writer, fails as soon as a frame is written, and a name such as
  `frame_%03d.png` works.
- The MRC writer's `dtype` defaults to `"uint8"` in its own signature, but
  `new` always passes its `dtype` argument through, `None` included.
  `numpy.dtype(None)` is float64, which narrows to float32. So `New` uses
  float64 as the MRC default, which always has a mode.

## Model

| member | source | states |
|---|---|---|
| Common.NormIndex | src/elfantasma/io.py:132-133 | An index is accepted exactly when `-n <= i < n`, and a negative index counts from the end. |
| DTypes.Narrow | src/elfantasma/io.py:177-188 | The four wide dtypes map to the same kind at half the width. Every other dtype is unchanged. No result is one of the four. |
| DTypes.NarrowIdempotent | src/elfantasma/io.py:180-188 | Narrowing twice equals narrowing once. |
| DTypes.NarrowFixedPoints | src/elfantasma/io.py:180-188 | A dtype is left alone exactly when it is not int32, uint32, float64 or complex128. |
| DTypes.NarrowKeepsComplexity | src/elfantasma/io.py:180-188 | Narrowing never turns complex into real or back. |
| DTypes.MrcModeAfterNarrowing | src/elfantasma/io.py:180-194 | After narrowing, `mode_from_dtype` finds an MRC mode exactly when the dtype is not bool, int64 or uint64. |
| Dispatch.LastBefore | src/elfantasma/io.py:710 | Returns the last position of a character before a bound, or -1, with no later occurrence. |
| Dispatch.RFind | src/elfantasma/io.py:710 | Returns the last occurrence of a character in the whole string, or -1. |
| Dispatch.RFindIs | src/elfantasma/io.py:710 | Any index meeting the last-occurrence conditions is RFind's result. |
| Dispatch.ExtStart | src/elfantasma/io.py:710 | An extension starts at the last dot of the path. One exists exactly when the last path component has a dot that is not part of its leading run of dots. |
| Dispatch.SplitExt | src/elfantasma/io.py:710 | Root and extension concatenate to the path. The extension is empty, or is one dot followed by no dot and no slash. It is non-empty exactly when an extension start exists, and the root then ends just before the last dot. |
| Dispatch.LowerChar | src/elfantasma/io.py:710 | ASCII capitals map to lower case. Every other character is unchanged (see "Left out" for non-ASCII letters). |
| Dispatch.Lower | src/elfantasma/io.py:710 | Lower-cases ASCII capitals character by character and keeps the length. |
| Dispatch.ExtensionShape | src/elfantasma/io.py:685 | The lower-cased extension is empty, or a dot followed by neither dot nor slash. |
| Dispatch.NxtomoUnreachable | src/elfantasma/io.py:713 | No path has the extension `"nxtomo"`, so that list entry never matches. |
| Dispatch.WriterFormat | src/elfantasma/io.py:710-718 | `new` chooses MRC, NeXus or the image writer exactly when the lower-cased extension is in that branch's list. Every other extension is an unknown-extension error. |
| Dispatch.ReaderFormat | src/elfantasma/io.py:685-691 | `from_file` chooses MRC or NeXus exactly when the lower-cased extension is in that branch's list, never the image format, and otherwise fails with an unknown extension. |
| Dispatch.WriterFormatCases | src/elfantasma/io.py:710-718 | `new` picks MRC exactly for `.mrc`, NeXus exactly for the five HDF5 extensions, the image writer exactly for the five image extensions, and fails for every other extension. |
| Dispatch.ReaderAgreesWithWriter | src/elfantasma/io.py:685-691 | `from_file` accepts exactly the extensions `new` maps to MRC or NeXus, agrees with it on those, and rejects image extensions. |
| Dispatch.UpperCaseMrc | src/elfantasma/io.py:685-687 | `run/STACK.MRC` is read and written as MRC. |
| Dispatch.DotInDirectory | src/elfantasma/io.py:710-718 | A dot in a directory name does not give the file an extension. |
| Dispatch.HiddenFileHasNoExtension | src/elfantasma/io.py:710-718 | `.mrc` on its own has no extension, so it is rejected. |
| Dispatch.TiffIsWriteOnly | src/elfantasma/io.py:685-691 | `.tiff` can be written but not read. |
| Dispatch.PngIsImage | src/elfantasma/io.py:710-716 | `out.png` is sent to the image writer. |
| Dispatch.NxtomoFileRejected | src/elfantasma/io.py:688-689 | `scan.nxtomo` is rejected by both `new` and `from_file`. |
| Images.Zeros | src/elfantasma/io.py:336 | A freshly created dataset frame has the given shape and holds zeros only. |
| Images.SliceBound | amplus/command_line/__init__.py:451 | A Python slice bound is clamped into `[0, n]`, with a negative bound counted from the end. |
| Images.SliceLen | amplus/command_line/__init__.py:451 | A slice never has more elements than its sequence. |
| Images.Slice | amplus/command_line/__init__.py:451 | The slice's k-th element is the sequence's element at the clamped start plus k. |
| Images.Crop | amplus/command_line/__init__.py:451 | `data[i, y0:y1, x0:x1]` has the clamped extents, and each pixel is the source pixel at the clamped offset. |
| Images.CropInside | amplus/command_line/__init__.py:451 | For a region inside the frame, the crop is `(y1 - y0) x (x1 - x0)` and pixel `(i, j)` is source pixel `(y0 + i, x0 + j)`. |
| Images.CropFull | amplus/command_line/__init__.py:384-385 | Cropping to the default full-frame region returns the frame unchanged. |
| Images.Rot90 | amplus/command_line/__init__.py:457 | `numpy.rot90` swaps the extents, and output `(i, j)` is input `(j, W - 1 - i)`. |
| Images.Rot180 | amplus/command_line/__init__.py:457 | Two quarter turns reverse both axes. |
| Images.Rot90FourTimes | amplus/command_line/__init__.py:457 | Four quarter turns give the frame back. |
| Images.UnwrapRow | amplus/command_line/__init__.py:467 | Phase unwrapping keeps the row length. |
| Images.ApplyMode | amplus/command_line/__init__.py:461-470 | The complex mode keeps the shape. `complex` is the identity, every other mode gives a real frame, and the point-wise modes apply their formula to each pixel. |
| Images.ImaginarySquareOfRealFrame | amplus/command_line/__init__.py:469 | `imaginary_square` maps every pixel of a real frame to 1. |
| Images.Cast | amplus/command_line/__init__.py:478 | Storing into a dataset keeps the shape and the real parts. The imaginary part is kept for a complex dataset and dropped for a real one. |
| Images.CastKeepsSameKind | amplus/command_line/__init__.py:478 | Casting to the frame's own kind changes no value, and casting is idempotent. |
| Images.Broadcast | amplus/command_line/__init__.py:478 | A frame broadcast into an `h x w` slot has that shape and its kind. An extent of 1 is repeated along its axis, and every other pixel is the source pixel. |
| Images.BroadcastExact | amplus/command_line/__init__.py:478 | Broadcasting a frame that already has the slot's shape changes nothing. |
| Images.FloorDiv | amplus/command_line/__init__.py:474 | Python's `//` rounds toward negative infinity for either sign of the divisor. |
| Images.FloorDivSign | amplus/command_line/__init__.py:402 | `a // b` is non-negative for positive a and b, and negative when b is negative and a is at least `-b`. |
| Images.NumpyFloorDiv | amplus/command_line/__init__.py:243 | numpy's integer `//` gives 0 for a zero divisor, and Python's floor quotient otherwise. |
| Images.Rebin | amplus/command_line/__init__.py:233-251 | Axis 0 is settled before axis 1. A zero target on axis 0 is a division by zero. A negative r on a non-empty axis 0 is refused. For a positive r, a zero target on axis 1 is a division by zero. Otherwise the result is a well-formed frame of the same kind. |
| Images.AxisFactor | amplus/command_line/__init__.py:243 | The factor `c // (c // r)` is 0 exactly when the target is 0, and negative exactly when r is negative and the axis is not empty. |
| Images.RebinFailsOnAxisZeroFirst | amplus/command_line/__init__.py:243-247 | A 1 x 0 frame rebinned by -1 fails on axis 0's negative factor, before axis 1's zero target. |
| Images.Factor | amplus/command_line/__init__.py:243 | For `0 < r <= n`, the target `n // r` is positive, and the decimation factor `n // (n // r)` is at least r and times the target is at most n. |
| Images.RebinShape | amplus/command_line/__init__.py:233-251 | For every factor r > 0, rebinning succeeds exactly when both extents are at least r, and gives `ceil(H / q)` by `ceil(W / q)`, where q is the decimation factor of each extent. |
| Images.DecimatedExtent | amplus/command_line/__init__.py:243-247 | The decimated extent is at least `n // r`, and equals it exactly when `n // r` divides n. |
| Images.RebinShapeWhenDivisible | amplus/command_line/__init__.py:233-251 | When the factor divides both extents, rebinning gives exactly `H / r` by `W / r`. |
| Images.RebinOvershoot | amplus/command_line/__init__.py:233-251 | A 29 x 29 frame rebinned by 2 is 15 x 15, although `29 // 2` is 14. |
| Images.RebinFittedShape | amplus/command_line/__init__.py:233-251 | The corrected rebin (trim to a multiple of the factor, then decimate) always gives `H / r` by `W / r`. |
| Images.SeqMin | amplus/command_line/__init__.py:437 | Python's `min` of a non-empty list is a member at most every element. |
| Images.SeqMax | amplus/command_line/__init__.py:438 | Python's `max` of a non-empty list is a member at least every element. |
| Images.ImageMin | amplus/command_line/__init__.py:431 | `numpy.min` fails exactly on an empty frame, and otherwise is a pixel value at most every pixel. |
| Images.ImageMax | amplus/command_line/__init__.py:432 | `numpy.max` fails exactly on an empty frame, and otherwise is a pixel value at least every pixel. |
| Readers.NewReader | src/elfantasma/io.py:492-514 | Construction succeeds exactly when there is one angle and one position per frame, and keeps its inputs. |
| Readers.NumImages | src/elfantasma/io.py:589-596 | `len(angle)`, which for a consistent reader is both the number of frames and the number of positions. |
| Readers.NumImagesIsFrameCount | src/elfantasma/io.py:589-596 | `num_images` of a constructed reader is the number of frames. |
| Readers.StartAngle | src/elfantasma/io.py:516-523 | The first angle, failing on an empty scan. |
| Readers.StopAngle | src/elfantasma/io.py:525-532 | The last angle, failing on an empty scan. |
| Readers.StepAngle | src/elfantasma/io.py:534-549 | 1 for a single frame. Otherwise the step times N - 1 is the angular travel. |
| Readers.StepAngleIsMeanDifference | src/elfantasma/io.py:534-549 | The step angle is the mean of the consecutive differences. |
| Readers.StepAngleOfUniformScan | src/elfantasma/io.py:534-549 | For evenly spaced angles, the step angle is the spacing. |
| Readers.StartPosition | src/elfantasma/io.py:551-558 | The Y component of the first position. |
| Readers.StopPosition | src/elfantasma/io.py:560-567 | The Y component of the last position. |
| Readers.MeanYStep | src/elfantasma/io.py:578-580 | The step times N - 1 is the Y travel. |
| Readers.StepPosition | src/elfantasma/io.py:569-587 | 0 for at most one frame. Otherwise the mean Y step, and it never fails. |
| Readers.StepPositionNeverChecks | src/elfantasma/io.py:581-584 | The consistency assertion as written accepts every scan. |
| Readers.UnevenScanExample | src/elfantasma/io.py:577-584 | Y = 0, 0, 3 is accepted with step 1.5, yet the intended check rejects it. |
| Readers.StepPositionChecked | src/elfantasma/io.py:569-587 | The step with the intended consecutive-pairs check gives 0 for at most one frame. |
| Readers.StepPositionCheckedSpec | src/elfantasma/io.py:569-587 | The checked step succeeds exactly when every consecutive Y difference is within tolerance of the mean step, and it then agrees with the unchecked value. |
| Readers.StepPositionCheckedUniform | src/elfantasma/io.py:569-587 | For evenly spaced Y, the checked step succeeds and equals the spacing. |
| Readers.SingleFrameSteps | src/elfantasma/io.py:534-587 | A one-frame dataset has step angle 1 and step position 0. |
| Mrc.TiltAngles | src/elfantasma/io.py:618-620 | Angle i is record i's "Alpha tilt". |
| Mrc.Shifts | src/elfantasma/io.py:623-627 | Position i is record i's (Shift X, Shift Y, 0). |
| Mrc.VoxelItem | src/elfantasma/io.py:633 | Indexing the zero-dimensional `voxel_size` record succeeds exactly for the field `"x"`, giving the x size. Every integer index is an index error. |
| Mrc.ReadMrc | src/elfantasma/io.py:599-636 | The read fails exactly when an FEI1 header does not have one record per frame. A non-FEI1 file reads as all-zero angles and positions. Z is always 0, and the pixel size is the voxel size. |
| Mrc.FromMrcFile | src/elfantasma/io.py:598-636 | The index loops build exactly the arrays of `ReadMrc`. |
| Mrc.WithShift | src/elfantasma/io.py:149-153 | A component write never touches the tilt, pixel-size or application fields. |
| Mrc.WithShiftRowFields | src/elfantasma/io.py:146-164 | A row write sets Shift X and Shift Y from components 0 and 1 and touches nothing else. A third component makes no difference. |
| Mrc.MrcFileWriter.constructor | src/elfantasma/io.py:166-221 | For an element type with an MRC mode after narrowing, the writer has the narrowed dtype and zero frames. Every record carries the pixel size and application name. |
| Mrc.MrcFileWriter.SetAngle | src/elfantasma/io.py:132-133 | Sets only record j's "Alpha tilt". An out-of-range index fails and changes nothing. |
| Mrc.MrcFileWriter.SetPositionComponent | src/elfantasma/io.py:146-164 | Component 0 or 1 sets Shift X or Shift Y of record j. Component 2 is discarded. No other record changes, and a bad index fails and changes nothing. |
| Mrc.MrcFileWriter.SetPositionRow | src/elfantasma/io.py:146-164 | A row write updates only record j, as `WithShiftRow` says. |
| Mrc.MrcFileWriter.SetFrame | src/elfantasma/io.py:207-219 | A frame that broadcasts to the dataset's shape is stored at slot j, broadcast and cast to the dataset's dtype. A frame that does not broadcast, or a bad index, fails and changes nothing. |
| Mrc.MrcFileWriter.Update | src/elfantasma/io.py:231-236 | Finalising is counted once per call. |
| Mrc.MrcFileWriter.PixelSize | src/elfantasma/io.py:223-229 | The getter as written indexes `voxel_size` with `[0]`, and so fails with an index error on every writer. |
| Mrc.MrcFileWriter.PixelSizeByField | src/elfantasma/io.py:223-229 | The corrected getter reads the field `"x"`, and gives exactly the pixel size that `from_mrcfile` reads back from the file. |
| Mrc.ReadBackWriter | src/elfantasma/io.py:598-636 | Reading the writer's file gives its frames, the tilt column and the shift columns with Z = 0. |
| Mrc.PixelSizeUnreadable | src/elfantasma/io.py:229 | On every writer the getter fails, although `from_mrcfile` reads a pixel size from the same file. |
| Mrc.WriteThenRead | src/elfantasma/io.py:117-236 | One angle and position written, then read back: frame j has them, except that Z becomes 0. Every other frame is zero. The dtype is narrowed. |
| Nexus.Member | src/elfantasma/io.py:652 | A group lookup succeeds exactly for a present key, and otherwise is a KeyError. |
| Nexus.Path | src/elfantasma/io.py:660-661 | A chain of lookups fails only with a missing key. |
| Nexus.RealsOf | src/elfantasma/io.py:671-673 | A one-dimensional dataset reads as its values. |
| Nexus.VolumeOf | src/elfantasma/io.py:671-673 | The image dataset reads as its volume. |
| Nexus.Translations | src/elfantasma/io.py:664-666 | Stacking the three columns succeeds exactly when their lengths agree, and row i is (x[i], y[i], z[i]). |
| Nexus.ReadNexus | src/elfantasma/io.py:638-674 | The read needs `entry` as an NXentry group whose definition is NXtomo, and yields a consistent reader. |
| Nexus.ReadNexusMarkers | src/elfantasma/io.py:652-657 | A wrong class, a wrong definition and a missing definition are each rejected with their own error. |
| Nexus.NexusWriter.constructor | src/elfantasma/io.py:309-367 | All metadata arrays are zero-filled with one entry per frame, every frame is zero, and the dtype is kept unnarrowed. |
| Nexus.NexusWriter.SetAngle | src/elfantasma/io.py:365 | Sets only rotation_angle[j]. A bad index fails and changes nothing. |
| Nexus.NexusWriter.SetTranslationComponent | src/elfantasma/io.py:287-307 | Component 0, 1 or 2 writes x, y or z_translation[j]. No other entry or array changes. |
| Nexus.NexusWriter.SetTranslationRow | src/elfantasma/io.py:287-307 | A row write stores its first three values in the three arrays at row j. |
| Nexus.NexusWriter.SetShiftComponent | src/elfantasma/io.py:256-274 | Component 0 or 1 writes x or y_shift[j]. No other entry or array changes. |
| Nexus.NexusWriter.SetShiftRow | src/elfantasma/io.py:256-274 | A row write stores its first two values in the two arrays at row j. |
| Nexus.NexusWriter.SetFrame | src/elfantasma/io.py:354-364 | A frame that broadcasts to the dataset's shape is stored at slot j, broadcast, with the dtype's kind. A frame that does not broadcast, or a bad index, fails and changes nothing. |
| Nexus.NexusWriter.Update | src/elfantasma/io.py:109-113 | Finalising is counted once per call. |
| Nexus.NexusWriter.Positions | src/elfantasma/io.py:664-666 | Position i is (x_translation[i], y_translation[i], z_translation[i]). |
| Nexus.ReadBackWriter | src/elfantasma/io.py:638-674 | A written file reads back as its frames, angles, translations and pixel size. A file with no frames has no pixel size to read. |
| Nexus.LinksShowSampleData | src/elfantasma/io.py:353-362 | Every `entry/data` name resolves to the same array as its `entry/sample` (or detector) original. |
| Nexus.PixelSizeAtRoot | src/elfantasma/io.py:369-375 | The pixel size looked up from the file root succeeds only if `instrument/detector/x_pixel_size` exists at the root. |
| Nexus.PixelSizeOfEntry | src/elfantasma/io.py:669 | The pixel size looked up under `entry` succeeds only if that path exists. |
| Nexus.PixelSizeLookup | src/elfantasma/io.py:369-375 | On any written file the root lookup fails with a missing key. The entry lookup returns the writer's pixel size, as the reader does. |
| Nexus.WriteThenRead | src/elfantasma/io.py:239-367 | One angle and position written, then read back: frame j has them, with Z kept. Every other frame is zero. |
| ImageOutput.Intensity | src/elfantasma/io.py:413-416 | A complex frame becomes its squared modulus, and a real frame is unchanged. |
| ImageOutput.Scale | src/elfantasma/io.py:427-432 | The scaled value times `vmax - vmin` is 255 times `v - vmin`. |
| ImageOutput.Bounds | src/elfantasma/io.py:412-426 | A given bound is used for real data. A missing bound, or complex data, uses the frame's min or max. An empty frame fails, and equal bounds fail. |
| ImageOutput.ScaleFrame | src/elfantasma/io.py:427-432 | Every pixel is scaled by the same linear map. |
| ImageOutput.Render | src/elfantasma/io.py:396-433 | Rendering succeeds exactly when the bounds resolve, and keeps the frame's height. |
| ImageOutput.ScaleEndpoints | src/elfantasma/io.py:427-432 | vmin maps to 0 and vmax to 255. |
| ImageOutput.ScaleMonotone | src/elfantasma/io.py:427-432 | Scaling is monotone and maps `[vmin, vmax]` into `[0, 255]`. |
| ImageOutput.PerFrameRangeFillsOutput | src/elfantasma/io.py:418-432 | With per-frame bounds, every pixel is in [0, 255], and both 0 and 255 occur. |
| ImageOutput.ImageWriter.constructor | src/elfantasma/io.py:435-451 | Angles and positions are zeros of length N, the pixel size is 0, the bounds are as given, and no file exists. |
| ImageOutput.ImageWriter.SetFrame | src/elfantasma/io.py:396-433 | A frame of the wrong shape fails. A complex frame clears both bounds for good. A frame whose bounds do not resolve fails with the bounds' error. Otherwise the write succeeds exactly when the template formats `item + 1`, and fails with `BadTemplate` when it does not. A successful write stores the rendered frame under file index `item + 1`, and nothing else changes. |
| ImageOutput.SpecEnd | src/elfantasma/io.py:431 | A specifier that Python accepts for one integer ends after a conversion character that takes the integer. A mapping key `%(` never succeeds. |
| ImageOutput.ConversionsAfterPlainText | src/elfantasma/io.py:431 | Text without `%` in front of a template does not change what formatting takes. |
| ImageOutput.PlainNameNeverFormats | src/elfantasma/io.py:431 | A name with no `%` takes no argument, so `name % n` raises for every n. |
| ImageOutput.LeadingConversion | src/elfantasma/io.py:431 | A leading `%` and a numeric conversion character take one argument, and formatting goes on with the rest. |
| ImageOutput.SingleConversionFormats | src/elfantasma/io.py:431 | One numeric conversion between two runs of plain text formats every integer. |
| ImageOutput.PaddedConversionFormats | src/elfantasma/io.py:431 | A conversion with zero padding or a width, such as `%03d`, formats every integer. |
| ImageOutput.EscapedPercentTakesNothing | src/elfantasma/io.py:431 | `%%` takes no argument. |
| ImageOutput.TwoConversionsFail | src/elfantasma/io.py:431 | Two conversions take two arguments, so formatting one integer fails. |
| ImageOutput.MappingKeyFails | src/elfantasma/io.py:431 | A mapping key such as `%(index)d` fails on an integer argument. |
| ImageOutput.StarWidthFails | src/elfantasma/io.py:431 | A `*` width takes the only argument and leaves the conversion without one. |
| ImageOutput.DanglingPercentFails | src/elfantasma/io.py:431 | A `%` at the end of the template fails. |
| ImageOutput.ImageWriter.SetVmin | src/elfantasma/io.py:469-475 | Sets only vmin. |
| ImageOutput.ImageWriter.SetVmax | src/elfantasma/io.py:477-483 | Sets only vmax. |
| ImageOutput.ImageWriter.SetAngle | src/elfantasma/io.py:449 | Sets only angle[j]. |
| ImageOutput.ImageWriter.SetPosition | src/elfantasma/io.py:450 | Sets only position[j]. |
| ImageOutput.ImageWriter.Update | src/elfantasma/io.py:109-113 | Finalising changes neither the bounds nor the files. |
| ImageOutput.ComplexFrameClearsRange | src/elfantasma/io.py:412-416 | After a complex frame, a fixed range stays cleared for the next real frame. |
| Writers.OpenMrc | src/elfantasma/io.py:711-712 | For a dtype with an MRC mode after narrowing, an MRC writer is blank, with the narrowed dtype and the given pixel size and shape. |
| Writers.OpenNexus | src/elfantasma/io.py:713-714 | A NeXus writer is blank, with the given dtype, pixel size and shape. |
| Writers.OpenImages | src/elfantasma/io.py:715-716 | An image writer is blank, with the given template and bounds, pixel size 0, and no file. |
| Writers.New | src/elfantasma/io.py:694-718 | `new` fails on an unknown extension. An MRC writer is opened exactly when the narrowed dtype has an MRC mode and no dimension is negative, and otherwise fails with `UnsupportedDType` (checked first) or a negative dimension. A NeXus writer is opened exactly when no dimension is negative. The writer is blank, with the MRC default float64 narrowed and the HDF5 default float32. An image writer takes the file name as its template. |
| Writers.ComplexRenderIgnoresRange | src/elfantasma/io.py:412-416 | What a complex frame renders to, and whether its write goes through, do not depend on the stored bounds. |
| Writers.Assigned | amplus/command_line/__init__.py:478 | What an MRC or NeXus slot holds after `data[j, :, :] = image`: defined exactly when the frame broadcasts to the slot, then of the slot's shape and kind, and the cast frame itself when the shape already matches. |
| Writers.WriteFrame | amplus/command_line/__init__.py:478-480 | Writing frame j stores the frame (broadcast where numpy broadcasts), angle and position at slot j only. It fails with a shape mismatch when the frame does not fit. It succeeds exactly when `Takes` holds: the frame fits and, on an image writer, renders with the stored range and has a name (the template formats `j + 1`). A complex frame clears the image writer's range. |
| Writers.WriteMrcFrame | amplus/command_line/__init__.py:478-480 | For MRC, the write succeeds exactly when the frame broadcasts to the slot. |
| Writers.WriteNexusFrame | amplus/command_line/__init__.py:478-480 | For NeXus, the write succeeds exactly when the frame broadcasts to the slot. |
| Writers.WriteImageFrame | amplus/command_line/__init__.py:478-480 | For images, the write succeeds exactly when the frame fits, renders, and the template formats `j + 1`. A frame that fits and renders fails with `BadTemplate` when the template does not. |
| Writers.SetRange | src/elfantasma/io.py:469-483 | Setting vmin and vmax changes no slot. |
| Writers.Update | amplus/command_line/__init__.py:483 | `update` counts once and changes no slot and no range. |
| Writers.FromFile | src/elfantasma/io.py:676-691 | `open` reads MRC or NeXus by extension, rejects the rest, and yields consistent readers. |
| Writers.ReadBackSaved | src/elfantasma/io.py:676-691 | A file saved by an MRC writer, or a non-empty NeXus writer, reads back with the written angle and position of every frame. Image files cannot be read. |
| Export.PyRange | amplus/command_line/__init__.py:352-357 | `range(*item)` fails exactly for zero or more than three arguments, or a zero step. |
| Export.RangeMembersUp | amplus/command_line/__init__.py:355 | For a positive step, x is in the range exactly when `start <= x < stop` and x is on the step grid. |
| Export.RangeMembersDown | amplus/command_line/__init__.py:355 | For a negative step, x is in the range exactly when `stop < x <= start` and x is on the step grid. |
| Export.SelectImagesExamples | amplus/command_line/__init__.py:352-357 | `0,6,2` selects 0, 2, 4; `5,0,-2` selects 5, 3, 1; `3` selects 0, 1, 2; a zero step fails. |
| Export.InWindow | amplus/command_line/__init__.py:363-364 | The test is the half-open `lo <= a < hi`. It fails with an index error when a bound is missing and is read. |
| Export.AngleSelect | amplus/command_line/__init__.py:360-368 | Every selected index is a valid frame index. |
| Export.AngleSelectSpec | amplus/command_line/__init__.py:360-368 | Keeps exactly the frames whose angle is in `[lo, hi)`, in increasing order. Fails exactly when some frame's test fails. |
| Export.SelectByAngle | amplus/command_line/__init__.py:360-368 | The append loop computes `AngleSelect`. |
| Export.BlockAt | amplus/command_line/__init__.py:374-376 | Block b's t-th element is `indices[b + t * k]`. |
| Export.InterlacePermutes | amplus/command_line/__init__.py:371-377 | The concatenated blocks are a permutation of the input, of the same length. |
| Export.Interlace | amplus/command_line/__init__.py:371-377 | For k > 1 the loop builds block 0 to block k - 1. Otherwise the order is kept, and the result is always a permutation. |
| Export.InterlaceExample | amplus/command_line/__init__.py:371-377 | Interlacing 0..4 by 2 gives 0, 2, 4, 1, 3. |
| Export.AllFrames | amplus/command_line/__init__.py:357 | The default selection is 0..N-1. |
| Export.Selected | amplus/command_line/__init__.py:352-377 | The index list fails exactly when `range(*item)` or the angle test fails. It is then a permutation of the angle window, else of the range, else of all frames, and equal to it when there is no interlacing. |
| Export.ResolveRoi | amplus/command_line/__init__.py:380-385 | The default is the full frame. A given ROI needs four values with `x1 > x0` and `y1 > y0`, else it fails. |
| Export.OutputDType | amplus/command_line/__init__.py:387-391 | float64 for every mode but `complex`, which keeps the input dtype. |
| Export.OutputGeometry | amplus/command_line/__init__.py:393-405 | The shape is (count, y1 - y0, x1 - x0), swapped under rot90. When r != 1 each extent e becomes the floor quotient q, with `q * r <= e < q * r + r` for r > 0 and the mirrored bounds for r < 0. The pixel size is multiplied by r, and a zero r fails. |
| Export.PlanOf | amplus/command_line/__init__.py:352-405 | A plan carries the arguments' transform, a geometry counting the selected frames, and the output dtype. |
| Export.MakePlan | amplus/command_line/__init__.py:352-405 | The imperative planning computes `PlanOf`. |
| Export.PlainExportCopies | amplus/command_line/__init__.py:352-480 | With no selection, ROI, rotation, rebinning or interlacing and the `complex` mode, the plan is every frame in order with the input dtype and shape, and every copied slot is the input frame with its angle and position. |
| Export.Placed | amplus/command_line/__init__.py:456-458 | Under rot90 a position becomes `(p[1], p[0], p[2])`. Otherwise it is unchanged. |
| Export.Prepared | amplus/command_line/__init__.py:450-475 | A bad index fails. A prepared frame is well formed and complex exactly when the output dtype is. |
| Export.TransformedShape | amplus/command_line/__init__.py:451-470 | Crop, rotation and mode give the region's extents, swapped under rot90. |
| Export.PreparedFitsGeometry | amplus/command_line/__init__.py:394-475 | Without rebinning, or with a factor dividing the region, every copied frame has exactly the declared shape. |
| Export.RebinMismatchExample | amplus/command_line/__init__.py:401-475 | A 29 x 29 region with rebin 2 is declared 14 x 14, but every frame is 15 x 15. |
| Export.Measured | amplus/command_line/__init__.py:417-430 | The frame scanned for the range is the region under the mode, and a bad index fails. |
| Export.Scan | amplus/command_line/__init__.py:417-436 | One minimum and one maximum per selected frame. |
| Export.ScanSpans | amplus/command_line/__init__.py:417-436 | Entry s of the scan is the true minimum and maximum of frame `indices[s]`. |
| Export.ScanPrefixFails | amplus/command_line/__init__.py:417-436 | A failure on an earlier frame is the failure of the whole scan. |
| Export.DatasetRange | amplus/command_line/__init__.py:437-438 | An empty selection has no range. |
| Export.DatasetRangeBounds | amplus/command_line/__init__.py:412-438 | The range contains every pixel of every selected frame, and both ends are attained by some selected frame. |
| Export.ComputeRange | amplus/command_line/__init__.py:412-438 | The accumulating loop computes `DatasetRange`. |
| Export.ChosenRange | amplus/command_line/__init__.py:412-444 | A truthy vmin or vmax is used as given. A missing end is scanned when a scan ran, and a given 0.0 does not override. |
| Export.ZeroVminIsIgnored | amplus/command_line/__init__.py:441-444 | `--vmin 0` leaves the scanned or unset minimum in place. |
| Export.CopyFrames | amplus/command_line/__init__.py:446-480 | The loop succeeds exactly when every selected frame prepares, fits the writer and, for images, renders and can be named. Output slot j then holds the prepared frame `indices[j]`, its angle and its placed position. A real output keeps the writer's range, and a complex output clears it. |
| Export.Open | amplus/command_line/__init__.py:409-444 | Succeeds exactly when the extension is known, the MRC dtype has a mode, the shape is not negative and, for images with a bound missing, the dataset range exists. It opens the writer its extension names, sized by the plan, with the narrowed or given dtype, and an image writer's range is `ChosenRange` of the dataset range. |
| Export.ChooseRange | amplus/command_line/__init__.py:411-444 | On a fresh image writer, succeeds exactly when both bounds are given or the dataset range exists, and then sets the range to `ChosenRange`. |
| Export.Produce | amplus/command_line/__init__.py:409-483 | Succeeds exactly when the writer opens and every selected frame can be written to it. Every slot is then as `CopyFrames` states, and `update` is called exactly once. |
| Export.PlainImageNameFails | amplus/command_line/__init__.py:409-480 | An image output whose name holds no `%` never completes once a frame is selected. |
| Export.OpenedAccepts | amplus/command_line/__init__.py:409-480 | For a writer opened from the plan, every frame being writable to it is the same as the plan-level condition `Completes`, which names no writer. |
| Export.Export | amplus/command_line/__init__.py:254-483 | The two selection options are exclusive. A planning error is returned before anything is opened. The command succeeds exactly when planning succeeds and the plan `Completes`, which for image output includes a template that formats every frame number. The writer then holds every selected frame in order and has been updated once. |

## Left out

- The MRC, HDF5 and image libraries themselves: memory mapping, header
  internals, file creation and `Image.save`. The stores are values or arrays
  of the model.
- `update_header_stats`: only counted. `Update` does not model the header
  statistics.
- Numeric precision:
  - the uint8 quantisation of rendered frames;
  - float32 storage of angles and positions;
  - rounding in the step computations;
  - the `pixel_size * 1e-10` header conversion, modelled as an exact product.

  All of these are exact `real` arithmetic in the model.
- `Images.ApplyMode`: `real`, `imaginary`, `amplitude`, `phase`, `phase_unwrap`
  and `square` are the fields of `Kernels` (or their exact definitions).
  Their floating-point behaviour is not modelled.
- `Images.Rebin`: `scipy.signal.decimate`'s filter is a parameter. Only its
  shape law is assumed (`DecimateLaw`), and its values are not modelled.
- `Images.DecimateLaw`: assumes `decimate` is total. scipy raises a
  `ValueError` when an axis is too short for the zero-phase filter's padding
  (27 samples or fewer for the default order-8 Chebyshev filter). So
  `Images.RebinShape`, `Images.RebinShapeWhenDivisible`,
  `Images.RebinFittedShape`, `Export.PreparedFitsGeometry` and everything in
  `Export` that rebins do not promise that failure.
- `Mrc.MrcFileWriter.constructor`: requires an element type that has an MRC
  mode after narrowing. For bool, int64 and uint64 the source's `ValueError`
  is returned as `UnsupportedDType` by `Writers.New` before any writer is
  constructed, and `Writers.OpenMrc` carries the same requirement.
- `Images.Cast`: does not model conversion to integer dtypes, or the warning
  numpy gives when complex data is stored into a real dataset.
- `ImageOutput.Conversions`: Python's `%` formatting of the file-name
  template is modelled only as far as it decides whether
  `template % (item + 1)` raises. The model counts the arguments the
  specifiers take, and checks that each conversion accepts an integer.
  - The formatted name itself is not built. Files are keyed by their
    1-based number.
  - Only `%%` with nothing between the signs is a literal percent sign, as
    in Python 3.7 and later.
  - A width or precision too large for a C integer, which CPython refuses,
    is not modelled.
- The mode name's validity: argparse restricts `--complex_mode` to its choices,
  so the model takes a `ComplexMode` value.
- Argument parsing, logging and `main`: the command's arguments arrive
  already parsed.
- The `simulate` command and `src/elfantasma/command_line.py` are not part of
  this model.
- The proxies' numpy broadcasting and slice indices: the model covers a single
  `(row, component)` item and a whole row.
- `ImageOutput.Bounds`: `vmax == vmin` gives a division by zero in the source
  (an infinite scale). The model reports it as `DegenerateRange`.
- `Export.Export`: when a write fails mid-loop, the model returns the error
  only. The frames already written, which remain in the file, are not
  returned.
- `Export.Export`: keeps the source's rebin. Frames can overshoot the
  declared shape (Finding 3), and the corrected rebin is proved only at the
  frame level (`Images.RebinFittedShape`).
- `Dispatch.LowerChar`: lower-cases ASCII only, and so does `Dispatch.Lower`.
  Python's `str.lower` also maps non-ASCII capitals, and can lengthen a
  string (`'İ'` becomes `'i'` and a combining dot). Dispatch is unaffected.
  No listed extension contains `k`, the only ASCII letter a non-ASCII
  capital lowers to (U+212A KELVIN SIGN). No other non-ASCII lowering gives
  an all-ASCII result.
- `mrcfile` is not part of this model. `voxel_size` is taken to be a
  zero-dimensional record array with fields x, y and z, as its use by field
  name at `src/elfantasma/io.py:633` shows. Its `voxelSize` stands for the x
  field, which the writer sets with the other two to the one pixel size.
- The writer base class's read-only properties (`shape`, `dtype`, `data`,
  `is_*_writer`) are the fields of the writer classes.

## Findings

| source | as written | input that shows it | evidently intended | confidence | as-written member | corrected member |
|---|---|---|---|---|---|---|
| src/elfantasma/io.py:581-584 | `zip(position[0:-1, 1], position[1:1])` pairs with an empty slice, so the consistency assertion of `step_position` never checks anything | Y = 0, 0, 3: the steps are 0 and 3, and 1.5 is accepted as the step | pair consecutive elements, `position[1:, 1]` | not executed | Readers.StepPositionNeverChecks, Readers.UnevenScanExample | Readers.StepPositionCheckedSpec, Readers.StepPositionCheckedUniform |
| src/elfantasma/io.py:375 | `NexusWriter.pixel_size` reads `handle["instrument"]` at the file root, where the writer never creates that group, so it always raises KeyError | any written NeXus file | look under `entry`: `handle["entry"]["instrument"]["detector"]["x_pixel_size"][0]` | not executed | Nexus.PixelSizeAtRoot, Nexus.PixelSizeLookup | Nexus.PixelSizeOfEntry, Nexus.PixelSizeLookup |
| src/elfantasma/io.py:229 | `MrcFileWriter.pixel_size` returns `self.handle.voxel_size[0]`, an integer index into a zero-dimensional record array, which raises IndexError | any MRC writer | read the field, as `from_mrcfile` does: `self.handle.voxel_size["x"]` | not executed | Mrc.MrcFileWriter.PixelSize, Mrc.PixelSizeUnreadable | Mrc.MrcFileWriter.PixelSizeByField |
| amplus/command_line/__init__.py:243-247, 401-405, 473-475 | the writer's shape uses `dim // r`, but `rebin` decimates by `q = dim // (dim // r)`, which yields `ceil(dim / q)` samples: larger than `dim // r` exactly when `dim // r` does not divide `dim` | a 29 x 29 ROI with `--rebin 2`: q = 2, the writer expects 14 x 14, every frame is 15 x 15, and the first write fails | trim each extent to a multiple of r before decimating, so frames are `dim // r` | not executed | Images.RebinShape, Images.DecimatedExtent, Images.RebinOvershoot, Export.RebinMismatchExample | Images.RebinFittedShape |

=== FILE: common.dfy ===
/** Shared value types of the dataset I/O layer: failure-carrying results, the
    error taxonomy, per-frame position vectors and numpy's integer indexing. */
module Common {

  datatype Option<T> = None | Some(value: T) {
    function GetOr(default: T): T {
      match this
      case Some(v) => v
      case None => default
    }
  }

  /** The exceptions the modelled code can raise. */
  datatype Error =
    | UnknownExtension       // RuntimeError "File with unknown extension"
    | IndexOutOfRange        // IndexError from numpy, h5py or a Python list
    | InconsistentDimensions // AssertionError "Inconsistent dimensions"
    | ExtendedHeaderMismatch // AssertionError on the FEI1 extended header size
    | NotAnEntry             // AssertionError: NX_class of /entry is not NXentry
    | NotTomography          // AssertionError: definition is not NXtomo
    | MissingKey             // KeyError from an HDF5 group lookup
    | RaggedArrays           // translations of different lengths
    | ShapeMismatch          // a frame of the wrong shape written into a dataset
    | EmptyReduction         // min/max of an empty array or list
    | DegenerateRange        // vmax == vmin when rescaling to 8 bits
    | DivisionByZero         // ZeroDivisionError
    | NegativeDimension      // an array shape with a negative extent
    | BadArguments           // argument-count or argument-value errors
    | InvalidRoi             // AssertionError on x1 > x0 / y1 > y0
    | ExclusiveOptions       // argparse: --rotation_range with --select_images
    | AssertionFailed        // any other assert in the source
    | WrongFileKind          // the file's bytes are not of the format its name says
    | UnsupportedDType       // ValueError: no MRC mode for the element type
    | BadTemplate            // TypeError or ValueError from `template % number`

  datatype Result<T> = Ok(value: T) | Err(error: Error) {
    predicate IsFailure() {
      Err?
    }

    function PropagateFailure<U>(): Result<U>
      requires Err?
    {
      Err(error)
    }

    function Extract(): T
      requires Ok?
    {
      value
    }
  }

  /** A per-frame position: in-plane X, Y and the out-of-plane coordinate. */
  datatype Vec3 = Vec3(x: real, y: real, z: real)

  const Origin := Vec3(0.0, 0.0, 0.0)

  /** numpy's rule for one integer index into an axis of length n: negative
      indices count from the end, anything else outside the axis is an
      IndexError (None here). */
  function NormIndex(i: int, n: nat): (r: Option<nat>)
    ensures r.Some? <==> -(n as int) <= i < n
    ensures r.Some? ==> r.value < n && (r.value == i || r.value == i + n)
  {
    if 0 <= i < n then Some(i)
    else if -(n as int) <= i < 0 then Some(i + n)
    else None
  }
}

=== FILE: dispatch.dfy ===
/** Choosing a backend from a file name: `os.path.splitext` on a POSIX path,
    lower-casing, and the extension lists of `new` and `Reader.from_file`. */
module Dispatch {
  import opened Common

  datatype Format = MrcFormat | NexusFormat | ImageFormat

  /** Index of the last occurrence of c in s[..i], or -1. */
  function LastBefore(s: string, c: char, i: nat): (r: int)
    requires i <= |s|
    ensures -1 <= r < i
    ensures r >= 0 ==> s[r] == c
    ensures forall k :: r < k < i ==> s[k] != c
  {
    if i == 0 then -1
    else if s[i - 1] == c then i - 1
    else LastBefore(s, c, i - 1)
  }

  /** Index of the last occurrence of c in s, or -1 (Python's str.rfind). */
  function RFind(s: string, c: char): (r: int)
    ensures -1 <= r < |s|
    ensures r >= 0 ==> s[r] == c
    ensures forall k :: r < k < |s| ==> s[k] != c
  {
    LastBefore(s, c, |s|)
  }

  /** True when every character of s[lo..hi] is a dot. */
  predicate AllDots(s: string, lo: int, hi: int)
    requires 0 <= lo <= hi <= |s|
  {
    forall k :: lo <= k < hi ==> s[k] == '.'
  }

  /** Where the extension starts, if the path has one: the last dot, provided
      it lies in the last path component and is preceded there by some
      character other than a dot (leading dots of a file name are skipped). */
  function ExtStart(p: string): (r: Option<nat>)
    ensures r.Some? ==> r.value < |p| && p[r.value] == '.' && r.value == RFind(p, '.')
    ensures r.Some? <==> exists k :: RFind(p, '/') < k < |p| && p[k] == '.' && !AllDots(p, RFind(p, '/') + 1, k)
  {
    var sepIndex := RFind(p, '/');
    var dotIndex := RFind(p, '.');
    if dotIndex > sepIndex && !AllDots(p, sepIndex + 1, dotIndex) then Some(dotIndex)
    else None
  }

  /** posixpath.splitext: (root, ext) with root + ext == p. */
  function SplitExt(p: string): (r: (string, string))
    ensures r.0 + r.1 == p
    ensures r.1 == [] || (r.1[0] == '.' && '/' !in r.1 && '.' !in r.1[1..])
    ensures r.1 != [] <==> ExtStart(p).Some?
    ensures r.1 != [] ==> |r.0| == RFind(p, '.')
  {
    match ExtStart(p)
    case None => (p, [])
    case Some(i) =>
      assert p[..i] + p[i..] == p;
      (p[..i], p[i..])
  }

  /** str.lower() on the ASCII letters. */
  function LowerChar(c: char): (r: char)
    ensures 'A' <= c <= 'Z' ==> r as int == c as int + 32
    ensures !('A' <= c <= 'Z') ==> r == c
  {
    if 'A' <= c <= 'Z' then (c as int + 32) as char else c
  }

  function Lower(s: string): (r: string)
    ensures |r| == |s|
    ensures forall k :: 0 <= k < |s| ==> r[k] == LowerChar(s[k])
  {
    seq(|s|, k requires 0 <= k < |s| => LowerChar(s[k]))
  }

  /** `os.path.splitext(filename)[1].lower()` */
  function Extension(p: string): string {
    Lower(SplitExt(p).1)
  }

  const MrcExtensions: seq<string> := [".mrc"]
  const NexusExtensions: seq<string> := [".h5", ".hdf5", ".nx", ".nxs", ".nexus", "nxtomo"]
  const ImageExtensions: seq<string> := [".png", ".jpg", ".jpeg", ".tif", ".tiff"]

  /** The backend `new` opens for a file name. */
  function WriterFormat(p: string): (r: Result<Format>)
    ensures r == Ok(MrcFormat) <==> Extension(p) in MrcExtensions
    ensures r == Ok(NexusFormat) <==> Extension(p) in NexusExtensions
    ensures r == Ok(ImageFormat) <==> Extension(p) in ImageExtensions
    ensures r.Err? ==> r.error == UnknownExtension
  {
    var e := Extension(p);
    ListsDisjoint(e);
    if e in MrcExtensions then Ok(MrcFormat)
    else if e in NexusExtensions then Ok(NexusFormat)
    else if e in ImageExtensions then Ok(ImageFormat)
    else Err(UnknownExtension)
  }

  /** No extension is in two of the dispatch lists. */
  lemma ListsDisjoint(e: string)
    ensures !(e in MrcExtensions && e in NexusExtensions)
    ensures !(e in MrcExtensions && e in ImageExtensions)
    ensures !(e in NexusExtensions && e in ImageExtensions)
  {
  }

  /** The backend `Reader.from_file` opens for a file name. */
  function ReaderFormat(p: string): (r: Result<Format>)
    ensures r == Ok(MrcFormat) <==> Extension(p) in MrcExtensions
    ensures r == Ok(NexusFormat) <==> Extension(p) in NexusExtensions
    ensures r != Ok(ImageFormat)
    ensures r.Err? ==> r.error == UnknownExtension
  {
    var e := Extension(p);
    ListsDisjoint(e);
    if e in MrcExtensions then Ok(MrcFormat)
    else if e in NexusExtensions then Ok(NexusFormat)
    else Err(UnknownExtension)
  }

  /** A lower-cased extension is empty or starts with a dot and has no other dot. */
  lemma {:induction false} ExtensionShape(p: string)
    ensures var e := Extension(p); e == [] || (e[0] == '.' && '.' !in e[1..] && '/' !in e)
  {
    var raw := SplitExt(p).1;
    var e := Extension(p);
    if e != [] {
      assert e[0] == LowerChar(raw[0]) == '.';
      forall k | 1 <= k < |e| ensures e[k] != '.' && e[k] != '/' {
        assert raw[k] in raw[1..];
        assert raw[k] in raw;
      }
      assert forall c :: c in e[1..] ==> c != '.';
    }
  }

  /** The dotless entry "nxtomo" of the NeXus list can never be matched. */
  lemma NxtomoUnreachable(p: string)
    ensures Extension(p) != "nxtomo"
  {
    ExtensionShape(p);
  }

  /** `new` routes by the lower-cased extension: .mrc to MRC, the five dotted
      NeXus extensions to NeXus, the five raster extensions to images, and
      everything else is an error. */
  lemma WriterFormatCases(p: string)
    ensures WriterFormat(p) == Ok(MrcFormat) <==> Extension(p) == ".mrc"
    ensures WriterFormat(p) == Ok(NexusFormat) <==>
      Extension(p) in [".h5", ".hdf5", ".nx", ".nxs", ".nexus"]
    ensures WriterFormat(p) == Ok(ImageFormat) <==>
      Extension(p) in [".png", ".jpg", ".jpeg", ".tif", ".tiff"]
    ensures WriterFormat(p).Err? <==>
      Extension(p) !in MrcExtensions + NexusExtensions + ImageExtensions
  {
    NxtomoUnreachable(p);
  }

  /** Reading accepts exactly the formats writing accepts, except images:
      the image backend is write-only. */
  lemma ReaderAgreesWithWriter(p: string)
    ensures ReaderFormat(p).Ok? <==> WriterFormat(p).Ok? && WriterFormat(p).value != ImageFormat
    ensures ReaderFormat(p).Ok? ==> ReaderFormat(p) == WriterFormat(p)
    ensures WriterFormat(p) == Ok(ImageFormat) ==> ReaderFormat(p) == Err(UnknownExtension)
  {
  }

  /** The last occurrence is determined by where c is and where it is not. */
  lemma RFindIs(s: string, c: char, i: int)
    requires -1 <= i < |s|
    requires i >= 0 ==> s[i] == c
    requires forall k :: i < k < |s| ==> s[k] != c
    ensures RFind(s, c) == i
  {
  }

  /** Upper-case extensions dispatch like lower-case ones; the extension is
      taken from the last path component only. */
  lemma UpperCaseMrc()
    ensures WriterFormat("run/STACK.MRC") == Ok(MrcFormat)
    ensures ReaderFormat("run/STACK.MRC") == Ok(MrcFormat)
  {
    var p := "run/STACK.MRC";
    RFindIs(p, '/', 3);
    RFindIs(p, '.', 9);
    assert !AllDots(p, 4, 9) by { assert p[4] != '.'; }
    assert SplitExt(p).1 == p[9..] == ".MRC";
    assert Extension(p) == ".mrc";
  }

  /** A dot in a directory name is not an extension. */
  lemma DotInDirectory()
    ensures WriterFormat("data.v2/file") == Err(UnknownExtension)
  {
    var p := "data.v2/file";
    RFindIs(p, '/', 7);
    RFindIs(p, '.', 4);
    assert Extension(p) == [];
  }

  /** A hidden file such as ".mrc" has no extension at all. */
  lemma HiddenFileHasNoExtension()
    ensures WriterFormat(".mrc") == Err(UnknownExtension)
  {
    var p := ".mrc";
    RFindIs(p, '/', -1);
    RFindIs(p, '.', 0);
    assert Extension(p) == [];
  }

  /** Raster images can be written but not read back. */
  lemma TiffIsWriteOnly()
    ensures WriterFormat("img.tiff") == Ok(ImageFormat)
    ensures ReaderFormat("img.tiff") == Err(UnknownExtension)
  {
    var p := "img.tiff";
    RFindIs(p, '/', -1);
    RFindIs(p, '.', 3);
    assert !AllDots(p, 0, 3) by { assert p[0] != '.'; }
    assert SplitExt(p).1 == p[3..] == ".tiff";
    assert Extension(p) == ".tiff";
  }

  /** A plain `.png` name such as `out.png` selects the image writer. */
  lemma PngIsImage()
    ensures WriterFormat("out.png") == Ok(ImageFormat)
  {
    var p := "out.png";
    RFindIs(p, '/', -1);
    RFindIs(p, '.', 3);
    assert !AllDots(p, 0, 3) by { assert p[0] != '.'; }
    assert SplitExt(p).1 == p[3..] == ".png";
    assert Extension(p) == ".png";
  }

  /** A file named with the ".nxtomo" extension is rejected by both routes. */
  lemma NxtomoFileRejected()
    ensures WriterFormat("scan.nxtomo") == Err(UnknownExtension)
    ensures ReaderFormat("scan.nxtomo") == Err(UnknownExtension)
  {
    var p := "scan.nxtomo";
    RFindIs(p, '/', -1);
    RFindIs(p, '.', 4);
    assert !AllDots(p, 0, 4) by { assert p[0] != '.'; }
    assert SplitExt(p).1 == p[4..] == ".nxtomo";
    assert Extension(p) == ".nxtomo";
  }
}

=== FILE: dtypes.dfy ===
/** numpy element types and the silent narrowing the MRC writer applies to
    the types the MRC format cannot store. */
module DTypes {

  datatype DType =
    | Bool
    | Int8 | Int16 | Int32 | Int64
    | UInt8 | UInt16 | UInt32 | UInt64
    | Float16 | Float32 | Float64
    | Complex64 | Complex128

  /** Storage width in bits of one element. */
  function Bits(d: DType): nat {
    match d
    case Bool => 8
    case Int8 => 8
    case UInt8 => 8
    case Int16 => 16
    case UInt16 => 16
    case Float16 => 16
    case Int32 => 32
    case UInt32 => 32
    case Float32 => 32
    case Int64 => 64
    case UInt64 => 64
    case Float64 => 64
    case Complex64 => 64
    case Complex128 => 128
  }

  predicate IsComplex(d: DType) {
    d == Complex64 || d == Complex128
  }

  /** The numpy kind letter: b, i, u, f or c. */
  function Kind(d: DType): char {
    match d
    case Bool => 'b'
    case Int8 => 'i'
    case Int16 => 'i'
    case Int32 => 'i'
    case Int64 => 'i'
    case UInt8 => 'u'
    case UInt16 => 'u'
    case UInt32 => 'u'
    case UInt64 => 'u'
    case Float16 => 'f'
    case Float32 => 'f'
    case Float64 => 'f'
    case Complex64 => 'c'
    case Complex128 => 'c'
  }

  /** The four types the MRC writer replaces before it opens the file. */
  predicate Narrowed(d: DType) {
    d == Int32 || d == UInt32 || d == Float64 || d == Complex128
  }

  /** MrcFileWriter's conversion table: int32 -> int16, uint32 -> uint16,
      float64 -> float32, complex128 -> complex64, anything else unchanged. */
  function Narrow(d: DType): (r: DType)
    ensures Kind(r) == Kind(d)
    ensures Narrowed(d) ==> Bits(r) * 2 == Bits(d)
    ensures !Narrowed(d) ==> r == d
    ensures !Narrowed(r)
  {
    match d
    case Int32 => Int16
    case UInt32 => UInt16
    case Float64 => Float32
    case Complex128 => Complex64
    case _ => d
  }

  /** Narrowing a type the writer has already narrowed changes nothing. */
  lemma NarrowIdempotent(d: DType)
    ensures Narrow(Narrow(d)) == Narrow(d)
  {
  }

  /** A type is left alone exactly when it is not one of the four wide types. */
  lemma NarrowFixedPoints(d: DType)
    ensures Narrow(d) == d <==> !Narrowed(d)
  {
  }

  /** Narrowing keeps complex data complex and real data real. */
  lemma NarrowKeepsComplexity(d: DType)
    ensures IsComplex(Narrow(d)) <==> IsComplex(d)
  {
  }

  /** Whether mrcfile's `mode_from_dtype` has a mode for the type: kind and
      size f2, f4, i1, i2, u1, u2 or c8. */
  predicate HasMrcMode(d: DType) {
    d in {Int8, Int16, UInt8, UInt16, Float16, Float32, Complex64}
  }

  /** After narrowing, exactly bool, int64 and uint64 are left without an MRC
      mode; every other requested type can be written. */
  lemma MrcModeAfterNarrowing(d: DType)
    ensures HasMrcMode(Narrow(d)) <==> d != Bool && d != Int64 && d != UInt64
  {
  }

  /** The dtype numpy gives for `numpy.dtype(None)`: float64. */
  const DefaultDType := Float64
}

=== FILE: export.dfy ===
/** The `export` command: choose the frames to copy (an index range, an
    angle window, an interlaced order), settle the region of interest and the
    output geometry, open a writer for the output name, fix an image writer's
    intensity range, copy frame by frame, then finalise the writer. */
module Export {
  import opened Common
  import opened DTypes
  import opened Images
  import opened Readers
  import opened Dispatch
  import opened Writers
  import opened ImageOutput

  /** The parsed options. A comma-separated option is given as the integers
      it splits into. */
  datatype ExportArgs = ExportArgs(
    output: string,
    rot90: bool,
    rotationRange: Option<seq<int>>,
    selectImages: Option<seq<int>>,
    roi: Option<seq<int>>,
    mode: ComplexMode,
    interlace: Option<int>,
    rebin: int,
    vmin: Option<real>,
    vmax: Option<real>)

  // ---------------------------------------------------------------------
  // Frame selection: --select_images

  /** The number of values in Python's range(start, stop, step). */
  function RangeLen(start: int, stop: int, step: int): nat
    requires step != 0
  {
    if step > 0 then (if stop > start then (stop - start + step - 1) / step else 0)
    else (if start > stop then (start - stop - step - 1) / (-step) else 0)
  }

  /** `list(range(*item))`: one, two or three arguments; any other count, or
      a zero step, raises. */
  function PyRange(item: seq<int>): (r: Result<seq<int>>)
    ensures r.Err? <==> |item| == 0 || |item| > 3 || (|item| == 3 && item[2] == 0)
    ensures r.Err? ==> r.error == BadArguments
  {
    if |item| == 0 || |item| > 3 then Err(BadArguments)
    else
      var start := if |item| == 1 then 0 else item[0];
      var stop := if |item| == 1 then item[0] else item[1];
      var step := if |item| == 3 then item[2] else 1;
      if step == 0 then Err(BadArguments)
      else Ok(seq(RangeLen(start, stop, step), k => start + k * step))
  }

  lemma DivUniqueInt(x: int, m: int, q: int)
    requires m > 0 && q * m <= x < q * m + m
    ensures x / m == q && x % m == x - q * m
  {
    DivUnique(x, m, q);
    assert x == (x / m) * m + x % m;
  }

  /** k is below the count ceil(d / m) exactly when k * m falls short of d. */
  lemma CountBelow(d: int, m: int, k: int)
    requires m > 0 && k >= 0
    ensures (k < (if d > 0 then (d + m - 1) / m else 0)) <==> k * m < d
  {
    MulMono(0, k, m);
    if d > 0 {
      var c := (d + m - 1) / m;
      assert c * m <= d + m - 1 < c * m + m;
      if k < c {
        MulMono(k, c - 1, m);
      } else {
        MulMono(c, k, m);
      }
    }
  }

  /** An ascending range(start, stop, step) holds exactly the values
      start + k*step below stop. */
  lemma RangeMembersUp(start: int, stop: int, step: int, x: int)
    requires step > 0
    ensures x in seq(RangeLen(start, stop, step), k => start + k * step) <==>
      start <= x < stop && (x - start) % step == 0
  {
    var s := seq(RangeLen(start, stop, step), k => start + k * step);
    assert |s| == (if stop - start > 0 then (stop - start + step - 1) / step else 0);
    if x in s {
      var k :| 0 <= k < |s| && s[k] == x;
      CountBelow(stop - start, step, k);
      MulMono(0, k, step);
      DivUniqueInt(x - start, step, k);
    }
    if start <= x < stop && (x - start) % step == 0 {
      var k := (x - start) / step;
      assert x - start == k * step + (x - start) % step;
      CountBelow(stop - start, step, k);
      assert s[k] == x;
    }
  }

  /** The k-th value of a descending range lies above stop, at a multiple of
      the step below start. */
  lemma DownMember(start: int, stop: int, step: int, k: int)
    requires step < 0 && 0 <= k < RangeLen(start, stop, step)
    ensures stop < start + k * step <= start && (start - (start + k * step)) % (-step) == 0
  {
    var m := -step;
    assert k * step == -(k * m);
    CountBelow(start - stop, m, k);
    MulMono(0, k, m);
    DivUniqueInt(k * m, m, k);
  }

  /** A value above stop at a multiple of the step below start is the k-th
      value of the descending range, for k = (start - x) / -step. */
  lemma DownIndex(start: int, stop: int, step: int, x: int)
    requires step < 0 && stop < x <= start && (start - x) % (-step) == 0
    ensures 0 <= (start - x) / (-step) < RangeLen(start, stop, step)
    ensures start + ((start - x) / (-step)) * step == x
  {
    var m := -step;
    var k := (start - x) / m;
    assert start - x == k * m + (start - x) % m;
    assert k * step == -(k * m);
    CountBelow(start - stop, m, k);
  }

  /** A descending range(start, stop, step) holds exactly the values
      start + k*step above stop. */
  lemma RangeMembersDown(start: int, stop: int, step: int, x: int)
    requires step < 0
    ensures x in seq(RangeLen(start, stop, step), k => start + k * step) <==>
      stop < x <= start && (start - x) % (-step) == 0
  {
    var s := seq(RangeLen(start, stop, step), k => start + k * step);
    if x in s {
      var k :| 0 <= k < |s| && s[k] == x;
      DownMember(start, stop, step, k);
    }
    if stop < x <= start && (start - x) % (-step) == 0 {
      DownIndex(start, stop, step, x);
      assert s[(start - x) / (-step)] == x;
    }
  }

  /** `--select_images 0,6,2` picks 0, 2, 4; `5,0,-2` picks 5, 3, 1; a
      single number n picks 0 .. n-1. */
  lemma SelectImagesExamples()
    ensures PyRange([0, 6, 2]) == Ok([0, 2, 4])
    ensures PyRange([5, 0, -2]) == Ok([5, 3, 1])
    ensures PyRange([3]) == Ok([0, 1, 2])
    ensures PyRange([0, 6, 0]) == Err(BadArguments)
  {
    assert RangeLen(0, 6, 2) == 3;
    var a := seq(3, k => 0 + k * 2);
    assert a[1] == 2 && a[2] == 4;
    assert a == [0, 2, 4];
    assert RangeLen(5, 0, -2) == 3;
    var b := seq(3, k => 5 + k * -2);
    assert b[1] == 3 && b[2] == 1;
    assert b == [5, 3, 1];
    assert RangeLen(0, 3, 1) == 3;
    var c := seq(3, k => 0 + k * 1);
    assert c[1] == 1 && c[2] == 2;
    assert c == [0, 1, 2];
  }

  // ---------------------------------------------------------------------
  // Frame selection: --rotation_range

  /** `angle >= r[0] and angle < r[1]`, evaluated left to right: indexing a
      bound that is not there raises IndexError. */
  function InWindow(a: real, bounds: seq<int>): (r: Result<bool>)
    ensures r.Err? <==> |bounds| == 0 || (|bounds| == 1 && a >= bounds[0] as real)
    ensures r.Err? ==> r.error == IndexOutOfRange
    ensures r.Ok? ==> (r.value <==> |bounds| >= 2 && bounds[0] as real <= a < bounds[1] as real)
  {
    if |bounds| == 0 then Err(IndexOutOfRange)
    else if !(a >= bounds[0] as real) then Ok(false)
    else if |bounds| < 2 then Err(IndexOutOfRange)
    else Ok(a < bounds[1] as real)
  }

  /** The frames the angle window keeps, scanning frames in order. */
  function AngleSelect(angle: seq<real>, bounds: seq<int>): (r: Result<seq<int>>)
    ensures r.Err? ==> r.error == IndexOutOfRange
    ensures r.Ok? ==> forall t :: 0 <= t < |r.value| ==> 0 <= r.value[t] < |angle|
  {
    if |angle| == 0 then Ok([])
    else
      var kept :- AngleSelect(angle[..|angle| - 1], bounds);
      var keep :- InWindow(angle[|angle| - 1], bounds);
      Ok(if keep then kept + [|angle| - 1] else kept)
  }

  predicate Increasing(s: seq<int>) {
    forall a, b :: 0 <= a < b < |s| ==> s[a] < s[b]
  }

  /** The window keeps exactly the frames whose angle lies in [lo, hi), in
      increasing order, and fails exactly when some frame's test raises. */
  lemma {:induction false} AngleSelectSpec(angle: seq<real>, bounds: seq<int>)
    ensures AngleSelect(angle, bounds).Ok? <==> forall i :: 0 <= i < |angle| ==> InWindow(angle[i], bounds).Ok?
    ensures AngleSelect(angle, bounds).Ok? ==>
      var s := AngleSelect(angle, bounds).value;
      Increasing(s) &&
      forall i :: 0 <= i < |angle| ==> (i in s <==> |bounds| >= 2 && bounds[0] as real <= angle[i] < bounds[1] as real)
  {
    if |angle| > 0 {
      var n := |angle|;
      var front := angle[..n - 1];
      AngleSelectSpec(front, bounds);
      assert forall i :: 0 <= i < n - 1 ==> front[i] == angle[i];
      if AngleSelect(angle, bounds).Ok? {
        var kept := AngleSelect(front, bounds).value;
        assert forall t :: 0 <= t < |kept| ==> kept[t] < n - 1;
        var s := AngleSelect(angle, bounds).value;
        forall i | 0 <= i < n
          ensures i in s <==> |bounds| >= 2 && bounds[0] as real <= angle[i] < bounds[1] as real
        {
          if i < n - 1 {
            assert i in s <==> i in kept;
          } else {
            assert i !in kept;
          }
        }
      }
    }
  }

  /** The rotation-range loop: walk the frames, appending each whose angle
      passes the window test. */
  method SelectByAngle(angle: seq<real>, bounds: seq<int>) returns (r: Result<seq<int>>)
    ensures r == AngleSelect(angle, bounds)
  {
    var kept: seq<int> := [];
    var i := 0;
    while i < |angle|
      invariant 0 <= i <= |angle|
      invariant AngleSelect(angle[..i], bounds) == Ok(kept)
    {
      assert angle[..i + 1][..i] == angle[..i];
      var a := angle[i];
      if |bounds| == 0 || (a >= bounds[0] as real && |bounds| < 2) {
        assert InWindow(angle[i], bounds).Err?;
        AngleSelectSpec(angle, bounds);
        return Err(IndexOutOfRange);
      }
      if a >= bounds[0] as real && a < bounds[1] as real {
        kept := kept + [i];
      }
      i := i + 1;
    }
    assert angle[..i] == angle;
    r := Ok(kept);
  }

  // ---------------------------------------------------------------------
  // Interlace

  /** `[indices[j] for j in range(b, len(indices), k)]` */
  function Block(s: seq<int>, b: nat, k: nat): seq<int>
    requires k > 0
    decreases |s| - b
  {
    if b >= |s| then [] else [s[b]] + Block(s, b + k, k)
  }

  /** Blocks 0 .. m-1 of the round-robin split, concatenated. */
  function Blocks(s: seq<int>, k: nat, m: nat): seq<int>
    requires k > 0
  {
    if m == 0 then [] else Blocks(s, k, m - 1) + Block(s, m - 1, k)
  }

  lemma ModResidue(n: nat, k: nat, b: nat)
    requires 0 <= b < k
    ensures (b <= n && (n - b) % k == 0) <==> n % k == b
  {
    if n % k == b {
      DivUniqueInt(n - b, k, n / k);
    }
    if b <= n && (n - b) % k == 0 {
      var q := (n - b) / k;
      assert n - b == q * k;
      DivUniqueInt(n, k, q);
    }
  }

  /** A positive n is a multiple of k exactly when n - k is a non-negative
      one. */
  lemma ShiftResidue(n: int, k: int)
    requires n > 0 && k > 0
    ensures n % k == 0 <==> (k <= n && (n - k) % k == 0)
  {
    if n % k == 0 {
      DivUniqueInt(n - k, k, n / k - 1);
    }
    if k <= n && (n - k) % k == 0 {
      DivUniqueInt(n, k, (n - k) / k + 1);
    }
  }

  /** Appending one index adds it to the block its position falls in. */
  lemma {:induction false} BlockSnoc(s: seq<int>, x: int, b: nat, k: nat)
    requires k > 0
    ensures Block(s + [x], b, k) ==
      Block(s, b, k) + (if b <= |s| && (|s| - b) % k == 0 then [x] else [])
    decreases |s| + 1 - b
  {
    var t := s + [x];
    if b < |s| {
      BlockSnoc(s, x, b + k, k);
      ShiftResidue(|s| - b, k);
      assert Block(t, b, k) == [s[b]] + Block(t, b + k, k);
      assert Block(s, b, k) == [s[b]] + Block(s, b + k, k);
    } else if b == |s| {
      assert Block(t, b + k, k) == [];
      assert Block(t, b, k) == [x];
    }
  }

  lemma UnionSnoc(a: seq<int>, b: seq<int>, bt: seq<int>, bs: seq<int>, x: int, inA: bool, inB: bool)
    requires !(inA && inB)
    requires inA ==> multiset(a) == multiset(b) + multiset{x}
    requires !inA ==> multiset(a) == multiset(b)
    requires inB ==> bt == bs + [x]
    requires !inB ==> bt == bs
    ensures inA || inB ==> multiset(a + bt) == multiset(b + bs) + multiset{x}
    ensures !inA && !inB ==> multiset(a + bt) == multiset(b + bs)
  {
  }

  /** Appending an index whose position has residue c modulo k adds it to
      block c and to no other. */
  lemma {:induction false} BlocksSnoc(s: seq<int>, x: int, k: nat, m: nat, c: nat)
    requires 0 < k && m <= k && c < k && c == |s| % k
    ensures c < m ==> multiset(Blocks(s + [x], k, m)) == multiset(Blocks(s, k, m)) + multiset{x}
    ensures c >= m ==> multiset(Blocks(s + [x], k, m)) == multiset(Blocks(s, k, m))
  {
    if m > 0 {
      var t := s + [x];
      BlocksSnoc(s, x, k, m - 1, c);
      BlockSnoc(s, x, m - 1, k);
      ModResidue(|s|, k, m - 1);
      assert Blocks(t, k, m) == Blocks(t, k, m - 1) + Block(t, m - 1, k);
      assert Blocks(s, k, m) == Blocks(s, k, m - 1) + Block(s, m - 1, k);
      UnionSnoc(Blocks(t, k, m - 1), Blocks(s, k, m - 1), Block(t, m - 1, k), Block(s, m - 1, k), x, c < m - 1, c == m - 1);
    }
  }

  lemma {:induction false} BlocksOfEmpty(k: nat, m: nat)
    requires k > 0
    ensures Blocks([], k, m) == []
  {
    if m > 0 {
      BlocksOfEmpty(k, m - 1);
    }
  }

  /** Interlacing reorders the selection: every index is kept, once. */
  lemma {:induction false} InterlacePermutes(s: seq<int>, k: nat)
    requires k > 0
    ensures multiset(Blocks(s, k, k)) == multiset(s)
    ensures |Blocks(s, k, k)| == |s|
  {
    if |s| == 0 {
      BlocksOfEmpty(k, k);
    } else {
      var front := s[..|s| - 1];
      InterlacePermutes(front, k);
      BlocksSnoc(front, s[|s| - 1], k, k, |front| % k);
      assert front + [s[|s| - 1]] == s;
    }
    assert |multiset(Blocks(s, k, k))| == |multiset(s)|;
  }

  /** Block b lists the indices at positions b, b + k, b + 2k, ... */
  lemma {:induction false} BlockAt(s: seq<int>, b: nat, k: nat, t: nat)
    requires k > 0 && b + t * k < |s|
    ensures t < |Block(s, b, k)| && Block(s, b, k)[t] == s[b + t * k]
    decreases t
  {
    if t > 0 {
      assert b + t * k == (b + k) + (t - 1) * k;
      BlockAt(s, b + k, k, t - 1);
    }
  }

  /** The interlace loop: append block 0, then block 1, ... then block k-1.
      A missing factor or one below 2 leaves the order as it is. */
  method Interlace(indices: seq<int>, factor: Option<int>) returns (r: seq<int>)
    ensures factor.Some? && factor.value > 1 ==> r == Blocks(indices, factor.value, factor.value)
    ensures !(factor.Some? && factor.value > 1) ==> r == indices
    ensures |r| == |indices| && multiset(r) == multiset(indices)
  {
    if factor.None? || factor.value <= 1 {
      return indices;
    }
    var k := factor.value;
    r := [];
    var b := 0;
    while b < k
      invariant 0 <= b <= k && r == Blocks(indices, k, b)
    {
      r := r + Block(indices, b, k);
      b := b + 1;
    }
    InterlacePermutes(indices, k);
  }

  /** Interlacing 0 .. 4 by 2 gives the even positions, then the odd ones. */
  lemma InterlaceExample()
    ensures Blocks([0, 1, 2, 3, 4], 2, 2) == [0, 2, 4, 1, 3]
  {
    var s := [0, 1, 2, 3, 4];
    assert Block(s, 4, 2) == [4];
    assert Block(s, 3, 2) == [3];
    assert Block(s, 2, 2) == [2, 4];
    assert Block(s, 1, 2) == [1, 3];
  }

  /** range(n): the default selection. */
  function AllFrames(n: nat): (r: seq<int>)
    ensures |r| == n && forall t :: 0 <= t < n ==> r[t] == t
  {
    seq(n, t => t)
  }

  /** The selected indices, in copy order: the index range (or every frame),
      replaced by the angle window when one is given, then interlaced. */
  function Selected(args: ExportArgs, reader: Reader): (r: Result<seq<int>>)
    ensures r.Err? <==>
      (args.selectImages.Some? && PyRange(args.selectImages.value).Err?) ||
      (args.rotationRange.Some? && AngleSelect(reader.angle, args.rotationRange.value).Err?)
    ensures r.Ok? ==>
      var chosen := if args.rotationRange.Some? then AngleSelect(reader.angle, args.rotationRange.value).value
                    else if args.selectImages.Some? then PyRange(args.selectImages.value).value
                    else AllFrames(|reader.data.frames|);
      |r.value| == |chosen| && multiset(r.value) == multiset(chosen) &&
      (args.interlace.None? || args.interlace.value <= 1 ==> r.value == chosen)
  {
    var base :- if args.selectImages.Some? then PyRange(args.selectImages.value)
                else Ok(AllFrames(|reader.data.frames|));
    var chosen :- if args.rotationRange.Some? then AngleSelect(reader.angle, args.rotationRange.value)
                  else Ok(base);
    if args.interlace.Some? && args.interlace.value > 1 then
      InterlacePermutes(chosen, args.interlace.value);
      Ok(Blocks(chosen, args.interlace.value, args.interlace.value))
    else Ok(chosen)
  }

  // ---------------------------------------------------------------------
  // Region of interest, element type and geometry

  datatype Roi = Roi(x0: int, y0: int, x1: int, y1: int)

  /** `x0, y0, x1, y1 = ...; assert x1 > x0; assert y1 > y0`, or the whole
      frame (0, 0, W, H) when no region is given. */
  function ResolveRoi(roi: Option<seq<int>>, height: nat, width: nat): (r: Result<Roi>)
    ensures roi.None? ==> r == Ok(Roi(0, 0, width, height))
    ensures roi.Some? && |roi.value| != 4 ==> r == Err(BadArguments)
    ensures roi.Some? && |roi.value| == 4 ==>
      (r.Ok? <==> roi.value[2] > roi.value[0] && roi.value[3] > roi.value[1])
    ensures roi.Some? && r.Ok? ==> r.value.x1 > r.value.x0 && r.value.y1 > r.value.y0
    ensures roi.Some? && r.Ok? ==> r.value == Roi(roi.value[0], roi.value[1], roi.value[2], roi.value[3])
    ensures roi.Some? && |roi.value| == 4 && r.Err? ==> r.error == InvalidRoi
  {
    match roi
    case None => Ok(Roi(0, 0, width, height))
    case Some(v) =>
      if |v| != 4 then Err(BadArguments)
      else if !(v[2] > v[0]) || !(v[3] > v[1]) then Err(InvalidRoi)
      else Ok(Roi(v[0], v[1], v[2], v[3]))
  }

  /** The output element type: float64 for every mode but `complex`, which
      keeps the input's. */
  function OutputDType(mode: ComplexMode, input: DType): (d: DType)
    ensures mode != AsComplex ==> d == Float64 && !IsComplex(d)
    ensures mode == AsComplex ==> d == input
  {
    if mode != AsComplex then Float64 else input
  }

  /** The declared output: frame count, rows, columns and pixel size. */
  datatype Geometry = Geometry(count: nat, rows: int, cols: int, pixelSize: real)

  /** The frame extents after the region of interest and the quarter turn. */
  function Rows(roi: Roi, rot90: bool): int {
    if rot90 then roi.x1 - roi.x0 else roi.y1 - roi.y0
  }

  function Cols(roi: Roi, rot90: bool): int {
    if rot90 then roi.y1 - roi.y0 else roi.x1 - roi.x0
  }

  /** shape = (N, y1 - y0, x1 - x0), its last two extents swapped under
      rot90 and floor-divided by the rebin factor, which also scales the
      pixel size; a zero factor divides by zero. */
  function OutputGeometry(count: nat, roi: Roi, rot90: bool, rebin: int, pixelSize: real): (r: Result<Geometry>)
    ensures r.Err? <==> rebin == 0
    ensures r.Err? ==> r.error == DivisionByZero
    ensures r.Ok? ==> r.value.count == count
    ensures r.Ok? ==> r.value.pixelSize == if rebin == 1 then pixelSize else pixelSize * rebin as real
    ensures r.Ok? && rebin == 1 ==>
      (r.value.rows, r.value.cols) == if rot90 then (roi.x1 - roi.x0, roi.y1 - roi.y0) else (roi.y1 - roi.y0, roi.x1 - roi.x0)
    ensures r.Ok? && rebin > 0 && roi.y1 > roi.y0 && roi.x1 > roi.x0 ==>
      0 <= r.value.rows && 0 <= r.value.cols
    ensures r.Ok? && rebin < 0 && roi.y1 - roi.y0 >= -rebin && roi.x1 - roi.x0 >= -rebin ==>
      r.value.rows < 0 && r.value.cols < 0
    ensures r.Ok? && rebin > 0 ==>
      r.value.rows * rebin <= Rows(roi, rot90) < r.value.rows * rebin + rebin &&
      r.value.cols * rebin <= Cols(roi, rot90) < r.value.cols * rebin + rebin
    ensures r.Ok? && rebin < 0 ==>
      r.value.rows * rebin >= Rows(roi, rot90) > r.value.rows * rebin + rebin &&
      r.value.cols * rebin >= Cols(roi, rot90) > r.value.cols * rebin + rebin
  {
    var rows := Rows(roi, rot90);
    var cols := Cols(roi, rot90);
    if rebin == 1 then Ok(Geometry(count, rows, cols, pixelSize))
    else if rebin == 0 then Err(DivisionByZero)
    else
      var q0 := FloorDiv(rows, rebin);
      var q1 := FloorDiv(cols, rebin);
      FloorDivSign(rows, rebin);
      FloorDivSign(cols, rebin);
      Ok(Geometry(count, q0, q1, pixelSize * rebin as real))
  }

  /** How each copied frame is cut out and transformed. */
  datatype Transform = Transform(roi: Roi, rot90: bool, mode: ComplexMode, rebin: int)

  /** Everything decided before the output is opened. */
  datatype Plan = Plan(indices: seq<int>, transform: Transform, dtype: DType, geometry: Geometry)

  /** The decisions `export` makes before it opens the output, in its order:
      selection, angle window, interlace, ROI, element type, geometry. */
  function PlanOf(args: ExportArgs, reader: Reader): (r: Result<Plan>)
    ensures r.Ok? ==> r.value.transform.rebin == args.rebin && args.rebin != 0
    ensures r.Ok? ==> r.value.transform.mode == args.mode && r.value.transform.rot90 == args.rot90
    ensures r.Ok? ==> r.value.geometry.count == |r.value.indices|
    ensures r.Ok? ==> r.value.dtype == OutputDType(args.mode, reader.data.dtype)
  {
    var indices :- Selected(args, reader);
    var roi :- ResolveRoi(args.roi, reader.data.height, reader.data.width);
    var geometry :- OutputGeometry(|indices|, roi, args.rot90, args.rebin, reader.pixelSize);
    Ok(Plan(indices, Transform(roi, args.rot90, args.mode, args.rebin),
            OutputDType(args.mode, reader.data.dtype), geometry))
  }

  /** The planning steps, with the two loops the command runs. */
  method MakePlan(args: ExportArgs, reader: Reader) returns (r: Result<Plan>)
    ensures r == PlanOf(args, reader)
  {
    var indices: seq<int>;
    if args.selectImages.Some? {
      var picked := PyRange(args.selectImages.value);
      if picked.Err? {
        return Err(picked.error);
      }
      indices := picked.value;
    } else {
      indices := AllFrames(|reader.data.frames|);
    }
    if args.rotationRange.Some? {
      var kept := SelectByAngle(reader.angle, args.rotationRange.value);
      if kept.Err? {
        return Err(kept.error);
      }
      indices := kept.value;
    }
    indices := Interlace(indices, args.interlace);
    var roi := ResolveRoi(args.roi, reader.data.height, reader.data.width);
    if roi.Err? {
      return Err(roi.error);
    }
    var geometry := OutputGeometry(|indices|, roi.value, args.rot90, args.rebin, reader.pixelSize);
    if geometry.Err? {
      return Err(geometry.error);
    }
    r := Ok(Plan(indices, Transform(roi.value, args.rot90, args.mode, args.rebin),
                 OutputDType(args.mode, reader.data.dtype), geometry.value));
  }

  // ---------------------------------------------------------------------
  // One frame

  /** `(p[1], p[0], p[2])` under rot90, else p. */
  function Placed(p: Vec3, rot90: bool): (q: Vec3)
    ensures q.z == p.z
    ensures rot90 ==> q.x == p.y && q.y == p.x
    ensures !rot90 ==> q == p
  {
    if rot90 then Vec3(p.y, p.x, p.z) else p
  }

  /** The frame the copy loop writes for input index i:
      `reader.data[i, y0:y1, x0:x1]`, rotated, transformed, rebinned. */
  function Prepared(reader: Reader, i: int, t: Transform, k: Kernels): (r: Result<Image>)
    requires VolumeValid(reader.data) && t.rebin != 0
    ensures NormIndex(i, |reader.data.frames|).None? ==> r == Err(IndexOutOfRange)
    ensures DecimateLaw(k) && r.Ok? ==>
      WellFormed(r.value) && r.value.complex == IsComplex(OutputDType(t.mode, reader.data.dtype))
  {
    match NormIndex(i, |reader.data.frames|)
    case None => Err(IndexOutOfRange)
    case Some(n) =>
      var crop := Crop(reader.data.frames[n], t.roi.y0, t.roi.y1, t.roi.x0, t.roi.x1);
      var turned := if t.rot90 then Rot90(crop) else crop;
      var frame := ApplyMode(t.mode, turned, k);
      if t.rebin != 1 then Rebin(frame, t.rebin, k) else Ok(frame)
  }

  /** A region inside the frame, turned and transformed, has the region's
      extents, swapped under rot90. */
  lemma TransformedShape(img: Image, t: Transform, k: Kernels)
    requires WellFormed(img)
    requires 0 <= t.roi.y0 < t.roi.y1 <= Height(img) && 0 <= t.roi.x0 < t.roi.x1 <= img.width
    ensures var crop := Crop(img, t.roi.y0, t.roi.y1, t.roi.x0, t.roi.x1);
      var frame := ApplyMode(t.mode, if t.rot90 then Rot90(crop) else crop, k);
      var h := t.roi.y1 - t.roi.y0;
      var w := t.roi.x1 - t.roi.x0;
      WellFormed(frame) && HasShape(frame, if t.rot90 then w else h, if t.rot90 then h else w)
  {
    CropInside(img, t.roi.y0, t.roi.y1, t.roi.x0, t.roi.x1);
  }

  /** When the region lies inside the frames and the rebin factor is 1 or
      divides the region's extents, every copied frame has exactly the
      declared output shape. */
  lemma PreparedFitsGeometry(reader: Reader, i: int, t: Transform, k: Kernels, g: Geometry)
    requires VolumeValid(reader.data) && DecimateLaw(k) && t.rebin != 0
    requires NormIndex(i, |reader.data.frames|).Some?
    requires 0 <= t.roi.y0 < t.roi.y1 <= reader.data.height && 0 <= t.roi.x0 < t.roi.x1 <= reader.data.width
    requires t.rebin == 1 || (t.rebin > 0 &&
      (t.roi.y1 - t.roi.y0) % t.rebin == 0 && (t.roi.x1 - t.roi.x0) % t.rebin == 0 &&
      t.roi.y1 - t.roi.y0 >= t.rebin && t.roi.x1 - t.roi.x0 >= t.rebin)
    requires OutputGeometry(0, t.roi, t.rot90, t.rebin, 0.0) == Ok(g)
    ensures Prepared(reader, i, t, k).Ok?
    ensures g.rows >= 0 && g.cols >= 0 && HasShape(Prepared(reader, i, t, k).value, g.rows, g.cols)
  {
    var img := reader.data.frames[NormIndex(i, |reader.data.frames|).value];
    TransformedShape(img, t, k);
    if t.rebin != 1 {
      var crop := Crop(img, t.roi.y0, t.roi.y1, t.roi.x0, t.roi.x1);
      RebinnedFitsGeometry(ApplyMode(t.mode, if t.rot90 then Rot90(crop) else crop, k), t, k, g);
    }
  }

  /** The rebinning step of `PreparedFitsGeometry`: a transformed frame whose
      extents the factor divides rebins to the declared shape. */
  lemma RebinnedFitsGeometry(frame: Image, t: Transform, k: Kernels, g: Geometry)
    requires WellFormed(frame) && DecimateLaw(k) && t.rebin > 0
    requires Rows(t.roi, t.rot90) >= t.rebin && Cols(t.roi, t.rot90) >= t.rebin
    requires HasShape(frame, Rows(t.roi, t.rot90), Cols(t.roi, t.rot90))
    requires Rows(t.roi, t.rot90) % t.rebin == 0 && Cols(t.roi, t.rot90) % t.rebin == 0
    requires OutputGeometry(0, t.roi, t.rot90, t.rebin, 0.0) == Ok(g)
    ensures Rebin(frame, t.rebin, k).Ok? && HasShape(Rebin(frame, t.rebin, k).value, g.rows, g.cols)
  {
    DivUnique(Rows(t.roi, t.rot90), t.rebin, g.rows);
    DivUnique(Cols(t.roi, t.rot90), t.rebin, g.cols);
    RebinShapeWhenDivisible(frame, t.rebin, k);
  }

  /** With a 29 x 29 region and --rebin 2 the output is declared 14 x 14 but
      each rebinned frame is 15 x 15, so the first write fails. */
  lemma RebinMismatchExample(reader: Reader, i: int, t: Transform, k: Kernels)
    requires VolumeValid(reader.data) && DecimateLaw(k)
    requires NormIndex(i, |reader.data.frames|).Some?
    requires t == Transform(Roi(0, 0, 29, 29), false, AsComplex, 2)
    requires reader.data.height == 29 && reader.data.width == 29
    ensures OutputGeometry(1, t.roi, false, 2, 1.0) == Ok(Geometry(1, 14, 14, 2.0))
    ensures Prepared(reader, i, t, k).Ok?
    ensures HasShape(Prepared(reader, i, t, k).value, 15, 15)
  {
    var img := reader.data.frames[NormIndex(i, |reader.data.frames|).value];
    CropInside(img, 0, 29, 0, 29);
    RebinOvershoot(Crop(img, 0, 29, 0, 29), k);
  }

  // ---------------------------------------------------------------------
  // The intensity range of an image writer

  /** The frame the range scan looks at: the region of frame i under the
      complex mode (no rotation, no rebinning). */
  function Measured(reader: Reader, i: int, t: Transform, k: Kernels): (r: Result<Image>)
    requires VolumeValid(reader.data)
    ensures NormIndex(i, |reader.data.frames|).None? ==> r == Err(IndexOutOfRange)
    ensures r.Ok? ==> WellFormed(r.value)
  {
    match NormIndex(i, |reader.data.frames|)
    case None => Err(IndexOutOfRange)
    case Some(n) =>
      Ok(ApplyMode(t.mode, Crop(reader.data.frames[n], t.roi.y0, t.roi.y1, t.roi.x0, t.roi.x1), k))
  }

  /** The per-frame minima and maxima, in selection order. */
  datatype Extremes = Extremes(mins: seq<real>, maxs: seq<real>)

  /** Frame i's region has minimum lo and maximum hi. */
  predicate Spans(reader: Reader, i: int, t: Transform, k: Kernels, lo: real, hi: real)
    requires VolumeValid(reader.data)
  {
    Measured(reader, i, t, k).Ok? &&
    ImageMin(Measured(reader, i, t, k).value) == Ok(lo) &&
    ImageMax(Measured(reader, i, t, k).value) == Ok(hi)
  }

  /** `min_image` and `max_image` after scanning the given indices; the
      first index out of range or empty region raises. */
  function Scan(reader: Reader, indices: seq<int>, t: Transform, k: Kernels): (r: Result<Extremes>)
    requires VolumeValid(reader.data)
    ensures r.Ok? ==> |r.value.mins| == |indices| && |r.value.maxs| == |indices|
  {
    if |indices| == 0 then Ok(Extremes([], []))
    else
      var e :- Scan(reader, indices[..|indices| - 1], t, k);
      var img :- Measured(reader, indices[|indices| - 1], t, k);
      var lo :- ImageMin(img);
      Ok(Extremes(e.mins + [lo], e.maxs + [ImageMax(img).value]))
  }

  /** One step of a successful scan: the last index appends its region's
      minimum and maximum to those of the indices before it. */
  lemma ScanLast(reader: Reader, indices: seq<int>, t: Transform, k: Kernels)
    requires VolumeValid(reader.data) && |indices| > 0 && Scan(reader, indices, t, k).Ok?
    ensures Scan(reader, indices[..|indices| - 1], t, k).Ok?
    ensures var e := Scan(reader, indices[..|indices| - 1], t, k).value;
      var r := Scan(reader, indices, t, k).value;
      var n := |indices| - 1;
      r.mins == e.mins + [r.mins[n]] && r.maxs == e.maxs + [r.maxs[n]] &&
      Spans(reader, indices[n], t, k, r.mins[n], r.maxs[n])
  {
    var n := |indices| - 1;
    var e := Scan(reader, indices[..n], t, k);
    var img := Measured(reader, indices[n], t, k);
    assert e.Ok? && img.Ok? && ImageMin(img.value).Ok?;
    var lo, hi := ImageMin(img.value).value, ImageMax(img.value).value;
    assert Spans(reader, indices[n], t, k, lo, hi);
    assert Scan(reader, indices, t, k) == Ok(Extremes(e.value.mins + [lo], e.value.maxs + [hi]));
    assert (e.value.mins + [lo])[n] == lo && (e.value.maxs + [hi])[n] == hi;
  }

  /** Every selected index spans the recorded minimum and maximum at its
      position. */
  predicate AllSpan(reader: Reader, indices: seq<int>, t: Transform, k: Kernels, e: Extremes)
    requires VolumeValid(reader.data)
  {
    |e.mins| == |indices| && |e.maxs| == |indices| &&
    forall s :: 0 <= s < |indices| ==> Spans(reader, indices[s], t, k, e.mins[s], e.maxs[s])
  }

  lemma SpansAt(reader: Reader, indices: seq<int>, t: Transform, k: Kernels, e: Extremes, s: nat)
    requires VolumeValid(reader.data) && AllSpan(reader, indices, t, k, e) && s < |indices|
    ensures Spans(reader, indices[s], t, k, e.mins[s], e.maxs[s])
  {
  }

  lemma AllSpanSnoc(reader: Reader, indices: seq<int>, t: Transform, k: Kernels, e: Extremes, lo: real, hi: real)
    requires VolumeValid(reader.data) && |indices| > 0
    requires AllSpan(reader, indices[..|indices| - 1], t, k, e)
    requires Spans(reader, indices[|indices| - 1], t, k, lo, hi)
    ensures AllSpan(reader, indices, t, k, Extremes(e.mins + [lo], e.maxs + [hi]))
  {
    var n := |indices| - 1;
    var front := indices[..n];
    assert |e.mins| == n && |e.maxs| == n;
    var mins := e.mins + [lo];
    var maxs := e.maxs + [hi];
    assert mins[n] == lo && maxs[n] == hi;
    forall s | 0 <= s < |indices|
      ensures Spans(reader, indices[s], t, k, mins[s], maxs[s])
    {
      if s < n {
        SpansAt(reader, front, t, k, e, s);
        assert front[s] == indices[s] && mins[s] == e.mins[s] && maxs[s] == e.maxs[s];
      }
    }
  }

  /** A successful scan records, for each selected index in order, the
      minimum and maximum of that frame's region. */
  lemma {:induction false} ScanSpans(reader: Reader, indices: seq<int>, t: Transform, k: Kernels)
    requires VolumeValid(reader.data) && Scan(reader, indices, t, k).Ok?
    ensures AllSpan(reader, indices, t, k, Scan(reader, indices, t, k).value)
  {
    if |indices| > 0 {
      var n := |indices| - 1;
      ScanLast(reader, indices, t, k);
      ScanSpans(reader, indices[..n], t, k);
      var r := Scan(reader, indices, t, k).value;
      AllSpanSnoc(reader, indices, t, k, Scan(reader, indices[..n], t, k).value, r.mins[n], r.maxs[n]);
    }
  }

  /** `(min(min_image), max(max_image))`; an empty selection raises. */
  function DatasetRange(reader: Reader, indices: seq<int>, t: Transform, k: Kernels): (r: Result<(real, real)>)
    requires VolumeValid(reader.data)
    ensures |indices| == 0 ==> r == Err(EmptyReduction)
  {
    var e :- Scan(reader, indices, t, k);
    if |e.mins| == 0 then Err(EmptyReduction) else Ok((SeqMin(e.mins), SeqMax(e.maxs)))
  }

  lemma {:induction false} ScanPrefixFails(reader: Reader, indices: seq<int>, t: Transform, k: Kernels, m: nat)
    requires VolumeValid(reader.data)
    requires m <= |indices| && Scan(reader, indices[..m], t, k).Err?
    ensures Scan(reader, indices, t, k) == Err(Scan(reader, indices[..m], t, k).error)
    decreases |indices|
  {
    if m < |indices| {
      var front := indices[..|indices| - 1];
      assert front[..m] == indices[..m];
      ScanPrefixFails(reader, front, t, k, m);
    } else {
      assert indices[..m] == indices;
    }
  }

  /** The range scan bounds every pixel of every selected frame's region and
      each end is attained by some pixel. */
  lemma DatasetRangeBounds(reader: Reader, indices: seq<int>, t: Transform, k: Kernels)
    requires VolumeValid(reader.data)
    requires DatasetRange(reader, indices, t, k).Ok?
    ensures var (lo, hi) := DatasetRange(reader, indices, t, k).value;
      forall s :: 0 <= s < |indices| ==>
        Measured(reader, indices[s], t, k).Ok? &&
        var img := Measured(reader, indices[s], t, k).value;
        forall i, j :: 0 <= i < Height(img) && 0 <= j < img.width ==> lo <= img.rows[i][j].re <= hi
    ensures var (lo, hi) := DatasetRange(reader, indices, t, k).value;
      (exists s :: 0 <= s < |indices| && ImageMin(Measured(reader, indices[s], t, k).value) == Ok(lo)) &&
      (exists s :: 0 <= s < |indices| && ImageMax(Measured(reader, indices[s], t, k).value) == Ok(hi))
  {
    ScanSpans(reader, indices, t, k);
    var e := Scan(reader, indices, t, k).value;
    var lo := SeqMin(e.mins);
    var hi := SeqMax(e.maxs);
    forall s | 0 <= s < |indices|
      ensures var img := Measured(reader, indices[s], t, k).value;
        forall i, j :: 0 <= i < Height(img) && 0 <= j < img.width ==> lo <= img.rows[i][j].re <= hi
    {
      assert lo <= e.mins[s] && e.maxs[s] <= hi;
    }
    var s0 :| 0 <= s0 < |e.mins| && lo == e.mins[s0];
    var s1 :| 0 <= s1 < |e.maxs| && hi == e.maxs[s1];
    assert ImageMin(Measured(reader, indices[s0], t, k).value) == Ok(lo);
    assert ImageMax(Measured(reader, indices[s1], t, k).value) == Ok(hi);
  }

  /** The range loop: for each selected index, numpy.min and numpy.max of
      the transformed region, collected; then the min of the minima and the
      max of the maxima. */
  method ComputeRange(reader: Reader, indices: seq<int>, t: Transform, k: Kernels) returns (r: Result<(real, real)>)
    requires VolumeValid(reader.data)
    ensures r == DatasetRange(reader, indices, t, k)
  {
    var mins: seq<real> := [];
    var maxs: seq<real> := [];
    for s := 0 to |indices|
      invariant Scan(reader, indices[..s], t, k) == Ok(Extremes(mins, maxs))
    {
      assert indices[..s + 1][..s] == indices[..s];
      var img := Measured(reader, indices[s], t, k);
      if img.Err? {
        ScanPrefixFails(reader, indices, t, k, s + 1);
        return Err(img.error);
      }
      var lo := ImageMin(img.value);
      if lo.Err? {
        ScanPrefixFails(reader, indices, t, k, s + 1);
        return Err(lo.error);
      }
      var hi := ImageMax(img.value).value;
      mins := mins + [lo.value];
      maxs := maxs + [hi];
    }
    assert indices[..|indices|] == indices;
    if |mins| == 0 {
      return Err(EmptyReduction);
    }
    r := Ok((SeqMin(mins), SeqMax(maxs)));
  }

  /** Python truthiness of an optional float: None and 0.0 are false. */
  predicate Truthy(v: Option<real>) {
    v.Some? && v.value != 0.0
  }

  /** The range an image writer ends up with: the scanned range when either
      end was not given, each end then replaced by its option when that is
      truthy. */
  function ChosenRange(vmin: Option<real>, vmax: Option<real>, scanned: Result<(real, real)>): (r: (Option<real>, Option<real>))
    ensures Truthy(vmin) ==> r.0 == vmin
    ensures Truthy(vmax) ==> r.1 == vmax
    ensures !Truthy(vmin) && vmin.Some? && vmax.Some? ==> r.0 == None
    ensures !Truthy(vmax) && vmin.Some? && vmax.Some? ==> r.1 == None
    ensures (vmin.None? || vmax.None?) && scanned.Ok? ==>
      (!Truthy(vmin) ==> r.0 == Some(scanned.value.0)) && (!Truthy(vmax) ==> r.1 == Some(scanned.value.1))
  {
    var base := if (vmin.None? || vmax.None?) && scanned.Ok?
                then (Some(scanned.value.0), Some(scanned.value.1)) else (None, None);
    (if Truthy(vmin) then vmin else base.0, if Truthy(vmax) then vmax else base.1)
  }

  /** A given --vmin 0 does not override, and with both ends given nothing
      is scanned: the writer keeps no lower bound. */
  lemma ZeroVminIsIgnored(scanned: Result<(real, real)>)
    ensures ChosenRange(Some(0.0), Some(5.0), scanned) == (None, Some(5.0))
    ensures ChosenRange(Some(0.0), None, Ok((1.0, 9.0))) == (Some(1.0), Some(9.0))
  {
  }

  // ---------------------------------------------------------------------
  // The copy loop and the command

  /** The slot the copy loop leaves at output position j. */
  function CopiedSlot(w: Writer, reader: Reader, plan: Plan, j: nat, k: Kernels, range: (Option<real>, Option<real>)): Slot
    requires VolumeValid(reader.data) && Consistent(reader) && DecimateLaw(k) && plan.transform.rebin != 0
    requires j < |plan.indices| && Prepared(reader, plan.indices[j], plan.transform, k).Ok?
  {
    var n := NormIndex(plan.indices[j], |reader.data.frames|).value;
    Expected(w, Prepared(reader, plan.indices[j], plan.transform, k).value,
             reader.angle[n], Placed(reader.position[n], plan.transform.rot90), range)
  }

  /** With no selection, no region of interest, no quarter turn, no
      interlacing, mode `complex` and rebin 1, export is a plain copy: output
      frame j is input frame j with its own angle and position, declared with
      the input's shape, element type and pixel size. */
  lemma PlainExportCopies(args: ExportArgs, reader: Reader, k: Kernels)
    requires Consistent(reader) && VolumeValid(reader.data) && DecimateLaw(k)
    requires args.selectImages.None? && args.rotationRange.None? && args.roi.None?
    requires !args.rot90 && args.mode == AsComplex && args.rebin == 1
    requires args.interlace.None? || args.interlace.value <= 1
    ensures PlanOf(args, reader).Ok?
    ensures var plan := PlanOf(args, reader).value;
      var n := |reader.data.frames|;
      plan.indices == AllFrames(n) && plan.dtype == reader.data.dtype &&
      plan.geometry == Geometry(n, reader.data.height, reader.data.width, reader.pixelSize)
    ensures var plan := PlanOf(args, reader).value;
      forall j :: 0 <= j < |reader.data.frames| ==>
        Prepared(reader, j, plan.transform, k) == Ok(reader.data.frames[j])
    ensures var plan := PlanOf(args, reader).value;
      forall w, j, range :: 0 <= j < |reader.data.frames| ==>
        CopiedSlot(w, reader, plan, j, k, range) ==
        Expected(w, reader.data.frames[j], reader.angle[j], reader.position[j], range)
  {
    var plan := PlanOf(args, reader).value;
    forall j | 0 <= j < |reader.data.frames|
      ensures Prepared(reader, j, plan.transform, k) == Ok(reader.data.frames[j])
    {
      CropFull(reader.data.frames[j]);
    }
  }

  /** Whether the write of output position j goes through on writer w when
      the writer holds the given range: the frame can be prepared, passes
      the writer's shape check and, on an image writer, can be rendered and
      named (the template formats j + 1). */
  predicate Writable(w: Writer, reader: Reader, plan: Plan, j: nat, k: Kernels, range: (Option<real>, Option<real>))
    requires VolumeValid(reader.data) && plan.transform.rebin != 0 && j < |plan.indices|
  {
    var img := Prepared(reader, plan.indices[j], plan.transform, k);
    img.Ok? && Takes(w, img.value, j, range)
  }

  /** `for j, i in enumerate(indices)`: write frame j from input frame i with
      its angle and (possibly swapped) position. */
  method CopyFrames(w: Writer, reader: Reader, plan: Plan, k: Kernels) returns (r: Result<()>)
    requires Valid(w) && Count(w) == |plan.indices|
    requires VolumeValid(reader.data) && Consistent(reader) && DecimateLaw(k) && plan.transform.rebin != 0
    modifies Repr(w)
    ensures Valid(w) && Updates(w) == old(Updates(w))
    ensures !IsComplex(OutputDType(plan.transform.mode, reader.data.dtype)) ==> Range(w) == old(Range(w))
    ensures r.Ok? ==> forall j :: 0 <= j < |plan.indices| ==>
      Prepared(reader, plan.indices[j], plan.transform, k).Ok? &&
      SlotAt(w, j) == CopiedSlot(w, reader, plan, j, k, Range(w))
    ensures r.Ok? && |plan.indices| > 0 && IsComplex(OutputDType(plan.transform.mode, reader.data.dtype)) ==>
      Range(w) == (None, None)
    ensures r.Ok? <==> forall j :: 0 <= j < |plan.indices| ==> Writable(w, reader, plan, j, k, old(Range(w)))
  {
    ghost var complex := IsComplex(OutputDType(plan.transform.mode, reader.data.dtype));
    ghost var start := Range(w);
    // The range every written frame is rendered with: a complex frame
    // ignores the stored range, a real one leaves it as it was.
    ghost var range := if complex then (None, None) else start;
    for j := 0 to |plan.indices|
      invariant Valid(w) && Updates(w) == old(Updates(w))
      invariant !complex ==> Range(w) == start
      invariant j > 0 ==> Range(w) == range
      invariant forall s :: 0 <= s < j ==>
        Prepared(reader, plan.indices[s], plan.transform, k).Ok? &&
        SlotAt(w, s) == CopiedSlot(w, reader, plan, s, k, range)
      invariant forall s :: 0 <= s < j ==> Writable(w, reader, plan, s, k, start)
    {
      var i := plan.indices[j];
      var image := Prepared(reader, i, plan.transform, k);
      if image.Err? {
        assert !Writable(w, reader, plan, j, k, start);
        return Err(image.error);
      }
      var n := NormIndex(i, |reader.data.frames|).value;
      var angle := reader.angle[n];
      var position := Placed(reader.position[n], plan.transform.rot90);
      ghost var before := Range(w);
      label Before:
      var written := WriteFrame(w, j, image.value, angle, position);
      if complex {
        ComplexRenderIgnoresRange(w, image.value, j, angle, position, before, start);
        ComplexRenderIgnoresRange(w, image.value, j, angle, position, before, range);
      }
      assert written.Ok? <==> Writable(w, reader, plan, j, k, start) by {
        assert written.Ok? <==> Takes(w, image.value, j, start);
      }
      if written.Err? {
        return Err(written.error);
      }
      forall s | 0 <= s <= j
        ensures Prepared(reader, plan.indices[s], plan.transform, k).Ok?
        ensures SlotAt(w, s) == CopiedSlot(w, reader, plan, s, k, range)
      {
        if s < j {
          assert SlotAt(w, s) == old@Before(SlotAt(w, s));
        }
      }
    }
    r := Ok(());
    if |plan.indices| > 0 {
      assert Range(w) == range;
    }
  }

  /** Whether the output opens for the plan: a known extension, an element
      type with an MRC mode for MRC output, non-negative extents for a
      dataset, and a successful range scan for an image writer that is
      missing an end of its range. */
  predicate Openable(args: ExportArgs, reader: Reader, plan: Plan, k: Kernels)
    requires VolumeValid(reader.data)
  {
    match WriterFormat(args.output)
    case Err(_) => false
    case Ok(MrcFormat) => HasMrcMode(Narrow(plan.dtype)) && plan.geometry.rows >= 0 && plan.geometry.cols >= 0
    case Ok(NexusFormat) => plan.geometry.rows >= 0 && plan.geometry.cols >= 0
    case Ok(ImageFormat) =>
      args.vmin.None? || args.vmax.None? ==> DatasetRange(reader, plan.indices, plan.transform, k).Ok?
  }

  /** `new(output, shape, pixel_size, dtype)` with the planned geometry and
      element type, then, for an image writer, the range: scanned when an
      end is missing, each end then overridden by a truthy option. */
  method Open(args: ExportArgs, reader: Reader, plan: Plan, k: Kernels) returns (r: Result<Writer>)
    requires VolumeValid(reader.data)
    ensures WriterFormat(args.output).Err? ==> r == Err(UnknownExtension)
    ensures r.Ok? <==> Openable(args, reader, plan, k)
    ensures r.Ok? ==> WriterFormat(args.output).Ok?
    ensures r.Ok? ==> var w := r.value;
      (w.MrcOut? ==> w.m.height == plan.geometry.rows && w.m.width == plan.geometry.cols) &&
      (w.NexusOut? ==> w.x.height == plan.geometry.rows && w.x.width == plan.geometry.cols) &&
      (w.ImagesOut? ==> w.i.height == plan.geometry.rows && w.i.width == plan.geometry.cols &&
                        w.i.template == args.output)
    ensures r.Ok? ==> var w := r.value;
      Valid(w) && fresh(Repr(w)) && Count(w) == plan.geometry.count && Updates(w) == 0 &&
      (w.MrcOut? <==> WriterFormat(args.output) == Ok(MrcFormat)) &&
      (w.NexusOut? <==> WriterFormat(args.output) == Ok(NexusFormat)) &&
      (w.ImagesOut? <==> WriterFormat(args.output) == Ok(ImageFormat))
    ensures r.Ok? ==> var w := r.value;
      (w.MrcOut? ==> w.m.dtype == Narrow(plan.dtype) && w.m.voxelSize == plan.geometry.pixelSize) &&
      (w.NexusOut? ==> w.x.dtype == plan.dtype && w.x.pixelSize == plan.geometry.pixelSize)
    ensures r.Ok? && r.value.ImagesOut? ==>
      Range(r.value) == ChosenRange(args.vmin, args.vmax, DatasetRange(reader, plan.indices, plan.transform, k))
  {
    var g := plan.geometry;
    var created := New(args.output, g.count, g.rows, g.cols, g.pixelSize, Some(plan.dtype), None, None);
    if created.Err? {
      assert !Openable(args, reader, plan, k);
      return Err(created.error);
    }
    var w := created.value;
    if IsImageWriter(w) {
      var ranged := ChooseRange(args, reader, plan, k, w);
      if ranged.Err? {
        assert !Openable(args, reader, plan, k);
        return Err(ranged.error);
      }
    }
    assert Openable(args, reader, plan, k);
    r := Ok(w);
  }

  /** The range of a freshly opened image writer: `vmin, vmax =
      dataset_range(...)` when an end is missing, then `writer.vmin = vmin`
      and `writer.vmax = vmax` for each truthy option. */
  method ChooseRange(args: ExportArgs, reader: Reader, plan: Plan, k: Kernels, w: Writer) returns (r: Result<()>)
    requires VolumeValid(reader.data) && Valid(w) && w.ImagesOut? && Range(w) == (None, None)
    modifies Repr(w)
    ensures Valid(w) && Updates(w) == old(Updates(w))
    ensures r.Ok? <==> (args.vmin.None? || args.vmax.None? ==> DatasetRange(reader, plan.indices, plan.transform, k).Ok?)
    ensures r.Ok? ==> Range(w) == ChosenRange(args.vmin, args.vmax, DatasetRange(reader, plan.indices, plan.transform, k))
  {
    if args.vmin.None? || args.vmax.None? {
      var scanned := ComputeRange(reader, plan.indices, plan.transform, k);
      if scanned.Err? {
        return Err(scanned.error);
      }
      SetRange(w, Some(scanned.value.0), Some(scanned.value.1));
    }
    if Truthy(args.vmin) {
      SetRange(w, args.vmin, Range(w).1);
    }
    if Truthy(args.vmax) {
      SetRange(w, Range(w).0, args.vmax);
    }
    r := Ok(());
  }

  /** Whether the frame at output position j can be written to output of
      the given format opened for the plan with the given range: it can be
      prepared, a dataset can take it (broadcasting an extent of 1), and an
      image file needs the declared shape, a frame it can render, and a name:
      the output template must format the file number j + 1. */
  predicate FrameWritable(format: Format, template: string, reader: Reader, plan: Plan, j: nat, k: Kernels, range: (Option<real>, Option<real>))
    requires VolumeValid(reader.data) && plan.transform.rebin != 0 && j < |plan.indices|
  {
    var img := Prepared(reader, plan.indices[j], plan.transform, k);
    img.Ok? && WellFormed(img.value) &&
    if format == ImageFormat then
      Height(img.value) == plan.geometry.rows && img.value.width == plan.geometry.cols &&
      Render(img.value, range.0, range.1).Ok? && FormatsIndex(template, j + 1)
    else
      plan.geometry.rows >= 0 && plan.geometry.cols >= 0 &&
      BroadcastsTo(img.value, plan.geometry.rows, plan.geometry.cols)
  }

  /** Whether the steps after planning run to completion: the output opens
      and every selected frame can be written with the range the writer is
      given. */
  predicate Completes(args: ExportArgs, reader: Reader, plan: Plan, k: Kernels)
    requires VolumeValid(reader.data) && plan.transform.rebin != 0
  {
    Openable(args, reader, plan, k) &&
    forall j :: 0 <= j < |plan.indices| ==>
      FrameWritable(WriterFormat(args.output).value, args.output, reader, plan, j, k,
                    ChosenRange(args.vmin, args.vmax, DatasetRange(reader, plan.indices, plan.transform, k)))
  }

  /** An image output whose name holds no `%` never completes once a frame
      is selected: naming the first file, `output % 1`, raises. */
  lemma PlainImageNameFails(args: ExportArgs, reader: Reader, plan: Plan, k: Kernels)
    requires VolumeValid(reader.data) && plan.transform.rebin != 0
    requires WriterFormat(args.output) == Ok(ImageFormat) && '%' !in args.output && |plan.indices| > 0
    ensures !Completes(args, reader, plan, k)
  {
    PlainNameNeverFormats(args.output, 1);
    assert !FrameWritable(ImageFormat, args.output, reader, plan, 0, k,
                          ChosenRange(args.vmin, args.vmax, DatasetRange(reader, plan.indices, plan.transform, k)));
  }

  /** The steps after planning: open the output, copy every selected
      frame, then update the writer once. */
  method Produce(args: ExportArgs, reader: Reader, plan: Plan, k: Kernels) returns (r: Result<Writer>)
    requires Consistent(reader) && VolumeValid(reader.data) && DecimateLaw(k)
    requires plan.transform.rebin != 0 && plan.geometry.count == |plan.indices|
    requires plan.dtype == OutputDType(plan.transform.mode, reader.data.dtype)
    ensures r.Ok? <==> Completes(args, reader, plan, k)
    ensures r.Ok? ==> WriterFormat(args.output).Ok?
    ensures r.Ok? ==> var w := r.value;
      Valid(w) && fresh(Repr(w)) && Count(w) == |plan.indices| && Updates(w) == 1 &&
      (w.MrcOut? <==> WriterFormat(args.output) == Ok(MrcFormat)) &&
      (w.NexusOut? <==> WriterFormat(args.output) == Ok(NexusFormat)) &&
      (w.ImagesOut? <==> WriterFormat(args.output) == Ok(ImageFormat))
    ensures r.Ok? ==> var w := r.value;
      (w.MrcOut? ==> w.m.dtype == Narrow(plan.dtype) && w.m.voxelSize == plan.geometry.pixelSize) &&
      (w.NexusOut? ==> w.x.dtype == plan.dtype && w.x.pixelSize == plan.geometry.pixelSize)
    ensures r.Ok? ==>
      forall j :: 0 <= j < |plan.indices| ==>
        Prepared(reader, plan.indices[j], plan.transform, k).Ok? &&
        SlotAt(r.value, j) == CopiedSlot(r.value, reader, plan, j, k, Range(r.value))
    ensures r.Ok? && r.value.ImagesOut? ==>
      (!IsComplex(plan.dtype) ==>
        Range(r.value) == ChosenRange(args.vmin, args.vmax, DatasetRange(reader, plan.indices, plan.transform, k))) &&
      (IsComplex(plan.dtype) && |plan.indices| > 0 ==> Range(r.value) == (None, None))
  {
    var created := Open(args, reader, plan, k);
    if created.Err? {
      return Err(created.error);
    }
    var w := created.value;
    OpenedAccepts(args, reader, plan, k, w, Range(w));
    var copied := CopyFrames(w, reader, plan, k);
    if copied.Err? {
      return Err(copied.error);
    }
    Update(w);
    r := Ok(w);
  }

  /** On the writer Open returns, holding the chosen range, the writer's own
      check of every frame agrees with the plan-level one. */
  lemma OpenedAccepts(args: ExportArgs, reader: Reader, plan: Plan, k: Kernels, w: Writer, range: (Option<real>, Option<real>))
    requires VolumeValid(reader.data) && plan.transform.rebin != 0
    requires Openable(args, reader, plan, k)
    requires w.MrcOut? <==> WriterFormat(args.output) == Ok(MrcFormat)
    requires w.NexusOut? <==> WriterFormat(args.output) == Ok(NexusFormat)
    requires w.ImagesOut? <==> WriterFormat(args.output) == Ok(ImageFormat)
    requires w.MrcOut? ==> w.m.height == plan.geometry.rows && w.m.width == plan.geometry.cols
    requires w.NexusOut? ==> w.x.height == plan.geometry.rows && w.x.width == plan.geometry.cols
    requires w.ImagesOut? ==> w.i.height == plan.geometry.rows && w.i.width == plan.geometry.cols
    requires w.ImagesOut? ==> w.i.template == args.output
    requires w.ImagesOut? ==>
      range == ChosenRange(args.vmin, args.vmax, DatasetRange(reader, plan.indices, plan.transform, k))
    ensures (forall j :: 0 <= j < |plan.indices| ==> Writable(w, reader, plan, j, k, range)) <==>
      Completes(args, reader, plan, k)
  {
    var chosen := ChosenRange(args.vmin, args.vmax, DatasetRange(reader, plan.indices, plan.transform, k));
    var format := WriterFormat(args.output).value;
    forall j | 0 <= j < |plan.indices|
      ensures Writable(w, reader, plan, j, k, range) <==> FrameWritable(format, args.output, reader, plan, j, k, chosen)
    {
    }
  }

  /** `export`: refuse both selection options together, plan, then open,
      copy and update. */
  method Export(args: ExportArgs, reader: Reader, k: Kernels) returns (r: Result<Writer>)
    requires Consistent(reader) && VolumeValid(reader.data) && DecimateLaw(k)
    ensures args.rotationRange.Some? && args.selectImages.Some? ==> r == Err(ExclusiveOptions)
    ensures !(args.rotationRange.Some? && args.selectImages.Some?) && PlanOf(args, reader).Err? ==>
      r == Err(PlanOf(args, reader).error)
    ensures r.Ok? ==> PlanOf(args, reader).Ok? && WriterFormat(args.output).Ok?
    ensures !(args.rotationRange.Some? && args.selectImages.Some?) ==>
      (r.Ok? <==> PlanOf(args, reader).Ok? && Completes(args, reader, PlanOf(args, reader).value, k))
    ensures r.Ok? ==> var plan := PlanOf(args, reader).value;
      var w := r.value;
      Valid(w) && fresh(Repr(w)) && Count(w) == |plan.indices| && Updates(w) == 1 &&
      (w.MrcOut? <==> WriterFormat(args.output) == Ok(MrcFormat)) &&
      (w.NexusOut? <==> WriterFormat(args.output) == Ok(NexusFormat)) &&
      (w.ImagesOut? <==> WriterFormat(args.output) == Ok(ImageFormat))
    ensures r.Ok? ==> var plan := PlanOf(args, reader).value;
      var w := r.value;
      (w.MrcOut? ==> w.m.dtype == Narrow(plan.dtype) && w.m.voxelSize == plan.geometry.pixelSize) &&
      (w.NexusOut? ==> w.x.dtype == plan.dtype && w.x.pixelSize == plan.geometry.pixelSize)
    ensures r.Ok? ==> var plan := PlanOf(args, reader).value;
      forall j :: 0 <= j < |plan.indices| ==>
        Prepared(reader, plan.indices[j], plan.transform, k).Ok? &&
        SlotAt(r.value, j) == CopiedSlot(r.value, reader, plan, j, k, Range(r.value))
    ensures r.Ok? && r.value.ImagesOut? ==> var plan := PlanOf(args, reader).value;
      (!IsComplex(plan.dtype) ==>
        Range(r.value) == ChosenRange(args.vmin, args.vmax, DatasetRange(reader, plan.indices, plan.transform, k))) &&
      (IsComplex(plan.dtype) && |plan.indices| > 0 ==> Range(r.value) == (None, None))
  {
    if args.rotationRange.Some? && args.selectImages.Some? {
      return Err(ExclusiveOptions);
    }
    var planned := MakePlan(args, reader);
    if planned.Err? {
      return Err(planned.error);
    }
    r := Produce(args, reader, planned.value, k);
  }
}

=== FILE: images.dfy ===
/** Frames as values: a 2-D grid of (possibly complex) pixels, with the numpy
    operations the export pipeline applies to one frame: cropping with Python
    slices, `numpy.rot90`, the complex-mode transforms, rebinning, and the
    min/max reductions. Floating point is modelled in exact `real`. */
module Images {
  import opened Common

  datatype Pixel = Pixel(re: real, im: real)

  const ZeroPixel := Pixel(0.0, 0.0)

  /** A frame: `rows` of `width` pixels; `complex` is numpy.iscomplexobj of
      the array the frame comes from. For a real array only `re` is meaningful. */
  datatype Image = Image(rows: seq<seq<Pixel>>, width: nat, complex: bool)

  function Height(img: Image): nat {
    |img.rows|
  }

  predicate WellFormed(img: Image) {
    forall r :: 0 <= r < |img.rows| ==> |img.rows[r]| == img.width
  }

  predicate HasShape(img: Image, h: nat, w: nat) {
    WellFormed(img) && Height(img) == h && img.width == w
  }

  /** The imaginary part numpy sees: zero for a real array. */
  function Im(img: Image, p: Pixel): real {
    if img.complex then p.im else 0.0
  }

  /** An all-zero frame, as numpy.zeros or a fresh dataset gives. */
  function Zeros(h: nat, w: nat, complex: bool): (r: Image)
    ensures HasShape(r, h, w) && r.complex == complex
    ensures forall i, j :: 0 <= i < h && 0 <= j < w ==> r.rows[i][j] == ZeroPixel
  {
    Image(seq(h, i => seq(w, j => ZeroPixel)), w, complex)
  }

  // ---------------------------------------------------------------------
  // Python slicing `s[a:b]` (step 1)

  /** Where a slice bound lands in a sequence of length n: negative bounds
      count from the end, and both ends are clamped to [0, n]. */
  function SliceBound(a: int, n: nat): (r: nat)
    ensures r <= n
    ensures 0 <= a <= n ==> r == a
    ensures -(n as int) <= a < 0 ==> r == a + n
  {
    if a < 0 then (if a + n < 0 then 0 else a + n)
    else if a > n then n
    else a
  }

  function SliceLen(a: int, b: int, n: nat): (r: nat)
    ensures r <= n
  {
    var lo := SliceBound(a, n);
    var hi := SliceBound(b, n);
    if lo < hi then hi - lo else 0
  }

  function Slice<T>(s: seq<T>, a: int, b: int): (r: seq<T>)
    ensures |r| == SliceLen(a, b, |s|)
    ensures forall k :: 0 <= k < |r| ==> r[k] == s[SliceBound(a, |s|) + k]
  {
    var lo := SliceBound(a, |s|);
    var hi := SliceBound(b, |s|);
    if lo < hi then s[lo..hi] else []
  }

  /** `frame[y0:y1, x0:x1]` */
  function Crop(img: Image, y0: int, y1: int, x0: int, x1: int): (r: Image)
    requires WellFormed(img)
    ensures HasShape(r, SliceLen(y0, y1, Height(img)), SliceLen(x0, x1, img.width))
    ensures r.complex == img.complex
    ensures forall i, j :: 0 <= i < Height(r) && 0 <= j < r.width ==>
      r.rows[i][j] == img.rows[SliceBound(y0, Height(img)) + i][SliceBound(x0, img.width) + j]
  {
    var rows := Slice(img.rows, y0, y1);
    assert forall i :: 0 <= i < |rows| ==> |rows[i]| == img.width;
    Image(seq(|rows|, i requires 0 <= i < |rows| => Slice(rows[i], x0, x1)),
          SliceLen(x0, x1, img.width), img.complex)
  }

  /** A region inside the frame crops to exactly that region. */
  lemma CropInside(img: Image, y0: int, y1: int, x0: int, x1: int)
    requires WellFormed(img)
    requires 0 <= y0 < y1 <= Height(img) && 0 <= x0 < x1 <= img.width
    ensures HasShape(Crop(img, y0, y1, x0, x1), y1 - y0, x1 - x0)
    ensures forall i, j :: 0 <= i < y1 - y0 && 0 <= j < x1 - x0 ==>
      Crop(img, y0, y1, x0, x1).rows[i][j] == img.rows[y0 + i][x0 + j]
  {
  }

  /** The full-frame region (0, 0, W, H) leaves a frame unchanged. */
  lemma {:induction false} CropFull(img: Image)
    requires WellFormed(img)
    ensures Crop(img, 0, Height(img), 0, img.width) == img
  {
    var r := Crop(img, 0, Height(img), 0, img.width);
    assert |r.rows| == |img.rows|;
    forall i | 0 <= i < |r.rows| ensures r.rows[i] == img.rows[i] {
      assert |r.rows[i]| == |img.rows[i]|;
    }
  }

  // ---------------------------------------------------------------------
  // numpy.rot90 (k = 1, axes (0, 1)): a quarter turn counter-clockwise

  function Rot90(img: Image): (r: Image)
    requires WellFormed(img)
    ensures HasShape(r, img.width, Height(img)) && r.complex == img.complex
    ensures forall i, j :: 0 <= i < img.width && 0 <= j < Height(img) ==>
      r.rows[i][j] == img.rows[j][img.width - 1 - i]
  {
    Image(seq(img.width, i requires 0 <= i < img.width =>
            seq(|img.rows|, j requires 0 <= j < |img.rows| => img.rows[j][img.width - 1 - i])),
          |img.rows|, img.complex)
  }

  /** Two quarter turns are a half turn. */
  lemma Rot180(img: Image)
    requires WellFormed(img)
    ensures HasShape(Rot90(Rot90(img)), Height(img), img.width)
    ensures forall i, j :: 0 <= i < Height(img) && 0 <= j < img.width ==>
      Rot90(Rot90(img)).rows[i][j] == img.rows[Height(img) - 1 - i][img.width - 1 - j]
  {
  }

  /** Four quarter turns restore the frame. */
  lemma {:induction false} Rot90FourTimes(img: Image)
    requires WellFormed(img)
    ensures Rot90(Rot90(Rot90(Rot90(img)))) == img
  {
    var half := Rot90(Rot90(img));
    Rot180(img);
    Rot180(half);
    var r := Rot90(Rot90(half));
    assert |r.rows| == |img.rows|;
    forall i | 0 <= i < |r.rows| ensures r.rows[i] == img.rows[i] {
      assert |r.rows[i]| == |img.rows[i]|;
      forall j | 0 <= j < |r.rows[i]| ensures r.rows[i][j] == img.rows[i][j] {
        assert r.rows[i][j] == half.rows[Height(img) - 1 - i][img.width - 1 - j];
      }
    }
  }

  // ---------------------------------------------------------------------
  // --complex_mode

  datatype ComplexMode =
    | AsComplex | RealPart | ImaginaryPart | Amplitude | Phase | PhaseUnwrap
    | Square | ImaginarySquare

  /** The numeric routines the model does not define: numpy.abs and
      numpy.angle of one pixel, the k-th element of numpy.unwrap of a row, and
      scipy.signal.decimate of a frame along an axis by a factor. */
  datatype Kernels = Kernels(
    abs: Pixel -> real,
    angle: Pixel -> real,
    unwrap: (seq<real>, nat) -> real,
    decimate: (Image, nat, int) -> Image)

  function Real(x: real): Pixel {
    Pixel(x, 0.0)
  }

  /** One pixel under a pixel-wise mode (every mode but complex and phase_unwrap). */
  function PixelMode(mode: ComplexMode, img: Image, p: Pixel, k: Kernels): real
    requires mode != AsComplex && mode != PhaseUnwrap
  {
    match mode
    case RealPart => p.re
    case ImaginaryPart => Im(img, p)
    case Amplitude => k.abs(p)
    case Phase => k.angle(p)
    case Square => p.re * p.re + Im(img, p) * Im(img, p)
    case ImaginarySquare => Im(img, p) * Im(img, p) + 1.0
  }

  /** `numpy.unwrap(numpy.real(numpy.angle(row)))`, along the last axis. */
  function UnwrapRow(row: seq<Pixel>, k: Kernels): (r: seq<real>)
    ensures |r| == |row|
  {
    var phases := seq(|row|, c requires 0 <= c < |row| => k.angle(row[c]));
    seq(|row|, c requires 0 <= c < |row| => k.unwrap(phases, c))
  }

  /** The per-frame complex-mode transform. Every mode but `complex` yields a
      real frame; `complex` is the identity. */
  function ApplyMode(mode: ComplexMode, img: Image, k: Kernels): (r: Image)
    requires WellFormed(img)
    ensures HasShape(r, Height(img), img.width)
    ensures mode == AsComplex ==> r == img
    ensures mode != AsComplex ==> !r.complex
    ensures mode != AsComplex && mode != PhaseUnwrap ==>
      forall i, j :: 0 <= i < Height(img) && 0 <= j < img.width ==>
        r.rows[i][j] == Real(PixelMode(mode, img, img.rows[i][j], k))
  {
    if mode == AsComplex then img
    else if mode == PhaseUnwrap then
      Image(seq(|img.rows|, i requires 0 <= i < |img.rows| =>
              var u := UnwrapRow(img.rows[i], k);
              seq(|u|, j requires 0 <= j < |u| => Real(u[j]))),
            img.width, false)
    else
      Image(seq(|img.rows|, i requires 0 <= i < |img.rows| =>
              seq(|img.rows[i]|, j requires 0 <= j < |img.rows[i]| =>
                Real(PixelMode(mode, img, img.rows[i][j], k)))),
            img.width, false)
  }

  /** imaginary_square keeps its "+ 1": a frame with no imaginary part
      becomes all ones. */
  lemma ImaginarySquareOfRealFrame(img: Image, k: Kernels)
    requires WellFormed(img)
    requires forall i, j :: 0 <= i < Height(img) && 0 <= j < img.width ==> Im(img, img.rows[i][j]) == 0.0
    ensures forall i, j :: 0 <= i < Height(img) && 0 <= j < img.width ==>
      ApplyMode(ImaginarySquare, img, k).rows[i][j] == Pixel(1.0, 0.0)
  {
  }

  /** What a dataset keeps of a frame assigned into it: a real element type
      drops the imaginary part, a complex one keeps it (zero for real input). */
  function Cast(img: Image, complex: bool): (r: Image)
    requires WellFormed(img)
    ensures HasShape(r, Height(img), img.width) && r.complex == complex
    ensures forall i, j :: 0 <= i < Height(img) && 0 <= j < img.width ==>
      r.rows[i][j].re == img.rows[i][j].re && Im(r, r.rows[i][j]) == (if complex then Im(img, img.rows[i][j]) else 0.0)
  {
    Image(seq(|img.rows|, i requires 0 <= i < |img.rows| =>
            seq(|img.rows[i]|, j requires 0 <= j < |img.rows[i]| =>
              Pixel(img.rows[i][j].re, if complex then Im(img, img.rows[i][j]) else 0.0))),
          img.width, complex)
  }

  /** Storing a frame into a dataset of its own kind loses nothing numpy sees,
      and storing twice is storing once. */
  lemma CastKeepsSameKind(img: Image)
    requires WellFormed(img)
    ensures var r := Cast(img, img.complex);
      forall i, j :: 0 <= i < Height(img) && 0 <= j < img.width ==>
        r.rows[i][j].re == img.rows[i][j].re && Im(r, r.rows[i][j]) == Im(img, img.rows[i][j])
    ensures forall c :: Cast(Cast(img, c), c) == Cast(img, c)
  {
    forall c ensures Cast(Cast(img, c), c) == Cast(img, c) {
      var once := Cast(img, c);
      var twice := Cast(once, c);
      forall i | 0 <= i < |once.rows| ensures twice.rows[i] == once.rows[i] {
      }
    }
  }

  /** Whether numpy (and h5py) can broadcast a frame onto an h x w slot:
      each extent is the slot's own or 1. */
  predicate BroadcastsTo(img: Image, h: nat, w: nat) {
    WellFormed(img) && (Height(img) == h || Height(img) == 1) && (img.width == w || img.width == 1)
  }

  /** The frame as the slot receives it: an extent of 1 is repeated. */
  function Broadcast(img: Image, h: nat, w: nat): (r: Image)
    requires BroadcastsTo(img, h, w)
    ensures HasShape(r, h, w) && r.complex == img.complex
    ensures forall i, j :: 0 <= i < h && 0 <= j < w ==>
      r.rows[i][j] == img.rows[if Height(img) == h then i else 0][if img.width == w then j else 0]
  {
    Image(seq(h, i requires 0 <= i < h =>
            seq(w, j requires 0 <= j < w =>
              img.rows[if Height(img) == h then i else 0][if img.width == w then j else 0])),
          w, img.complex)
  }

  /** A frame of the slot's own shape is assigned as it is. */
  lemma BroadcastExact(img: Image, h: nat, w: nat)
    requires BroadcastsTo(img, h, w)
    ensures HasShape(img, h, w) ==> Broadcast(img, h, w) == img
  {
    if HasShape(img, h, w) {
      var r := Broadcast(img, h, w);
      forall i | 0 <= i < h ensures r.rows[i] == img.rows[i] {
      }
    }
  }

  // ---------------------------------------------------------------------
  // Rebinning (`rebin` with scipy.signal.decimate)

  /** Python's floor division `a // b`. */
  function FloorDiv(a: int, b: int): (r: int)
    requires b != 0
    ensures b > 0 ==> r * b <= a < r * b + b
    ensures b < 0 ==> r * b >= a > r * b + b
  {
    if b > 0 then a / b else (-a) / (-b)
  }

  /** A positive extent floor-divided by a positive factor is not negative;
      one at least |b| floor-divided by a negative factor b is negative. */
  lemma FloorDivSign(a: int, b: int)
    requires b != 0
    ensures b > 0 && a > 0 ==> FloorDiv(a, b) >= 0
    ensures b < 0 && a >= -b ==> FloorDiv(a, b) < 0
  {
    if b > 0 && a > 0 {
      PositiveQuotient(a, b);
    } else if b < 0 && a >= -b {
      NegativeQuotient(-a, -b);
    }
  }

  lemma PositiveQuotient(a: int, b: int)
    requires a > 0 && b > 0
    ensures a / b >= 0
  {
  }

  lemma NegativeQuotient(a: int, m: int)
    requires m > 0 && a <= -m
    ensures a / m < 0
  {
  }

  function CeilDiv(a: nat, q: nat): nat
    requires q > 0
  {
    (a + q - 1) / q
  }

  /** numpy's integer `//`: a zero divisor gives 0 (with a warning) instead
      of raising. */
  function NumpyFloorDiv(a: int, b: int): (r: int)
    ensures b == 0 ==> r == 0
    ensures b != 0 ==> r == FloorDiv(a, b)
  {
    if b == 0 then 0 else FloorDiv(a, b)
  }

  /** The per-axis factor `c // d` of `rebin`, where the target `d` is
      `c // r`. */
  function AxisFactor(c: nat, r: int): (q: int)
    requires r != 0
    ensures q == 0 <==> FloorDiv(c, r) == 0
    ensures q < 0 <==> r < 0 && c > 0
  {
    AxisFactorSign(c, r);
    NumpyFloorDiv(c, FloorDiv(c, r))
  }

  /** The signs behind `AxisFactor`: a negative r on a non-empty axis gives a
      negative target and a negative factor; otherwise a non-zero target
      gives a positive factor. */
  lemma AxisFactorSign(c: nat, r: int)
    requires r != 0
    ensures FloorDiv(c, r) == 0 ==> !(r < 0 && c > 0)
    ensures FloorDiv(c, r) != 0 ==>
      var q := FloorDiv(c, FloorDiv(c, r));
      q != 0 && (q < 0 <==> r < 0 && c > 0)
  {
    if r > 0 && FloorDiv(c, r) != 0 {
      PositiveAxisFactor(c, r);
    } else if r < 0 && c > 0 {
      FloorDivNegative(c, r);
      FloorDivNegative(c, FloorDiv(c, r));
    }
  }

  /** For a positive r with a non-zero target, the factor is positive. */
  lemma PositiveAxisFactor(c: nat, r: int)
    requires r > 0 && FloorDiv(c, r) != 0
    ensures FloorDiv(c, FloorDiv(c, r)) > 0
  {
    assert c >= r;
    var q := Factor(c, r);
  }

  /** A positive number floor-divided by a negative one is negative. */
  lemma FloorDivNegative(a: int, b: int)
    requires a > 0 && b < 0
    ensures FloorDiv(a, b) < 0
  {
  }

  /** `rebin(image, numpy.array(image.shape) // r)`: the target shape is the
      floor-divided shape, both per-axis factors `c // d` are computed first,
      and decimation is applied along axis 0 and then axis 1. Decimating by a
      zero factor divides by zero, and a negative factor (from a negative r)
      is refused by the filter design, so axis 0's error comes first. */
  function Rebin(img: Image, r: int, k: Kernels): (out: Result<Image>)
    requires WellFormed(img) && r != 0
    ensures FloorDiv(Height(img), r) == 0 ==> out == Err(DivisionByZero)
    ensures r < 0 && Height(img) > 0 ==> out == Err(BadArguments)
    ensures r > 0 && FloorDiv(img.width, r) == 0 ==> out == Err(DivisionByZero)
    ensures r < 0 && Height(img) > 0 && img.width > 0 ==> out.Err?
    ensures DecimateLaw(k) && out.Ok? ==> WellFormed(out.value) && out.value.complex == img.complex
  {
    var q0 := AxisFactor(Height(img), r);
    var q1 := AxisFactor(img.width, r);
    if q0 == 0 then Err(DivisionByZero)
    else if q0 < 0 then Err(BadArguments)
    else if q1 == 0 then Err(DivisionByZero)
    else if q1 < 0 then Err(BadArguments)
    else Ok(k.decimate(k.decimate(img, 0, q0), 1, q1))
  }

  /** A one-row frame of width 0 rebinned by -1: axis 0's negative factor is
      refused before axis 1's zero target is divided by. */
  lemma RebinFailsOnAxisZeroFirst(k: Kernels)
    ensures Rebin(Image([[]], 0, false), -1, k) == Err(BadArguments)
  {
    assert AxisFactor(1, -1) == -1;
  }

  /** What scipy.signal.decimate does to the shape: the decimated axis keeps
      every q-th sample (ceil(n / q) of them), the other axis is unchanged,
      and complex input stays complex. */
  ghost predicate DecimateLaw(k: Kernels) {
    forall img: Image, axis: nat, q: int {:trigger k.decimate(img, axis, q)} ::
      WellFormed(img) && q > 0 && axis < 2 ==>
        var out := k.decimate(img, axis, q);
        WellFormed(out) && out.complex == img.complex &&
        (axis == 0 ==> Height(out) == CeilDiv(Height(img), q) && out.width == img.width) &&
        (axis == 1 ==> Height(out) == Height(img) && out.width == CeilDiv(img.width, q))
  }

  lemma MulMono(a: int, b: int, r: nat)
    requires a <= b
    ensures a * r <= b * r
  {
    assert b * r - a * r == (b - a) * r;
  }

  lemma DivUnique(x: int, r: nat, q: int)
    requires r > 0 && q * r <= x < q * r + r
    ensures x / r == q
  {
    var p := x / r;
    assert p * r <= x < p * r + r;
    assert (q + 1) * r == q * r + r && (p + 1) * r == p * r + r;
    if p > q {
      MulMono(q + 1, p, r);
    } else if p < q {
      MulMono(p + 1, q, r);
    }
  }

  lemma MulDiv(d: nat, r: nat)
    requires d > 0 && r > 0
    ensures (d * r) / r == d && (d * r) / d == r
  {
    DivUnique(d * r, r, d);
    DivUnique(d * r, d, r);
  }

  lemma CeilOfMultiple(d: nat, r: nat)
    requires r > 0
    ensures (d * r + r - 1) / r == d
  {
    DivUnique(d * r + r - 1, r, d);
  }

  lemma DivExact(c: nat, r: nat)
    requires r > 0 && c % r == 0 && c >= r
    ensures c / r > 0
    ensures FloorDiv(c, c / r) == r
    ensures CeilDiv(c, r) == c / r
  {
    var d := c / r;
    assert c == d * r;
    MulDiv(d, r);
    CeilOfMultiple(d, r);
  }

  /** When r divides both extents, rebinning gives the floor-divided shape the
      output dataset was declared with. */
  lemma RebinShapeWhenDivisible(img: Image, r: int, k: Kernels)
    requires WellFormed(img) && DecimateLaw(k)
    requires r > 0 && Height(img) % r == 0 && img.width % r == 0
    requires Height(img) >= r && img.width >= r
    ensures Rebin(img, r, k).Ok?
    ensures HasShape(Rebin(img, r, k).value, Height(img) / r, img.width / r)
  {
    DivExact(Height(img), r);
    DivExact(img.width, r);
  }

  /** When r does not divide an extent, decimation returns more samples than
      the floor-divided shape the output was declared with: a 29 x 29 frame
      rebinned by 2 becomes 15 x 15, not 14 x 14. */
  lemma RebinOvershoot(img: Image, k: Kernels)
    requires HasShape(img, 29, 29) && DecimateLaw(k)
    ensures FloorDiv(29, 2) == 14
    ensures Rebin(img, 2, k).Ok?
    ensures HasShape(Rebin(img, 2, k).value, 15, 15)
  {
  }

  /** Rebinning as evidently intended: trim each extent to a multiple of r
      first, so that decimation lands exactly on the floor-divided shape. */
  function RebinFitted(img: Image, r: int, k: Kernels): Result<Image>
    requires WellFormed(img) && r > 0
  {
    Rebin(Crop(img, 0, Height(img) / r * r, 0, img.width / r * r), r, k)
  }

  lemma MulMod(d: nat, r: nat)
    requires r > 0
    ensures (d * r) % r == 0
  {
    DivUnique(d * r, r, d);
  }

  /** The trimmed rebin always yields the floor-divided shape. */
  lemma RebinFittedShape(img: Image, r: int, k: Kernels)
    requires WellFormed(img) && DecimateLaw(k)
    requires r > 0 && Height(img) >= r && img.width >= r
    ensures RebinFitted(img, r, k).Ok?
    ensures HasShape(RebinFitted(img, r, k).value, Height(img) / r, img.width / r)
  {
    FittedExtent(Height(img), r);
    FittedExtent(img.width, r);
    var h := Height(img) / r * r;
    var w := img.width / r * r;
    CropInside(img, 0, h, 0, w);
    var c := Crop(img, 0, h, 0, w);
    RebinShapeWhenDivisible(c, r, k);
    assert RebinFitted(img, r, k) == Rebin(c, r, k);
  }

  /** Trimming an extent n to a multiple of r keeps at least r samples, and
      the trimmed extent divided by r is still n / r. */
  lemma FittedExtent(n: nat, r: int)
    requires r > 0 && n >= r
    ensures r <= n / r * r <= n && (n / r * r) % r == 0 && (n / r * r) / r == n / r
  {
    var d := n / r;
    assert d >= 1;
    MulMono(1, d, r);
    MulMod(d, r);
    MulDiv(d, r);
  }

  lemma DivLower(x: int, q: nat, m: int)
    requires q > 0 && m * q <= x
    ensures m <= x / q
  {
    var p := x / q;
    assert (p + 1) * q == p * q + q;
    if p < m {
      MulMono(p + 1, m, q);
    }
  }

  /** The decimation factor `n // (n // r)` rebin hands to decimate for an
      extent n: never below r, and the target extent n // r fits it into n. */
  function Factor(n: nat, r: nat): (q: nat)
    requires 0 < r <= n
    ensures n / r > 0 && q >= r && q * (n / r) <= n
  {
    DivLower(n, r, 1);
    var d := n / r;
    DivLower(n, d, r);
    n / d
  }

  /** For a positive factor r, rebinning succeeds exactly when both extents
      are at least r, and then each axis keeps ceil(n / q) samples, where q is
      the factor handed to decimate for that axis. */
  lemma RebinShape(img: Image, r: int, k: Kernels)
    requires WellFormed(img) && DecimateLaw(k) && r > 0
    ensures Rebin(img, r, k).Ok? <==> Height(img) >= r && img.width >= r
    ensures Height(img) >= r && img.width >= r ==>
      HasShape(Rebin(img, r, k).value,
               CeilDiv(Height(img), Factor(Height(img), r)), CeilDiv(img.width, Factor(img.width, r)))
  {
    if Height(img) < r || img.width < r {
      assert Height(img) / r == 0 || img.width / r == 0;
    } else {
      var q0 := Factor(Height(img), r);
      var q1 := Factor(img.width, r);
      assert FloorDiv(Height(img), FloorDiv(Height(img), r)) == q0;
      assert FloorDiv(img.width, FloorDiv(img.width, r)) == q1;
    }
  }

  /** Decimating n samples by the factor q = Factor(n, r) yields at least
      n // r samples, and exactly n // r when n // r divides n; otherwise one
      or more samples too many. */
  lemma DecimatedExtent(n: nat, r: nat)
    requires 0 < r <= n
    ensures CeilDiv(n, Factor(n, r)) >= n / r
    ensures CeilDiv(n, Factor(n, r)) == n / r <==> n % (n / r) == 0
  {
    var d := n / r;
    var q := Factor(n, r);
    var s := n - q * d;
    assert 0 <= s < d by {
      assert q == n / d;
      assert (q + 1) * d == q * d + d;
    }
    if s == 0 {
      assert n == d * q;
      CeilOfMultiple(d, q);
      MulMod(q, d);
    } else {
      assert (d + 1) * q == d * q + q;
      DivLower(n + q - 1, q, d + 1);
      DivUnique(n, d, q);
    }
  }

  // ---------------------------------------------------------------------
  // numpy.min / numpy.max over a frame

  function SeqMin(s: seq<real>): (r: real)
    requires |s| > 0
    ensures forall k :: 0 <= k < |s| ==> r <= s[k]
    ensures exists k :: 0 <= k < |s| && r == s[k]
  {
    if |s| == 1 then s[0]
    else
      var m := SeqMin(s[1..]);
      if s[0] <= m then s[0] else m
  }

  function SeqMax(s: seq<real>): (r: real)
    requires |s| > 0
    ensures forall k :: 0 <= k < |s| ==> s[k] <= r
    ensures exists k :: 0 <= k < |s| && r == s[k]
  {
    if |s| == 1 then s[0]
    else
      var m := SeqMax(s[1..]);
      if s[0] >= m then s[0] else m
  }

  /** The real parts of one row. */
  function RowValues(row: seq<Pixel>): (r: seq<real>)
    ensures |r| == |row|
  {
    seq(|row|, c requires 0 <= c < |row| => row[c].re)
  }

  predicate IsEmpty(img: Image) {
    Height(img) == 0 || img.width == 0
  }

  /** The minimum and the maximum of each row. */
  function RowMins(img: Image): (r: seq<real>)
    requires WellFormed(img) && !IsEmpty(img)
    ensures |r| == Height(img)
  {
    seq(|img.rows|, i requires 0 <= i < |img.rows| => SeqMin(RowValues(img.rows[i])))
  }

  function RowMaxs(img: Image): (r: seq<real>)
    requires WellFormed(img) && !IsEmpty(img)
    ensures |r| == Height(img)
  {
    seq(|img.rows|, i requires 0 <= i < |img.rows| => SeqMax(RowValues(img.rows[i])))
  }

  lemma MinOfRowMins(img: Image)
    requires WellFormed(img) && !IsEmpty(img)
    ensures var m := SeqMin(RowMins(img));
      (forall i, j :: 0 <= i < Height(img) && 0 <= j < img.width ==> m <= img.rows[i][j].re) &&
      (exists i, j :: 0 <= i < Height(img) && 0 <= j < img.width && m == img.rows[i][j].re)
  {
    var mins := RowMins(img);
    var m := SeqMin(mins);
    forall i, j | 0 <= i < Height(img) && 0 <= j < img.width ensures m <= img.rows[i][j].re {
      assert m <= mins[i];
      assert mins[i] <= RowValues(img.rows[i])[j];
    }
    var i :| 0 <= i < |mins| && m == mins[i];
    var row := RowValues(img.rows[i]);
    var j :| 0 <= j < |row| && mins[i] == row[j];
    assert m == img.rows[i][j].re;
  }

  lemma MaxOfRowMaxs(img: Image)
    requires WellFormed(img) && !IsEmpty(img)
    ensures var m := SeqMax(RowMaxs(img));
      (forall i, j :: 0 <= i < Height(img) && 0 <= j < img.width ==> img.rows[i][j].re <= m) &&
      (exists i, j :: 0 <= i < Height(img) && 0 <= j < img.width && m == img.rows[i][j].re)
  {
    var maxs := RowMaxs(img);
    var m := SeqMax(maxs);
    forall i, j | 0 <= i < Height(img) && 0 <= j < img.width ensures img.rows[i][j].re <= m {
      assert maxs[i] <= m;
      assert RowValues(img.rows[i])[j] <= maxs[i];
    }
    var i :| 0 <= i < |maxs| && m == maxs[i];
    var row := RowValues(img.rows[i]);
    var j :| 0 <= j < |row| && maxs[i] == row[j];
    assert m == img.rows[i][j].re;
  }

  /** numpy.min of a frame; an empty frame raises. For a complex frame numpy
      orders lexicographically, whose minimum has the smallest real part:
      that real part is what is kept here. */
  function ImageMin(img: Image): (r: Result<real>)
    requires WellFormed(img)
    ensures r.Err? <==> IsEmpty(img)
    ensures r.Ok? ==> forall i, j :: 0 <= i < Height(img) && 0 <= j < img.width ==> r.value <= img.rows[i][j].re
    ensures r.Ok? ==> exists i, j :: 0 <= i < Height(img) && 0 <= j < img.width && r.value == img.rows[i][j].re
  {
    if IsEmpty(img) then Err(EmptyReduction)
    else
      MinOfRowMins(img);
      Ok(SeqMin(RowMins(img)))
  }

  /** numpy.max of a frame, as ImageMin. */
  function ImageMax(img: Image): (r: Result<real>)
    requires WellFormed(img)
    ensures r.Err? <==> IsEmpty(img)
    ensures r.Ok? ==> forall i, j :: 0 <= i < Height(img) && 0 <= j < img.width ==> img.rows[i][j].re <= r.value
    ensures r.Ok? ==> exists i, j :: 0 <= i < Height(img) && 0 <= j < img.width && r.value == img.rows[i][j].re
  {
    if IsEmpty(img) then Err(EmptyReduction)
    else
      MaxOfRowMaxs(img);
      Ok(SeqMax(RowMaxs(img)))
  }
}

=== FILE: imagewriter.dfy ===
/** The image backend: each frame becomes one 8-bit image file, rescaled so
    that the writer's range [vmin, vmax] maps onto [0, 255]. A missing bound
    is taken from the frame itself; complex input is written as its squared
    modulus and clears both stored bounds for good. */
module ImageOutput {
  import opened Common
  import opened Images

  /** |z|^2 of one pixel. */
  function SquaredModulus(p: Pixel): real {
    p.re * p.re + p.im * p.im
  }

  /** What the proxy writes for a frame: |z|^2 for complex data
      (`numpy.abs(data) ** 2`), the values themselves otherwise. */
  function Intensity(img: Image): (r: Image)
    requires WellFormed(img)
    ensures HasShape(r, Height(img), img.width) && !r.complex
    ensures !img.complex ==> r == img
    ensures img.complex ==> forall i, j :: 0 <= i < Height(img) && 0 <= j < img.width ==>
      r.rows[i][j] == Real(SquaredModulus(img.rows[i][j]))
  {
    if !img.complex then img
    else
      Image(seq(|img.rows|, i requires 0 <= i < |img.rows| =>
              seq(|img.rows[i]|, j requires 0 <= j < |img.rows[i]| =>
                Real(SquaredModulus(img.rows[i][j])))),
            img.width, false)
  }

  /** The affine map `v * s1 + s0` with s1 = 255 / (hi - lo) and s0 = -s1 * lo. */
  function Scale(v: real, lo: real, hi: real): (r: real)
    requires hi != lo
    ensures r * (hi - lo) == 255.0 * (v - lo)
  {
    var s1 := 255.0 / (hi - lo);
    var s0 := -s1 * lo;
    v * s1 + s0
  }

  /** The bounds one write uses: the stored bounds (both dropped for complex
      input), each missing one replaced by the frame's own minimum or maximum. */
  function Bounds(img: Image, vmin: Option<real>, vmax: Option<real>): (r: Result<(real, real)>)
    requires WellFormed(img)
    ensures r.Ok? ==> r.value.0 != r.value.1
    ensures r.Ok? && !img.complex && vmin.Some? ==> r.value.0 == vmin.value
    ensures r.Ok? && !img.complex && vmax.Some? ==> r.value.1 == vmax.value
    ensures r.Ok? && (img.complex || vmin.None?) ==>
      ImageMin(Intensity(img)).Ok? && r.value.0 == ImageMin(Intensity(img)).value
    ensures r.Ok? && (img.complex || vmax.None?) ==>
      ImageMax(Intensity(img)).Ok? && r.value.1 == ImageMax(Intensity(img)).value
    ensures IsEmpty(img) && (img.complex || vmin.None? || vmax.None?) ==> r == Err(EmptyReduction)
    ensures r.Err? ==> r.error == EmptyReduction || r.error == DegenerateRange
  {
    var x := Intensity(img);
    var storedMin := if img.complex then None else vmin;
    var storedMax := if img.complex then None else vmax;
    var lo :- if storedMin.Some? then Ok(storedMin.value) else ImageMin(x);
    var hi :- if storedMax.Some? then Ok(storedMax.value) else ImageMax(x);
    if hi == lo then Err(DegenerateRange) else Ok((lo, hi))
  }

  /** Every pixel of a real frame mapped through Scale. */
  function ScaleFrame(x: Image, lo: real, hi: real): (r: seq<seq<real>>)
    requires WellFormed(x) && hi != lo
    ensures |r| == Height(x)
    ensures forall i :: 0 <= i < |r| ==> |r[i]| == x.width
    ensures forall i, j :: 0 <= i < Height(x) && 0 <= j < x.width ==> r[i][j] == Scale(x.rows[i][j].re, lo, hi)
  {
    seq(|x.rows|, i requires 0 <= i < |x.rows| =>
      seq(|x.rows[i]|, j requires 0 <= j < |x.rows[i]| => Scale(x.rows[i][j].re, lo, hi)))
  }

  /** The pixels of the file one write produces, given the stored bounds
      before the write (the cast to uint8 aside). */
  function Render(img: Image, vmin: Option<real>, vmax: Option<real>): (r: Result<seq<seq<real>>>)
    requires WellFormed(img)
    ensures r.Ok? <==> Bounds(img, vmin, vmax).Ok?
    ensures r.Err? ==> r.error == Bounds(img, vmin, vmax).error
    ensures r.Ok? ==> |r.value| == Height(img)
  {
    var b :- Bounds(img, vmin, vmax);
    Ok(ScaleFrame(Intensity(img), b.0, b.1))
  }

  /** vmin is written as 0 and vmax as 255. */
  lemma ScaleEndpoints(lo: real, hi: real)
    requires hi != lo
    ensures Scale(lo, lo, hi) == 0.0
    ensures Scale(hi, lo, hi) == 255.0
  {
    var a := Scale(lo, lo, hi);
    var b := Scale(hi, lo, hi);
    assert a * (hi - lo) == 0.0;
    assert b * (hi - lo) == 255.0 * (hi - lo);
    assert (b - 255.0) * (hi - lo) == 0.0;
  }

  /** A product with a positive factor has the sign of the other factor. */
  lemma PositiveFactor(a: real, b: real)
    requires b > 0.0
    ensures a * b >= 0.0 ==> a >= 0.0
  {
    if a < 0.0 {
      assert a * b < 0.0;
    }
  }

  /** With vmin below vmax the rescale keeps the order of values, and values
      inside [vmin, vmax] land inside [0, 255]. */
  lemma ScaleMonotone(u: real, v: real, lo: real, hi: real)
    requires lo < hi && u <= v
    ensures Scale(u, lo, hi) <= Scale(v, lo, hi)
    ensures lo <= u && v <= hi ==> 0.0 <= Scale(u, lo, hi) && Scale(v, lo, hi) <= 255.0
  {
    var su := Scale(u, lo, hi);
    var sv := Scale(v, lo, hi);
    assert (sv - su) * (hi - lo) == 255.0 * (v - u);
    PositiveFactor(sv - su, hi - lo);
    if lo <= u && v <= hi {
      PositiveFactor(su, hi - lo);
      assert (255.0 - sv) * (hi - lo) == 255.0 * (hi - v);
      PositiveFactor(255.0 - sv, hi - lo);
    }
  }

  /** With no stored bounds a real frame is stretched over the whole output
      range: every pixel lands in [0, 255], its minimum on 0 and its maximum
      on 255. */
  lemma PerFrameRangeFillsOutput(img: Image)
    requires WellFormed(img) && !img.complex
    requires Render(img, None, None).Ok?
    ensures var out := Render(img, None, None).value;
      (forall i, j :: 0 <= i < Height(img) && 0 <= j < img.width ==> 0.0 <= out[i][j] <= 255.0) &&
      (exists i, j :: 0 <= i < Height(img) && 0 <= j < img.width && out[i][j] == 0.0) &&
      (exists i, j :: 0 <= i < Height(img) && 0 <= j < img.width && out[i][j] == 255.0)
  {
    var b := Bounds(img, None, None).value;
    var out := Render(img, None, None).value;
    var lo, hi := b.0, b.1;
    assert lo == ImageMin(img).value && hi == ImageMax(img).value;
    var i0, j0 :| 0 <= i0 < Height(img) && 0 <= j0 < img.width && lo == img.rows[i0][j0].re;
    var i1, j1 :| 0 <= i1 < Height(img) && 0 <= j1 < img.width && hi == img.rows[i1][j1].re;
    assert lo <= hi;
    ScaleEndpoints(lo, hi);
    forall i, j | 0 <= i < Height(img) && 0 <= j < img.width ensures 0.0 <= out[i][j] <= 255.0 {
      ScaleMonotone(lo, img.rows[i][j].re, lo, hi);
      ScaleMonotone(img.rows[i][j].re, hi, lo, hi);
    }
    assert out[i0][j0] == 0.0;
    assert out[i1][j1] == 255.0;
  }

  /** The conversion characters that format any integer. */
  predicate NumericConversion(c: char) {
    c == 'd' || c == 'i' || c == 'o' || c == 'u' || c == 'x' || c == 'X' ||
    c == 'e' || c == 'E' || c == 'f' || c == 'F' || c == 'g' || c == 'G' ||
    c == 'r' || c == 's' || c == 'a'
  }

  /** Whether `%` formatting accepts the integer n for conversion character
      c: the conversions above always, and `c` for a code point. */
  predicate IntConversion(c: char, n: int) {
    NumericConversion(c) || (c == 'c' && 0 <= n < 0x11_0000)
  }

  predicate IsFlag(c: char) {
    c == '-' || c == '+' || c == ' ' || c == '#' || c == '0'
  }

  predicate IsDigit(c: char) {
    '0' <= c <= '9'
  }

  /** The first index at or after i that holds no flag character. */
  function SkipFlags(t: string, i: nat): (k: nat)
    requires i <= |t|
    ensures i <= k <= |t|
    ensures forall m :: i <= m < k ==> IsFlag(t[m])
    ensures k < |t| ==> !IsFlag(t[k])
    decreases |t| - i
  {
    if i < |t| && IsFlag(t[i]) then SkipFlags(t, i + 1) else i
  }

  /** The first index at or after i that holds no digit. */
  function SkipDigits(t: string, i: nat): (k: nat)
    requires i <= |t|
    ensures i <= k <= |t|
    ensures forall m :: i <= m < k ==> IsDigit(t[m])
    ensures k < |t| ==> !IsDigit(t[k])
    decreases |t| - i
  {
    if i < |t| && IsDigit(t[i]) then SkipDigits(t, i + 1) else i
  }

  /** The conversion characters above are none of the characters that
      open or continue a specifier. */
  lemma NumericConversionIsPlain(c: char)
    requires NumericConversion(c)
    ensures !IsFlag(c) && !IsDigit(c) && c != '*' && c != '.' && c != '%' && c != '('
    ensures c != 'h' && c != 'l' && c != 'L'
  {
  }

  /** The conversion character at p, after any length modifier. */
  function ConversionAt(t: string, p: nat, n: int): (r: Option<nat>)
    ensures r.Some? ==> p < r.value <= |t| && IntConversion(t[r.value - 1], n)
  {
    if p < |t| && IntConversion(t[p], n) then Some(p + 1) else None
  }

  /** After the precision: a `*` takes a second argument, and one length
      modifier `h`, `l` or `L` is skipped. */
  function AfterPrecision(t: string, p: nat, n: int): (r: Option<nat>)
    ensures r.Some? ==> p < r.value <= |t| && IntConversion(t[r.value - 1], n)
  {
    if p < |t| && t[p] == '*' then None
    else if p < |t| && (t[p] == 'h' || t[p] == 'l' || t[p] == 'L') then ConversionAt(t, p + 1, n)
    else ConversionAt(t, p, n)
  }

  /** After the width: a `*` takes a second argument, and a `.` opens a
      precision of digits. */
  function AfterWidth(t: string, p: nat, n: int): (r: Option<nat>)
    requires p <= |t|
    ensures r.Some? ==> p < r.value <= |t| && IntConversion(t[r.value - 1], n)
  {
    if p < |t| && t[p] == '*' then None
    else if p < |t| && t[p] == '.' then AfterPrecision(t, SkipDigits(t, p + 1), n)
    else AfterPrecision(t, p, n)
  }

  /** Where the conversion specifier opened by the `%` at t[i] (not `%%`)
      ends, reading a mapping key, flags, a width, a precision and a length
      modifier before the conversion character; None where formatting a
      single integer fails: a mapping key (the argument is not a mapping),
      a `*` (it takes a second argument), or a conversion character that is
      missing or does not accept the integer. */
  function SpecEnd(t: string, i: nat, n: int): (r: Option<nat>)
    requires i < |t| && t[i] == '%'
    ensures r.Some? ==> i + 2 <= r.value <= |t| && IntConversion(t[r.value - 1], n)
    ensures i + 1 < |t| && t[i + 1] == '(' ==> r.None?
  {
    if i + 1 < |t| && t[i + 1] == '(' then None
    else AfterWidth(t, SkipDigits(t, SkipFlags(t, i + 1)), n)
  }

  /** `t % n` read left to right: the number of arguments its specifiers
      take, or None when a specifier cannot format the integer. */
  function Conversions(t: string, n: int): Option<nat>
    decreases |t|, 1
  {
    if |t| == 0 then Some(0)
    else if t[0] != '%' then Conversions(t[1..], n)
    else AfterPercent(t, n)
  }

  /** A `%` at the head of t: `%%` is a literal percent sign and takes no
      argument; any other specifier takes one. */
  function AfterPercent(t: string, n: int): Option<nat>
    requires |t| > 0 && t[0] == '%'
    decreases |t|, 0
  {
    if |t| >= 2 && t[1] == '%' then Conversions(t[2..], n)
    else
      match SpecEnd(t, 0, n)
      case None => None
      case Some(e) =>
        match Conversions(t[e..], n)
        case None => None
        case Some(c) => Some(c + 1)
  }

  /** Whether `template % n` yields a file name: it takes exactly the one
      argument, and every specifier accepts the integer. Zero specifiers
      ("not all arguments converted"), two or more ("not enough arguments"),
      and a malformed specifier all raise. */
  predicate FormatsIndex(template: string, n: int) {
    Conversions(template, n) == Some(1)
  }

  /** Text without a `%` in front of a template changes nothing. */
  lemma {:induction false} ConversionsAfterPlainText(a: string, t: string, n: int)
    requires '%' !in a
    ensures Conversions(a + t, n) == Conversions(t, n)
    decreases |a|
  {
    if |a| > 0 {
      assert a[0] in a;
      assert (a + t)[0] == a[0] && (a + t)[1..] == a[1..] + t;
      assert '%' !in a[1..] by {
        forall m | 0 <= m < |a| - 1 ensures a[1..][m] != '%' {
          assert a[1..][m] == a[m + 1];
        }
      }
      ConversionsAfterPlainText(a[1..], t, n);
    } else {
      assert a + t == t;
    }
  }

  /** A name with no `%` takes no argument, so `name % n` raises TypeError
      whatever the number: an output such as `out.png` can name no file. */
  lemma {:induction false} PlainNameNeverFormats(t: string, n: int)
    requires '%' !in t
    ensures Conversions(t, n) == Some(0) && !FormatsIndex(t, n)
    decreases |t|
  {
    if |t| > 0 {
      assert t[0] in t;
      assert '%' !in t[1..] by {
        forall m | 0 <= m < |t| - 1 ensures t[1..][m] != '%' {
          assert t[1..][m] == t[m + 1];
        }
      }
      PlainNameNeverFormats(t[1..], n);
    }
  }

  /** A specifier made of `%` and a plain conversion character takes one
      argument, then formatting goes on with the rest of the template. */
  lemma LeadingConversion(c: char, rest: string, n: int)
    requires NumericConversion(c)
    ensures Conversions(['%', c] + rest, n) ==
      if Conversions(rest, n).Some? then Some(Conversions(rest, n).value + 1) else None
  {
    var t := ['%', c] + rest;
    NumericConversionIsPlain(c);
    assert t[0] == '%' && t[1] == c && t[2..] == rest;
    assert SkipFlags(t, 1) == 1;
    assert SkipDigits(t, 1) == 1;
    assert AfterWidth(t, 1, n) == Some(2);
  }

  /** One integer conversion between two runs of plain text, such as
      `frame_%d.png` or `img%x.tif`, formats every number. */
  lemma SingleConversionFormats(prefix: string, c: char, suffix: string, n: int)
    requires '%' !in prefix && '%' !in suffix && NumericConversion(c)
    ensures FormatsIndex(prefix + ['%', c] + suffix, n)
  {
    assert prefix + ['%', c] + suffix == prefix + (['%', c] + suffix);
    ConversionsAfterPlainText(prefix, ['%', c] + suffix, n);
    LeadingConversion(c, suffix, n);
    PlainNameNeverFormats(suffix, n);
  }

  /** Flags and then digits read from i stop at the first character that is
      neither, when everything before it is a digit. */
  lemma DigitsEndAt(t: string, i: nat, e: nat)
    requires i <= e < |t| && !IsFlag(t[e]) && !IsDigit(t[e])
    requires forall m :: i <= m < e ==> IsDigit(t[m])
    ensures SkipDigits(t, SkipFlags(t, i)) == e
  {
    assert SkipFlags(t, i) <= e;
  }

  /** A zero-padded or fixed-width conversion such as `frame_%03d.png`
      formats every number: the leading zero is read as a flag and the
      remaining digits as the width. */
  lemma PaddedConversionFormats(prefix: string, width: string, c: char, suffix: string, n: int)
    requires '%' !in prefix && '%' !in suffix && NumericConversion(c)
    requires forall m :: 0 <= m < |width| ==> IsDigit(width[m])
    ensures FormatsIndex(prefix + ['%'] + width + [c] + suffix, n)
  {
    var t := ['%'] + width + [c] + suffix;
    var e := 1 + |width|;
    NumericConversionIsPlain(c);
    assert prefix + ['%'] + width + [c] + suffix == prefix + t;
    ConversionsAfterPlainText(prefix, t, n);
    assert t[0] == '%' && t[e] == c && t[e + 1..] == suffix;
    assert forall m :: 1 <= m < e ==> t[m] == width[m - 1];
    DigitsEndAt(t, 1, e);
    assert AfterWidth(t, e, n) == Some(e + 1);
    PlainNameNeverFormats(suffix, n);
  }

  /** `%%` is a literal percent sign and takes no argument. */
  lemma EscapedPercentTakesNothing(prefix: string, rest: string, n: int)
    requires '%' !in prefix
    ensures Conversions(prefix + ['%', '%'] + rest, n) == Conversions(rest, n)
  {
    assert prefix + ['%', '%'] + rest == prefix + (['%', '%'] + rest);
    ConversionsAfterPlainText(prefix, ['%', '%'] + rest, n);
    assert (['%', '%'] + rest)[2..] == rest;
  }

  /** Two conversions take two arguments, so formatting one number raises
      "not enough arguments". */
  lemma TwoConversionsFail(a: string, c1: char, b: string, c2: char, d: string, n: int)
    requires '%' !in a && '%' !in b && '%' !in d && NumericConversion(c1) && NumericConversion(c2)
    ensures Conversions(a + ['%', c1] + b + ['%', c2] + d, n) == Some(2)
    ensures !FormatsIndex(a + ['%', c1] + b + ['%', c2] + d, n)
  {
    var rest := b + ['%', c2] + d;
    assert a + ['%', c1] + b + ['%', c2] + d == a + (['%', c1] + rest);
    ConversionsAfterPlainText(a, ['%', c1] + rest, n);
    SingleConversionFormats(b, c2, d, n);
    LeadingConversion(c1, rest, n);
  }

  /** A mapping key such as `%(index)d` needs a mapping argument: TypeError
      "format requires a mapping". */
  lemma MappingKeyFails(prefix: string, rest: string, n: int)
    requires '%' !in prefix
    ensures Conversions(prefix + ['%', '('] + rest, n) == None
  {
    var t := ['%', '('] + rest;
    assert prefix + ['%', '('] + rest == prefix + t;
    ConversionsAfterPlainText(prefix, t, n);
    assert t[0] == '%' && t[1] == '(';
  }

  /** A `*` width takes the number as the width and leaves the conversion
      without an argument: TypeError "not enough arguments". */
  lemma StarWidthFails(prefix: string, rest: string, n: int)
    requires '%' !in prefix
    ensures Conversions(prefix + ['%', '*'] + rest, n) == None
  {
    var t := ['%', '*'] + rest;
    assert prefix + ['%', '*'] + rest == prefix + t;
    ConversionsAfterPlainText(prefix, t, n);
    assert t[0] == '%' && t[1] == '*';
    assert SkipFlags(t, 1) == 1;
    assert SkipDigits(t, 1) == 1;
  }

  /** A `%` at the very end has no conversion character: ValueError
      "incomplete format". */
  lemma DanglingPercentFails(prefix: string, n: int)
    requires '%' !in prefix
    ensures Conversions(prefix + ['%'], n) == None
  {
    ConversionsAfterPlainText(prefix, ['%'], n);
    assert SkipFlags(['%'], 1) == 1;
    assert SkipDigits(['%'], 1) == 1;
  }

  /** `ImageWriter`: a template of file names, the frame shape, the stored
      bounds, and the files written so far keyed by the number substituted
      into the template (the file's name is that number formatted by the
      template, so one number names one file). The angle and position arrays are placeholders of
      the right length, and the pixel size is 0. */
  class ImageWriter {
    const template: string
    const count: nat
    const height: int
    const width: int
    const angle: array<real>
    const position: array<Vec3>
    const pixelSize: real
    var vmin: Option<real>
    var vmax: Option<real>
    var files: map<int, seq<seq<real>>>
    ghost var updates: nat

    ghost predicate Valid() {
      angle.Length == count && position.Length == count
    }

    /** `ImageWriter.__init__` */
    constructor (template: string, n: nat, h: int, w: int, vmin: Option<real>, vmax: Option<real>)
      ensures Valid()
      ensures this.template == template && count == n && height == h && width == w
      ensures this.vmin == vmin && this.vmax == vmax && files == map[]
      ensures angle[..] == seq(n, _ => 0.0) && position[..] == seq(n, _ => Origin)
      ensures pixelSize == 0.0
      ensures fresh(angle) && fresh(position) && updates == 0
    {
      this.template := template;
      count := n;
      height := h;
      width := w;
      this.vmin := vmin;
      this.vmax := vmax;
      files := map[];
      var a := new real[n](_ => 0.0);
      var p := new Vec3[n](_ => Origin);
      angle := a;
      position := p;
      pixelSize := 0.0;
      updates := 0;
      assert a[..] == seq(n, _ => 0.0);
      assert p[..] == seq(n, _ => Origin);
    }

    /** The shape assertions of the proxy: a full 2-D frame of (height, width). */
    predicate Fits(img: Image) {
      WellFormed(img) && Height(img) == height && img.width == width
    }

    /** `DataProxy.__setitem__` with index (item, :, :). */
    method SetFrame(item: int, img: Image) returns (r: Result<()>)
      modifies this
      ensures !Fits(img) ==> r == Err(ShapeMismatch) && vmin == old(vmin) && vmax == old(vmax) && files == old(files)
      ensures Fits(img) && img.complex ==> vmin == None && vmax == None
      ensures !img.complex ==> vmin == old(vmin) && vmax == old(vmax)
      ensures Fits(img) ==> (r.Ok? <==> Render(img, old(vmin), old(vmax)).Ok? && FormatsIndex(template, item + 1))
      ensures Fits(img) && Render(img, old(vmin), old(vmax)).Err? ==> r == Err(Render(img, old(vmin), old(vmax)).error)
      ensures Fits(img) && Render(img, old(vmin), old(vmax)).Ok? && !FormatsIndex(template, item + 1) ==>
        r == Err(BadTemplate)
      ensures r.Ok? ==> files == old(files)[item + 1 := Render(img, old(vmin), old(vmax)).value]
      ensures r.Err? ==> files == old(files)
      ensures updates == old(updates)
    {
      if !Fits(img) {
        return Err(ShapeMismatch);
      }
      ghost var rendered := Render(img, vmin, vmax);
      var x := img;
      if img.complex {
        x := Intensity(img);
        vmin := None;
        vmax := None;
      }
      var lo: real;
      if vmin.None? {
        var m := ImageMin(x);
        if m.Err? {
          return Err(m.error);
        }
        lo := m.value;
      } else {
        lo := vmin.value;
      }
      var hi: real;
      if vmax.None? {
        var m := ImageMax(x);
        if m.Err? {
          return Err(m.error);
        }
        hi := m.value;
      } else {
        hi := vmax.value;
      }
      if hi == lo {
        return Err(DegenerateRange);
      }
      assert rendered == Ok(ScaleFrame(x, lo, hi));
      if !FormatsIndex(template, item + 1) {
        return Err(BadTemplate);
      }
      files := files[item + 1 := ScaleFrame(x, lo, hi)];
      return Ok(());
    }

    /** The vmin setter. */
    method SetVmin(v: Option<real>)
      modifies this
      ensures vmin == v && vmax == old(vmax) && files == old(files) && updates == old(updates)
    {
      vmin := v;
    }

    /** The vmax setter. */
    method SetVmax(v: Option<real>)
      modifies this
      ensures vmax == v && vmin == old(vmin) && files == old(files) && updates == old(updates)
    {
      vmax := v;
    }

    /** `writer.angle[item] = d` on the placeholder array. */
    method SetAngle(item: int, d: real) returns (r: Result<()>)
      requires Valid()
      modifies angle
      ensures r.Ok? <==> NormIndex(item, count).Some?
      ensures r.Err? ==> r.error == IndexOutOfRange && angle[..] == old(angle[..])
      ensures r.Ok? ==> angle[..] == old(angle[..])[NormIndex(item, count).value := d]
    {
      match NormIndex(item, count)
      case None =>
        return Err(IndexOutOfRange);
      case Some(j) =>
        angle[j] := d;
        return Ok(());
    }

    /** `writer.position[item] = p` on the placeholder array. */
    method SetPosition(item: int, p: Vec3) returns (r: Result<()>)
      requires Valid()
      modifies position
      ensures r.Ok? <==> NormIndex(item, count).Some?
      ensures r.Err? ==> r.error == IndexOutOfRange && position[..] == old(position[..])
      ensures r.Ok? ==> position[..] == old(position[..])[NormIndex(item, count).value := p]
    {
      match NormIndex(item, count)
      case None =>
        return Err(IndexOutOfRange);
      case Some(j) =>
        position[j] := p;
        return Ok(());
    }

    /** `update`: the base class's, which does nothing. */
    method Update()
      modifies this
      ensures updates == old(updates) + 1
      ensures vmin == old(vmin) && vmax == old(vmax) && files == old(files)
    {
      updates := updates + 1;
    }
  }

  /** A complex frame clears the stored range, so the real frame written next
      is stretched over its own minimum and maximum rather than the range
      the writer was given. */
  method ComplexFrameClearsRange(lo: real, hi: real, z: Image, x: Image) returns (before: Option<real>, after: Option<real>)
    requires HasShape(z, 2, 2) && z.complex && HasShape(x, 2, 2) && !x.complex
    requires lo != hi
    ensures before == Some(lo) && after.None?
  {
    var writer := new ImageWriter("frame_%d.png", 2, 2, 2, Some(lo), Some(hi));
    before := writer.vmin;
    var _ := writer.SetFrame(0, z);
    var _ := writer.SetFrame(1, x);
    after := writer.vmin;
  }
}

=== FILE: mrc.dfy ===
/** The MRC backend: the writer keeps per-frame metadata in the FEI1 extended
    header, one record per frame, and the reader reconstructs angles and
    positions from those records (or zeros when the header is not FEI1). */
module Mrc {
  import opened Common
  import opened DTypes
  import opened Images
  import opened Readers

  /** One FEI1 extended-header record, restricted to the fields this backend
      reads or writes. */
  datatype FeiRecord = FeiRecord(
    alphaTilt: real,
    shiftX: real,
    shiftY: real,
    pixelSizeX: real,
    pixelSizeY: real,
    application: string)

  /** A record of a freshly zeroed extended header. */
  const BlankRecord := FeiRecord(0.0, 0.0, 0.0, 0.0, 0.0, "")

  const Fei1 := "FEI1"

  const Application := "RFI Simulation"

  /** Pixel sizes are given in Angstrom and stored in the header in metres. */
  const MetresPerAngstrom: real := 0.0000000001

  /** The record the writer's constructor leaves in every row. */
  function HeaderRecord(pixelSize: real): FeiRecord {
    BlankRecord.(pixelSizeX := pixelSize * MetresPerAngstrom,
                 pixelSizeY := pixelSize * MetresPerAngstrom,
                 application := Application)
  }

  /** An MRC file as the reader sees it; `voxelSize` is the x field of
      mrcfile's `voxel_size`. */
  datatype MrcFile = MrcFile(exttyp: string, extHeader: seq<FeiRecord>, data: Volume, voxelSize: real)

  /** A key into mrcfile's `voxel_size`, a zero-dimensional record array
      with fields x, y and z: the field name "x", or an integer index. */
  datatype VoxelKey = FieldX | Position(index: int)

  /** `voxel_size[key]`: the field "x" reads the x size. A zero-dimensional
      array has no axis, so every integer index is an IndexError. */
  function VoxelItem(x: real, key: VoxelKey): (r: Result<real>)
    ensures r.Ok? <==> key == FieldX
    ensures r.Ok? ==> r.value == x
    ensures r.Err? ==> r.error == IndexOutOfRange
  {
    if key == FieldX then Ok(x) else Err(IndexOutOfRange)
  }

  /** The "Alpha tilt" column of an extended header. */
  function TiltAngles(ext: seq<FeiRecord>): (r: seq<real>)
    ensures |r| == |ext|
    ensures forall i :: 0 <= i < |ext| ==> r[i] == ext[i].alphaTilt
  {
    seq(|ext|, i requires 0 <= i < |ext| => ext[i].alphaTilt)
  }

  /** The positions the reader rebuilds: (Shift X, Shift Y, 0). */
  function Shifts(ext: seq<FeiRecord>): (r: seq<Vec3>)
    ensures |r| == |ext|
    ensures forall i :: 0 <= i < |ext| ==> r[i] == Vec3(ext[i].shiftX, ext[i].shiftY, 0.0)
  {
    seq(|ext|, i requires 0 <= i < |ext| => Vec3(ext[i].shiftX, ext[i].shiftY, 0.0))
  }

  /** `Reader.from_mrcfile`. With an FEI1 header there must be one record per
      frame, and angle and position come from the records; with any other
      header the metadata is all zero. The Z coordinate is never stored. */
  function ReadMrc(f: MrcFile): (r: Result<Reader>)
    ensures r.Ok? <==> f.exttyp != Fei1 || |f.extHeader| == |f.data.frames|
    ensures r.Err? ==> r.error == ExtendedHeaderMismatch
    ensures r.Ok? ==> Consistent(r.value) && r.value.data == f.data && r.value.pixelSize == f.voxelSize
    ensures r.Ok? ==> forall i :: 0 <= i < |r.value.position| ==> r.value.position[i].z == 0.0
    ensures r.Ok? && f.exttyp == Fei1 ==>
      forall i :: 0 <= i < |f.extHeader| ==>
        r.value.angle[i] == f.extHeader[i].alphaTilt &&
        r.value.position[i] == Vec3(f.extHeader[i].shiftX, f.extHeader[i].shiftY, 0.0)
    ensures r.Ok? && f.exttyp != Fei1 ==>
      forall i :: 0 <= i < |f.data.frames| ==> r.value.angle[i] == 0.0 && r.value.position[i] == Origin
  {
    var n := |f.data.frames|;
    if f.exttyp == Fei1 then
      if |f.extHeader| != n then Err(ExtendedHeaderMismatch)
      else NewReader(f.data, TiltAngles(f.extHeader), Shifts(f.extHeader), f.voxelSize)
    else
      NewReader(f.data, seq(n, _ => 0.0), seq(n, _ => Origin), f.voxelSize)
  }

  /** `Reader.from_mrcfile` as the source runs it: zero-filled arrays, then
      index loops copying the header fields row by row. */
  method FromMrcFile(f: MrcFile) returns (r: Result<Reader>)
    ensures r == ReadMrc(f)
  {
    var n := |f.data.frames|;
    var angle := new real[n](_ => 0.0);
    var position := new Vec3[n](_ => Origin);
    if f.exttyp == Fei1 {
      if |f.extHeader| != n {
        return Err(ExtendedHeaderMismatch);
      }
      var i := 0;
      while i < n
        invariant 0 <= i <= n
        invariant forall k :: 0 <= k < i ==> angle[k] == f.extHeader[k].alphaTilt
      {
        angle[i] := f.extHeader[i].alphaTilt;
        i := i + 1;
      }
      i := 0;
      while i < n
        modifies position
        invariant 0 <= i <= n
        invariant forall k :: 0 <= k < i ==> position[k] == Vec3(f.extHeader[k].shiftX, f.extHeader[k].shiftY, 0.0)
      {
        position[i] := position[i].(x := f.extHeader[i].shiftX);
        position[i] := position[i].(y := f.extHeader[i].shiftY);
        position[i] := position[i].(z := 0.0);
        i := i + 1;
      }
      assert angle[..] == TiltAngles(f.extHeader);
      assert position[..] == Shifts(f.extHeader);
    } else {
      assert angle[..] == seq(n, _ => 0.0);
      assert position[..] == seq(n, _ => Origin);
    }
    r := NewReader(f.data, angle[..], position[..], f.voxelSize);
  }

  /** What one position component does to a header record: 0 is "Shift X",
      1 is "Shift Y", and anything else (the Z component) is dropped. */
  function WithShift(rec: FeiRecord, c: nat, d: real): (r: FeiRecord)
    ensures r.alphaTilt == rec.alphaTilt && r.pixelSizeX == rec.pixelSizeX
      && r.pixelSizeY == rec.pixelSizeY && r.application == rec.application
  {
    if c == 0 then rec.(shiftX := d)
    else if c == 1 then rec.(shiftY := d)
    else rec
  }

  /** A whole-row position write: zip(components, data) sets as many
      components as `data` has elements, at most three. */
  function WithShiftRow(rec: FeiRecord, data: seq<real>): FeiRecord {
    var withX := if |data| > 0 then WithShift(rec, 0, data[0]) else rec;
    var withY := if |data| > 1 then WithShift(withX, 1, data[1]) else withX;
    if |data| > 2 then WithShift(withY, 2, data[2]) else withY
  }

  /** Only the two shift fields of a record can be reached through the
      position proxy; a position's third component never reaches the file. */
  lemma WithShiftRowFields(rec: FeiRecord, data: seq<real>)
    ensures var r := WithShiftRow(rec, data);
      r.alphaTilt == rec.alphaTilt && r.pixelSizeX == rec.pixelSizeX
      && r.pixelSizeY == rec.pixelSizeY && r.application == rec.application
      && r.shiftX == (if |data| > 0 then data[0] else rec.shiftX)
      && r.shiftY == (if |data| > 1 then data[1] else rec.shiftY)
    ensures forall z :: |data| == 2 ==> WithShiftRow(rec, data + [z]) == WithShiftRow(rec, data)
  {
  }

  /** `MrcFileWriter`: an MRC file of a fixed number of frames whose extended
      header holds one FEI1 record per frame. The angle and position
      properties of the source are proxies writing into that header. */
  class MrcFileWriter {
    const dtype: DType
    const height: nat
    const width: nat
    const voxelSize: real
    const extHeader: array<FeiRecord>
    const data: array<Image>
    ghost var updates: nat

    ghost predicate Valid()
      reads data
    {
      HasMrcMode(dtype) && extHeader.Length == data.Length &&
      forall j :: 0 <= j < data.Length ==> HasShape(data[j], height, width) && data[j].complex == IsComplex(dtype)
    }

    /** `MrcFileWriter.__init__`: narrows the element type, creates n zero
        frames and n header records carrying the pixel size and the
        application name. */
    constructor (n: nat, h: nat, w: nat, pixelSize: real, requested: DType)
      requires HasMrcMode(Narrow(requested))
      ensures Valid()
      ensures dtype == Narrow(requested) && height == h && width == w && voxelSize == pixelSize
      ensures extHeader.Length == n
      ensures forall j :: 0 <= j < n ==> extHeader[j] == HeaderRecord(pixelSize)
      ensures forall j :: 0 <= j < n ==> data[j] == Zeros(h, w, IsComplex(Narrow(requested)))
      ensures fresh(extHeader) && fresh(data) && updates == 0
    {
      var d := Narrow(requested);
      var header := new FeiRecord[n](_ => BlankRecord);
      var i := 0;
      while i < n
        modifies header
        invariant 0 <= i <= n
        invariant forall j :: 0 <= j < i ==> header[j] == HeaderRecord(pixelSize)
        invariant forall j :: i <= j < n ==> header[j] == BlankRecord
      {
        header[i] := header[i].(pixelSizeX := pixelSize * MetresPerAngstrom);
        header[i] := header[i].(pixelSizeY := pixelSize * MetresPerAngstrom);
        header[i] := header[i].(application := Application);
        i := i + 1;
      }
      dtype := d;
      height := h;
      width := w;
      voxelSize := pixelSize;
      extHeader := header;
      data := new Image[n](_ => Zeros(h, w, IsComplex(d)));
      updates := 0;
    }

    /** `AngleProxy.__setitem__`: sets "Alpha tilt" of one record. */
    method SetAngle(item: int, d: real) returns (r: Result<()>)
      requires Valid()
      modifies extHeader
      ensures Valid()
      ensures r.Ok? <==> NormIndex(item, extHeader.Length).Some?
      ensures r.Err? ==> r.error == IndexOutOfRange && extHeader[..] == old(extHeader[..])
      ensures r.Ok? ==> var j := NormIndex(item, extHeader.Length).value;
        extHeader[..] == old(extHeader[..])[j := old(extHeader[j]).(alphaTilt := d)]
    {
      match NormIndex(item, extHeader.Length)
      case None =>
        return Err(IndexOutOfRange);
      case Some(j) =>
        extHeader[j] := extHeader[j].(alphaTilt := d);
        return Ok(());
    }

    /** `PositionProxy.__setitem__` with a (row, component) index into the
        n x 3 grid; both indices follow numpy's negative-index rule. */
    method SetPositionComponent(row: int, comp: int, d: real) returns (r: Result<()>)
      requires Valid()
      modifies extHeader
      ensures Valid()
      ensures r.Ok? <==> NormIndex(row, extHeader.Length).Some? && NormIndex(comp, 3).Some?
      ensures r.Err? ==> r.error == IndexOutOfRange && extHeader[..] == old(extHeader[..])
      ensures r.Ok? ==> var j := NormIndex(row, extHeader.Length).value;
        extHeader[..] == old(extHeader[..])[j := WithShift(old(extHeader[j]), NormIndex(comp, 3).value, d)]
    {
      var j := NormIndex(row, extHeader.Length);
      var c := NormIndex(comp, 3);
      if j.None? || c.None? {
        return Err(IndexOutOfRange);
      }
      if c.value == 0 {
        extHeader[j.value] := extHeader[j.value].(shiftX := d);
      } else if c.value == 1 {
        extHeader[j.value] := extHeader[j.value].(shiftY := d);
      }
      return Ok(());
    }

    /** `PositionProxy.__setitem__` with a row index: the row's three
        components are zipped with `values`. */
    method SetPositionRow(row: int, values: seq<real>) returns (r: Result<()>)
      requires Valid()
      modifies extHeader
      ensures Valid()
      ensures r.Ok? <==> NormIndex(row, extHeader.Length).Some?
      ensures r.Err? ==> r.error == IndexOutOfRange && extHeader[..] == old(extHeader[..])
      ensures r.Ok? ==> var j := NormIndex(row, extHeader.Length).value;
        extHeader[..] == old(extHeader[..])[j := WithShiftRow(old(extHeader[j]), values)]
    {
      match NormIndex(row, extHeader.Length)
      case None =>
        return Err(IndexOutOfRange);
      case Some(j) =>
        var m := if |values| < 3 then |values| else 3;
        for c := 0 to m
          invariant extHeader[..] == old(extHeader[..])[j := WithShiftRow(old(extHeader[j]), values[..c])]
        {
          assert values[..c + 1] == values[..c] + [values[c]];
          if c == 0 {
            extHeader[j] := extHeader[j].(shiftX := values[c]);
          } else if c == 1 {
            extHeader[j] := extHeader[j].(shiftY := values[c]);
          }
        }
        assert WithShiftRow(old(extHeader[j]), values[..m]) == WithShiftRow(old(extHeader[j]), values);
        return Ok(());
    }

    /** `writer.data[item, :, :] = image` on the memory-mapped stack. */
    method SetFrame(item: int, img: Image) returns (r: Result<()>)
      requires Valid()
      modifies data
      ensures Valid()
      ensures r.Ok? <==> NormIndex(item, data.Length).Some? && BroadcastsTo(img, height, width)
      ensures r.Err? ==> data[..] == old(data[..])
      ensures NormIndex(item, data.Length).None? ==> r == Err(IndexOutOfRange)
      ensures NormIndex(item, data.Length).Some? && !BroadcastsTo(img, height, width) ==> r == Err(ShapeMismatch)
      ensures r.Ok? ==> data[..] == old(data[..])[NormIndex(item, data.Length).value := Cast(Broadcast(img, height, width), IsComplex(dtype))]
    {
      match NormIndex(item, data.Length)
      case None =>
        return Err(IndexOutOfRange);
      case Some(j) =>
        if !BroadcastsTo(img, height, width) {
          return Err(ShapeMismatch);
        }
        data[j] := Cast(Broadcast(img, height, width), IsComplex(dtype));
        return Ok(());
    }

    /** `update`: refreshes the header statistics before closing. */
    method Update()
      modifies this
      ensures updates == old(updates) + 1
    {
      updates := updates + 1;
    }

    /** The file as a reader would find it. */
    function Contents(): MrcFile
      reads extHeader, data
    {
      MrcFile(Fei1, extHeader[..], Volume(dtype, height, width, data[..]), voxelSize)
    }

    /** The `pixel_size` property as written: `voxel_size[0]`, an integer
        index into the zero-dimensional record. */
    function PixelSize(): (r: Result<real>)
      ensures r == Err(IndexOutOfRange)
    {
      VoxelItem(voxelSize, Position(0))
    }

    /** The `pixel_size` property as intended: `voxel_size["x"]`, the value
        `from_mrcfile` reads back from the same file. */
    function PixelSizeByField(): (r: real)
      reads extHeader, data
      requires Valid()
      ensures VoxelItem(voxelSize, FieldX) == Ok(r)
      ensures ReadMrc(Contents()).Ok? && ReadMrc(Contents()).value.pixelSize == r
    {
      ReadBackWriter(this);
      voxelSize
    }
  }

  /** The getter as written fails on every writer, although the file it
      writes has a pixel size that `from_mrcfile` reads. */
  lemma PixelSizeUnreadable(w: MrcFileWriter)
    requires w.Valid()
    ensures w.PixelSize().Err? && ReadMrc(w.Contents()).Ok?
  {
    ReadBackWriter(w);
  }

  /** Whatever the writer holds reads back: angles from "Alpha tilt",
      positions from the shifts with Z = 0, the frames and voxel size unchanged. */
  lemma ReadBackWriter(w: MrcFileWriter)
    requires w.Valid()
    ensures ReadMrc(w.Contents()) ==
      Ok(Reader(w.Contents().data, TiltAngles(w.extHeader[..]), Shifts(w.extHeader[..]), w.voxelSize))
    ensures VolumeValid(w.Contents().data)
  {
  }

  /** An angle and a position written through the proxies come back from
      `from_mrcfile` at the same frame, except the position's Z, which the
      format does not hold. */
  method WriteThenRead(n: nat, h: nat, w: nat, pixelSize: real, requested: DType, j: nat, a: real, p: Vec3)
    returns (r: Result<Reader>)
    requires j < n && HasMrcMode(Narrow(requested))
    ensures r.Ok? && |r.value.angle| == n && |r.value.position| == n && NumImages(r.value) == n
    ensures r.value.angle[j] == a && r.value.position[j] == Vec3(p.x, p.y, 0.0)
    ensures forall k :: 0 <= k < n && k != j ==> r.value.angle[k] == 0.0 && r.value.position[k] == Origin
    ensures r.value.pixelSize == pixelSize && r.value.data.dtype == Narrow(requested)
  {
    var writer := new MrcFileWriter(n, h, w, pixelSize, requested);
    var _ := writer.SetAngle(j, a);
    var _ := writer.SetPositionRow(j, [p.x, p.y, p.z]);
    ReadBackWriter(writer);
    r := FromMrcFile(writer.Contents());
  }
}

=== FILE: nexus.dfy ===
/** The NeXus (NXtomo) backend: the writer lays out an HDF5 tree whose
    /entry/data group holds links to the detector and sample datasets, and
    the reader checks the NXentry/NXtomo markers before collecting frames,
    angles, translations and the pixel size. */
module Nexus {
  import opened Common
  import opened DTypes
  import opened Images
  import opened Readers

  /** An HDF5 object: a group with an optional NX_class attribute and named
      members, a string dataset, a one-dimensional real dataset, or the frame
      stack. */
  datatype Node =
    | Group(nxClass: Option<string>, members: map<string, Node>)
    | Text(text: string)
    | Reals(values: seq<real>)
    | Frames(volume: Volume)

  /** `node[key]`: a KeyError unless the node is a group holding key. */
  function Member(n: Node, key: string): (r: Result<Node>)
    ensures r.Ok? <==> n.Group? && key in n.members
    ensures r.Err? ==> r.error == MissingKey
    ensures r.Ok? ==> r.value == n.members[key]
  {
    if n.Group? && key in n.members then Ok(n.members[key]) else Err(MissingKey)
  }

  /** `node[k0][k1]...` */
  function Path(n: Node, keys: seq<string>): (r: Result<Node>)
    ensures keys == [] ==> r == Ok(n)
    ensures r.Err? ==> r.error == MissingKey
    decreases |keys|
  {
    if keys == [] then Ok(n)
    else
      var m :- Member(n, keys[0]);
      Path(m, keys[1..])
  }

  function RealsOf(n: Node): (r: Result<seq<real>>)
    ensures r.Ok? <==> n.Reals?
    ensures r.Ok? ==> r.value == n.values
  {
    if n.Reals? then Ok(n.values) else Err(WrongFileKind)
  }

  function VolumeOf(n: Node): (r: Result<Volume>)
    ensures r.Ok? <==> n.Frames?
    ensures r.Ok? ==> r.value == n.volume
  {
    if n.Frames? then Ok(n.volume) else Err(WrongFileKind)
  }

  /** `numpy.array((xs, ys, zs)).T`: one row per frame when the three
      translation arrays have the same length. */
  function Translations(xs: seq<real>, ys: seq<real>, zs: seq<real>): (r: Result<seq<Vec3>>)
    ensures r.Ok? <==> |xs| == |ys| == |zs|
    ensures r.Err? ==> r.error == RaggedArrays
    ensures r.Ok? ==> |r.value| == |xs| && forall i :: 0 <= i < |xs| ==> r.value[i] == Vec3(xs[i], ys[i], zs[i])
  {
    if |xs| == |ys| == |zs| then
      Ok(seq(|xs|, i requires 0 <= i < |xs| => Vec3(xs[i], ys[i], zs[i])))
    else Err(RaggedArrays)
  }

  /** `Reader.from_nexus`, in the order the source evaluates it: the entry and
      its markers, then the data and detector groups, the translations, the
      first pixel size, and finally the frame stack and rotation angles. */
  function ReadNexus(root: Node): (r: Result<Reader>)
    ensures Member(root, "entry").Err? ==> r == Err(MissingKey)
    ensures r.Ok? ==> root.Group? && "entry" in root.members
    ensures r.Ok? ==> root.members["entry"].Group? && root.members["entry"].nxClass == Some("NXentry")
    ensures r.Ok? ==> Member(root.members["entry"], "definition") == Ok(Text("NXtomo"))
    ensures r.Ok? ==> Consistent(r.value)
  {
    var entry :- Member(root, "entry");
    if !entry.Group? || entry.nxClass.None? then Err(MissingKey)
    else if entry.nxClass.value != "NXentry" then Err(NotAnEntry)
    else
      var definition :- Member(entry, "definition");
      if definition != Text("NXtomo") then Err(NotTomography)
      else
        var data :- Member(entry, "data");
        var detector :- Path(entry, ["instrument", "detector"]);
        var xNode :- Member(data, "x_translation");
        var yNode :- Member(data, "y_translation");
        var zNode :- Member(data, "z_translation");
        var xs :- RealsOf(xNode);
        var ys :- RealsOf(yNode);
        var zs :- RealsOf(zNode);
        var position :- Translations(xs, ys, zs);
        var sizeNode :- Member(detector, "x_pixel_size");
        var sizes :- RealsOf(sizeNode);
        if |sizes| == 0 then Err(IndexOutOfRange)
        else
          var framesNode :- Member(data, "data");
          var frames :- VolumeOf(framesNode);
          var angleNode :- Member(data, "rotation_angle");
          var angle :- RealsOf(angleNode);
          NewReader(frames, angle, position, sizes[0])
  }

  /** A file is accepted only when /entry is marked NXentry and its definition
      is NXtomo; a wrong marker is reported as such. */
  lemma ReadNexusMarkers(root: Node, entry: map<string, Node>, cls: string, def: Node)
    requires root.Group? && root.members == root.members["entry" := Group(Some(cls), entry)]
    ensures cls != "NXentry" ==> ReadNexus(root) == Err(NotAnEntry)
    ensures cls == "NXentry" && "definition" in entry && entry["definition"] != Text("NXtomo") ==>
      ReadNexus(root) == Err(NotTomography)
    ensures cls == "NXentry" && "definition" !in entry ==> ReadNexus(root) == Err(MissingKey)
  {
    assert "entry" in root.members;
  }

  /** A fresh zero-filled dataset of n reals. */
  method ZeroArray(n: nat) returns (a: array<real>)
    ensures fresh(a) && a.Length == n && a[..] == seq(n, _ => 0.0)
  {
    a := new real[n](_ => 0.0);
    assert a[..] == seq(n, _ => 0.0);
  }

  /** `NexusWriter`: the datasets of one NXtomo entry. The sample and detector
      arrays are allocated once; /entry/data holds links to the same arrays
      (`dataGroup`, `dataFrames`), so a write through either name is seen
      through both. The image key and pixel-size arrays are never written
      after construction and are kept as values. */
  class NexusWriter {
    const dtype: DType
    const count: nat
    const height: nat
    const width: nat
    const pixelSize: real
    const imageKey: seq<real>
    const xPixelSize: seq<real>
    const yPixelSize: seq<real>
    const detectorData: array<Image>
    const rotationAngle: array<real>
    const xTranslation: array<real>
    const yTranslation: array<real>
    const zTranslation: array<real>
    const xShift: array<real>
    const yShift: array<real>
    /** The links of /entry/data to the sample datasets. */
    const dataGroup: map<string, array<real>>
    /** The link /entry/data/data to the detector's frame stack. */
    const dataFrames: array<Image>
    ghost var updates: nat

    /** The six sample datasets are six different arrays. */
    ghost predicate Distinct() {
      rotationAngle != xTranslation && rotationAngle != yTranslation && rotationAngle != zTranslation &&
      rotationAngle != xShift && rotationAngle != yShift &&
      xTranslation != yTranslation && xTranslation != zTranslation && xTranslation != xShift && xTranslation != yShift &&
      yTranslation != zTranslation && yTranslation != xShift && yTranslation != yShift &&
      zTranslation != xShift && zTranslation != yShift &&
      xShift != yShift
    }

    ghost predicate Valid()
      reads detectorData
    {
      Distinct() &&
      dataGroup == map["rotation_angle" := rotationAngle,
                       "x_translation" := xTranslation, "y_translation" := yTranslation,
                       "z_translation" := zTranslation,
                       "x_shift" := xShift, "y_shift" := yShift] &&
      dataFrames == detectorData &&
      detectorData.Length == count && rotationAngle.Length == count &&
      xTranslation.Length == count && yTranslation.Length == count && zTranslation.Length == count &&
      xShift.Length == count && yShift.Length == count &&
      imageKey == seq(count, _ => 0.0) &&
      xPixelSize == seq(count, _ => pixelSize) && yPixelSize == seq(count, _ => pixelSize) &&
      forall j :: 0 <= j < count ==> HasShape(detectorData[j], height, width) && detectorData[j].complex == IsComplex(dtype)
    }

    /** `NexusWriter.__init__`: zero datasets of n entries, pixel-size arrays
        filled with the pixel size, and the data group linked to them. */
    constructor (n: nat, h: nat, w: nat, pixelSize: real, d: DType)
      ensures Valid()
      ensures count == n && height == h && width == w && dtype == d && this.pixelSize == pixelSize
      ensures rotationAngle[..] == seq(n, _ => 0.0)
      ensures xTranslation[..] == seq(n, _ => 0.0) && yTranslation[..] == seq(n, _ => 0.0)
      ensures zTranslation[..] == seq(n, _ => 0.0)
      ensures xShift[..] == seq(n, _ => 0.0) && yShift[..] == seq(n, _ => 0.0)
      ensures forall j :: 0 <= j < n ==> detectorData[j] == Zeros(h, w, IsComplex(d))
      ensures fresh(detectorData) && fresh(rotationAngle) && fresh(xTranslation) && fresh(yTranslation)
      ensures fresh(zTranslation) && fresh(xShift) && fresh(yShift)
      ensures updates == 0
    {
      dtype := d;
      count := n;
      height := h;
      width := w;
      this.pixelSize := pixelSize;
      imageKey := seq(n, _ => 0.0);
      xPixelSize := seq(n, _ => pixelSize);
      yPixelSize := seq(n, _ => pixelSize);
      var frames := new Image[n](_ => Zeros(h, w, IsComplex(d)));
      var angle := ZeroArray(n);
      var xt := ZeroArray(n);
      var yt := ZeroArray(n);
      var zt := ZeroArray(n);
      var xs := ZeroArray(n);
      var ys := ZeroArray(n);
      detectorData := frames;
      rotationAngle := angle;
      xTranslation := xt;
      yTranslation := yt;
      zTranslation := zt;
      xShift := xs;
      yShift := ys;
      dataGroup := map["rotation_angle" := angle, "x_translation" := xt, "y_translation" := yt,
                       "z_translation" := zt, "x_shift" := xs, "y_shift" := ys];
      dataFrames := frames;
      updates := 0;
    }

    /** `writer.angle[item] = d`: the angle property is the dataset
        /entry/data/rotation_angle, a link to the sample's rotation_angle. */
    method SetAngle(item: int, d: real) returns (r: Result<()>)
      requires Valid()
      modifies rotationAngle
      ensures Valid()
      ensures r.Ok? <==> NormIndex(item, count).Some?
      ensures r.Err? ==> r.error == IndexOutOfRange && rotationAngle[..] == old(rotationAngle[..])
      ensures r.Ok? ==> rotationAngle[..] == old(rotationAngle[..])[NormIndex(item, count).value := d]
    {
      match NormIndex(item, count)
      case None =>
        return Err(IndexOutOfRange);
      case Some(j) =>
        dataGroup["rotation_angle"][j] := d;
        return Ok(());
    }

    /** `PositionProxy.__setitem__` with a (row, component) index into the
        n x 3 grid: component 0, 1, 2 writes x, y, z_translation[row]
        through the data group. */
    method SetTranslationComponent(row: int, comp: int, d: real) returns (r: Result<()>)
      requires Valid()
      modifies xTranslation, yTranslation, zTranslation
      ensures Valid()
      ensures r.Ok? <==> NormIndex(row, count).Some? && NormIndex(comp, 3).Some?
      ensures r.Err? ==> r.error == IndexOutOfRange
      ensures var j := NormIndex(row, count); var c := NormIndex(comp, 3);
        xTranslation[..] == (if r.Ok? && c.value == 0 then old(xTranslation[..])[j.value := d] else old(xTranslation[..])) &&
        yTranslation[..] == (if r.Ok? && c.value == 1 then old(yTranslation[..])[j.value := d] else old(yTranslation[..])) &&
        zTranslation[..] == (if r.Ok? && c.value == 2 then old(zTranslation[..])[j.value := d] else old(zTranslation[..]))
    {
      var j := NormIndex(row, count);
      var c := NormIndex(comp, 3);
      if j.None? || c.None? {
        return Err(IndexOutOfRange);
      }
      if c.value == 0 {
        dataGroup["x_translation"][j.value] := d;
      } else if c.value == 1 {
        dataGroup["y_translation"][j.value] := d;
      } else {
        dataGroup["z_translation"][j.value] := d;
      }
      return Ok(());
    }

    /** `PositionProxy.__setitem__` with a row index: components 0, 1, 2 are
        zipped with `data`, so only as many are written as `data` has. */
    method SetTranslationRow(row: int, data: seq<real>) returns (r: Result<()>)
      requires Valid()
      modifies xTranslation, yTranslation, zTranslation
      ensures Valid()
      ensures r.Ok? <==> NormIndex(row, count).Some?
      ensures r.Err? ==> r.error == IndexOutOfRange
      ensures var j := NormIndex(row, count);
        xTranslation[..] == (if r.Ok? then Put(old(xTranslation[..]), j.value, data, 0) else old(xTranslation[..])) &&
        yTranslation[..] == (if r.Ok? then Put(old(yTranslation[..]), j.value, data, 1) else old(yTranslation[..])) &&
        zTranslation[..] == (if r.Ok? then Put(old(zTranslation[..]), j.value, data, 2) else old(zTranslation[..]))
    {
      match NormIndex(row, count)
      case None =>
        return Err(IndexOutOfRange);
      case Some(j) =>
        var m := if |data| < 3 then |data| else 3;
        for c := 0 to m
          invariant xTranslation[..] == Put(old(xTranslation[..]), j, data[..c], 0)
          invariant yTranslation[..] == Put(old(yTranslation[..]), j, data[..c], 1)
          invariant zTranslation[..] == Put(old(zTranslation[..]), j, data[..c], 2)
        {
          if c == 0 {
            dataGroup["x_translation"][j] := data[c];
          } else if c == 1 {
            dataGroup["y_translation"][j] := data[c];
          } else {
            dataGroup["z_translation"][j] := data[c];
          }
        }
        PutPrefix(old(xTranslation[..]), j, data, m, 0);
        PutPrefix(old(yTranslation[..]), j, data, m, 1);
        PutPrefix(old(zTranslation[..]), j, data, m, 2);
        return Ok(());
    }

    /** `ShiftProxy.__setitem__` with a (row, component) index into the n x 2
        grid: component 0, 1 writes x, y_shift[row]. */
    method SetShiftComponent(row: int, comp: int, d: real) returns (r: Result<()>)
      requires Valid()
      modifies xShift, yShift
      ensures Valid()
      ensures r.Ok? <==> NormIndex(row, count).Some? && NormIndex(comp, 2).Some?
      ensures r.Err? ==> r.error == IndexOutOfRange
      ensures var j := NormIndex(row, count); var c := NormIndex(comp, 2);
        xShift[..] == (if r.Ok? && c.value == 0 then old(xShift[..])[j.value := d] else old(xShift[..])) &&
        yShift[..] == (if r.Ok? && c.value == 1 then old(yShift[..])[j.value := d] else old(yShift[..]))
    {
      var j := NormIndex(row, count);
      var c := NormIndex(comp, 2);
      if j.None? || c.None? {
        return Err(IndexOutOfRange);
      }
      if c.value == 0 {
        dataGroup["x_shift"][j.value] := d;
      } else {
        dataGroup["y_shift"][j.value] := d;
      }
      return Ok(());
    }

    /** `ShiftProxy.__setitem__` with a row index: components 0, 1 zipped with `data`. */
    method SetShiftRow(row: int, data: seq<real>) returns (r: Result<()>)
      requires Valid()
      modifies xShift, yShift
      ensures Valid()
      ensures r.Ok? <==> NormIndex(row, count).Some?
      ensures r.Err? ==> r.error == IndexOutOfRange
      ensures var j := NormIndex(row, count);
        xShift[..] == (if r.Ok? then Put(old(xShift[..]), j.value, data, 0) else old(xShift[..])) &&
        yShift[..] == (if r.Ok? then Put(old(yShift[..]), j.value, data, 1) else old(yShift[..]))
    {
      match NormIndex(row, count)
      case None =>
        return Err(IndexOutOfRange);
      case Some(j) =>
        var m := if |data| < 2 then |data| else 2;
        for c := 0 to m
          invariant xShift[..] == Put(old(xShift[..]), j, data[..c], 0)
          invariant yShift[..] == Put(old(yShift[..]), j, data[..c], 1)
        {
          if c == 0 {
            dataGroup["x_shift"][j] := data[c];
          } else {
            dataGroup["y_shift"][j] := data[c];
          }
        }
        PutPrefix(old(xShift[..]), j, data, m, 0);
        PutPrefix(old(yShift[..]), j, data, m, 1);
        return Ok(());
    }

    /** `writer.data[item, :, :] = image`, through the /entry/data/data link. */
    method SetFrame(item: int, img: Image) returns (r: Result<()>)
      requires Valid()
      modifies detectorData
      ensures Valid()
      ensures r.Ok? <==> NormIndex(item, count).Some? && BroadcastsTo(img, height, width)
      ensures NormIndex(item, count).None? ==> r == Err(IndexOutOfRange)
      ensures NormIndex(item, count).Some? && !BroadcastsTo(img, height, width) ==> r == Err(ShapeMismatch)
      ensures r.Err? ==> detectorData[..] == old(detectorData[..])
      ensures r.Ok? ==> detectorData[..] == old(detectorData[..])[NormIndex(item, count).value := Cast(Broadcast(img, height, width), IsComplex(dtype))]
    {
      match NormIndex(item, count)
      case None =>
        return Err(IndexOutOfRange);
      case Some(j) =>
        if !BroadcastsTo(img, height, width) {
          return Err(ShapeMismatch);
        }
        dataFrames[j] := Cast(Broadcast(img, height, width), IsComplex(dtype));
        return Ok(());
    }

    /** `update`: the base class's, which does nothing to the file. */
    method Update()
      modifies this
      ensures updates == old(updates) + 1
    {
      updates := updates + 1;
    }

    /** The positions as the reader will rebuild them. */
    function Positions(): (p: seq<Vec3>)
      reads xTranslation, yTranslation, zTranslation
      requires xTranslation.Length == yTranslation.Length == zTranslation.Length
      ensures |p| == xTranslation.Length
      ensures forall i :: 0 <= i < |p| ==> p[i] == Vec3(xTranslation[i], yTranslation[i], zTranslation[i])
    {
      seq(xTranslation.Length, i reads xTranslation, yTranslation, zTranslation
        requires 0 <= i < xTranslation.Length == yTranslation.Length == zTranslation.Length =>
        Vec3(xTranslation[i], yTranslation[i], zTranslation[i]))
    }

    /** The file the writer leaves: /entry with its definition, the
        instrument's detector, the sample, and the data group whose members
        are the linked datasets. */
    function Contents(): Node
      reads detectorData, rotationAngle, xTranslation, yTranslation, zTranslation, xShift, yShift
      requires Valid()
    {
      var detector := Group(Some("NXdetector"), map[
        "data" := Frames(Volume(dtype, height, width, detectorData[..])),
        "image_key" := Reals(imageKey),
        "x_pixel_size" := Reals(xPixelSize),
        "y_pixel_size" := Reals(yPixelSize)]);
      var sample := Group(Some("NXsample"), map[
        "name" := Text("elfantasma-simulation"),
        "rotation_angle" := Reals(rotationAngle[..]),
        "x_translation" := Reals(xTranslation[..]),
        "y_translation" := Reals(yTranslation[..]),
        "z_translation" := Reals(zTranslation[..]),
        "x_shift" := Reals(xShift[..]),
        "y_shift" := Reals(yShift[..])]);
      var data := Group(None, map[
        "data" := Frames(Volume(dtype, height, width, dataFrames[..])),
        "rotation_angle" := Reals(dataGroup["rotation_angle"][..]),
        "x_translation" := Reals(dataGroup["x_translation"][..]),
        "y_translation" := Reals(dataGroup["y_translation"][..]),
        "z_translation" := Reals(dataGroup["z_translation"][..]),
        "x_shift" := Reals(dataGroup["x_shift"][..]),
        "y_shift" := Reals(dataGroup["y_shift"][..]),
        "image_key" := Reals(imageKey)]);
      var entry := Group(Some("NXentry"), map[
        "definition" := Text("NXtomo"),
        "instrument" := Group(Some("NXinstrument"), map["detector" := detector]),
        "sample" := sample,
        "data" := data]);
      Group(None, map["entry" := entry])
    }
  }

  /** `s[j] = data[c]` when data has a c-th element; otherwise s unchanged. */
  function Put(s: seq<real>, j: nat, data: seq<real>, c: nat): (r: seq<real>)
    requires j < |s|
    ensures |r| == |s|
  {
    if c < |data| then s[j := data[c]] else s
  }

  /** Writing the first m components is writing all that zip reaches, once
      m is min(|data|, width) and the component lies below that width. */
  lemma PutPrefix(s: seq<real>, j: nat, data: seq<real>, m: nat, c: nat)
    requires j < |s| && m <= |data| && (c < m || m == |data|)
    ensures Put(s, j, data[..m], c) == Put(s, j, data, c)
  {
  }

  /** What `from_nexus` gives back for a file this writer produced: the
      frames, the rotation angles and all three translation components, and
      the first pixel size. A file of zero frames has no first pixel size,
      so it cannot be read back. */
  lemma ReadBackWriter(w: NexusWriter)
    requires w.Valid()
    ensures w.count == 0 ==> ReadNexus(w.Contents()) == Err(IndexOutOfRange)
    ensures w.count > 0 ==> (ReadNexus(w.Contents()) ==
      Ok(Reader(Volume(w.dtype, w.height, w.width, w.detectorData[..]), w.rotationAngle[..], w.Positions(), w.pixelSize)))
    ensures VolumeValid(Volume(w.dtype, w.height, w.width, w.detectorData[..]))
  {
    var root := w.Contents();
    var entry := root.members["entry"];
    var data := entry.members["data"];
    assert Member(root, "entry") == Ok(entry);
    assert Member(entry, "definition") == Ok(Text("NXtomo"));
    var instrument := entry.members["instrument"];
    var detector := instrument.members["detector"];
    assert Path(entry, ["instrument", "detector"]) == Ok(detector) by {
      assert Member(entry, "instrument") == Ok(instrument);
      assert Member(instrument, "detector") == Ok(detector);
      assert ["instrument", "detector"][1..] == ["detector"];
      assert Path(detector, []) == Ok(detector);
    }
    assert Member(data, "x_translation") == Ok(Reals(w.xTranslation[..]));
    assert Member(data, "y_translation") == Ok(Reals(w.yTranslation[..]));
    assert Member(data, "z_translation") == Ok(Reals(w.zTranslation[..]));
    var t := Translations(w.xTranslation[..], w.yTranslation[..], w.zTranslation[..]);
    assert t.Ok?;
    assert forall i :: 0 <= i < w.count ==> t.value[i] == w.Positions()[i];
    assert t.value == w.Positions();
    assert Member(detector, "x_pixel_size") == Ok(Reals(w.xPixelSize));
    if w.count > 0 {
      assert w.xPixelSize[0] == w.pixelSize;
      assert Member(data, "data") == Ok(Frames(Volume(w.dtype, w.height, w.width, w.detectorData[..])));
      assert Member(data, "rotation_angle") == Ok(Reals(w.rotationAngle[..]));
    }
  }

  /** The names under /entry/data that link to a sample dataset. */
  const LinkedNames: set<string> :=
    {"rotation_angle", "x_translation", "y_translation", "z_translation", "x_shift", "y_shift"}

  /** Each of the six links under /entry/data shows exactly the data of the
      sample dataset of the same name, whatever has been written since. */
  lemma LinksShowSampleData(w: NexusWriter, name: string)
    requires w.Valid() && name in LinkedNames
    ensures Path(w.Contents(), ["entry", "data", name]) == Path(w.Contents(), ["entry", "sample", name])
    ensures Path(w.Contents(), ["entry", "data", name]).Ok?
  {
    var root := w.Contents();
    var entry := root.members["entry"];
    var data := entry.members["data"];
    var sample := entry.members["sample"];
    assert ["entry", "data", name][1..] == ["data", name];
    assert ["data", name][1..] == [name];
    assert ["entry", "sample", name][1..] == ["sample", name];
    assert ["sample", name][1..] == [name];
    assert [name][1..] == [];
    assert Member(root, "entry") == Ok(entry);
    assert Member(entry, "data") == Ok(data);
    assert Member(entry, "sample") == Ok(sample);
    assert Path(root, ["entry", "data", name]) == Path(data, [name]) by {
      assert Path(root, ["entry", "data", name]) == Path(entry, ["data", name]);
      assert Path(entry, ["data", name]) == Path(data, [name]);
    }
    assert Path(root, ["entry", "sample", name]) == Path(sample, [name]) by {
      assert Path(root, ["entry", "sample", name]) == Path(entry, ["sample", name]);
      assert Path(entry, ["sample", name]) == Path(sample, [name]);
    }
    assert name in data.members && name in sample.members;
    assert data.members[name] == sample.members[name];
    assert Path(data, [name]) == Ok(data.members[name]) by {
      assert Member(data, name) == Ok(data.members[name]);
      assert Path(data.members[name], []) == Ok(data.members[name]);
    }
    assert Path(sample, [name]) == Ok(sample.members[name]) by {
      assert Member(sample, name) == Ok(sample.members[name]);
      assert Path(sample.members[name], []) == Ok(sample.members[name]);
    }
  }

  /** The `pixel_size` property of NexusWriter as written: it looks up
      instrument/detector/x_pixel_size at the file root, where only /entry
      exists. */
  function PixelSizeAtRoot(root: Node): (r: Result<real>)
    ensures r.Ok? ==> Path(root, ["instrument", "detector", "x_pixel_size"]).Ok?
  {
    var node :- Path(root, ["instrument", "detector", "x_pixel_size"]);
    var sizes :- RealsOf(node);
    if |sizes| == 0 then Err(IndexOutOfRange) else Ok(sizes[0])
  }

  /** The property as evidently intended: the first detector pixel size under
      /entry, the value `from_nexus` reads. */
  function PixelSizeOfEntry(root: Node): (r: Result<real>)
    ensures r.Ok? ==> Path(root, ["entry", "instrument", "detector", "x_pixel_size"]).Ok?
  {
    var node :- Path(root, ["entry", "instrument", "detector", "x_pixel_size"]);
    var sizes :- RealsOf(node);
    if |sizes| == 0 then Err(IndexOutOfRange) else Ok(sizes[0])
  }

  /** On every file the writer produces, the property as written raises
      KeyError, while the intended lookup returns the pixel size the writer
      was given (when there is at least one frame) and agrees with what the
      reader reports. */
  lemma PixelSizeLookup(w: NexusWriter)
    requires w.Valid()
    ensures PixelSizeAtRoot(w.Contents()) == Err(MissingKey)
    ensures w.count > 0 ==> PixelSizeOfEntry(w.Contents()) == Ok(w.pixelSize)
    ensures w.count > 0 ==> (ReadNexus(w.Contents()).Ok? &&
      PixelSizeOfEntry(w.Contents()) == Ok(ReadNexus(w.Contents()).value.pixelSize))
  {
    var root := w.Contents();
    assert "instrument" !in root.members;
    assert Member(root, "instrument") == Err(MissingKey);
    var entry := root.members["entry"];
    var instrument := entry.members["instrument"];
    var detector := instrument.members["detector"];
    assert Member(root, "entry") == Ok(entry);
    assert Member(entry, "instrument") == Ok(instrument);
    assert Member(instrument, "detector") == Ok(detector);
    assert Member(detector, "x_pixel_size") == Ok(Reals(w.xPixelSize));
    var keys := ["entry", "instrument", "detector", "x_pixel_size"];
    assert keys[1..] == ["instrument", "detector", "x_pixel_size"];
    assert keys[1..][1..] == ["detector", "x_pixel_size"];
    assert keys[1..][1..][1..] == ["x_pixel_size"];
    assert keys[1..][1..][1..][1..] == [];
    assert Path(root, keys) == Ok(Reals(w.xPixelSize));
    if w.count > 0 {
      assert w.xPixelSize[0] == w.pixelSize;
      ReadBackWriter(w);
    }
  }

  /** Angles and positions written through the writer's properties come back
      from `from_nexus` at the same frame, Z included; the shift datasets are
      not part of what the reader returns. */
  method WriteThenRead(n: nat, h: nat, w: nat, pixelSize: real, d: DType, j: nat, a: real, p: Vec3, s: seq<real>)
    returns (r: Result<Reader>)
    requires j < n
    ensures r.Ok? && |r.value.angle| == n && |r.value.position| == n
    ensures r.value.angle[j] == a && r.value.position[j] == p
    ensures forall k :: 0 <= k < n && k != j ==> r.value.angle[k] == 0.0 && r.value.position[k] == Origin
    ensures r.value.pixelSize == pixelSize && r.value.data.dtype == d
  {
    var writer := new NexusWriter(n, h, w, pixelSize, d);
    var _ := writer.SetAngle(j, a);
    var _ := writer.SetTranslationRow(j, [p.x, p.y, p.z]);
    var _ := writer.SetShiftRow(j, s);
    ReadBackWriter(writer);
    r := ReadNexus(writer.Contents());
  }
}

=== FILE: reader.dfy ===
/** The uniform read side: a Reader holds the lazily addressed frame stack and
    the eagerly loaded angle and position arrays, checks that they agree in
    length, and derives start/stop/step scalars from them. */
module Readers {
  import opened Common
  import opened DTypes
  import opened Images

  /** A frame stack as a backend exposes it (a memory map or an HDF5 dataset):
      N frames of height x width, all of one element type. */
  datatype Volume = Volume(dtype: DType, height: nat, width: nat, frames: seq<Image>)

  predicate VolumeValid(v: Volume) {
    forall i :: 0 <= i < |v.frames| ==>
      HasShape(v.frames[i], v.height, v.width) && v.frames[i].complex == IsComplex(v.dtype)
  }

  datatype Reader = Reader(data: Volume, angle: seq<real>, position: seq<Vec3>, pixelSize: real)

  /** The invariant `Reader.__init__` establishes: one angle and one position per frame. */
  predicate Consistent(r: Reader) {
    |r.angle| == |r.data.frames| && |r.position| == |r.data.frames|
  }

  /** `Reader.__init__`: fails unless len(angle) and len(position) both equal
      data.shape[0]. */
  function NewReader(data: Volume, angle: seq<real>, position: seq<Vec3>, pixelSize: real): (r: Result<Reader>)
    ensures r.Ok? <==> |angle| == |data.frames| && |position| == |data.frames|
    ensures r.Err? ==> r.error == InconsistentDimensions
    ensures r.Ok? ==> (Consistent(r.value) && r.value.data == data && r.value.angle == angle
      && r.value.position == position && r.value.pixelSize == pixelSize)
  {
    if |angle| != |data.frames| then Err(InconsistentDimensions)
    else if |position| != |data.frames| then Err(InconsistentDimensions)
    else Ok(Reader(data, angle, position, pixelSize))
  }

  /** `num_images`: len(angle), which is the frame count of a consistent reader. */
  function NumImages(r: Reader): (n: nat)
    ensures Consistent(r) ==> n == |r.data.frames| && n == |r.position|
  {
    |r.angle|
  }

  /** num_images counts the frames of any reader that was constructed. */
  lemma NumImagesIsFrameCount(data: Volume, angle: seq<real>, position: seq<Vec3>, pixelSize: real)
    requires NewReader(data, angle, position, pixelSize).Ok?
    ensures NumImages(NewReader(data, angle, position, pixelSize).value) == |data.frames|
  {
  }

  // ---------------------------------------------------------------------
  // Angles

  /** angle[0]; an empty array raises IndexError. */
  function StartAngle(r: Reader): (s: Result<real>)
    ensures s.Ok? <==> |r.angle| > 0
    ensures s.Ok? ==> s.value == r.angle[0]
  {
    if |r.angle| == 0 then Err(IndexOutOfRange) else Ok(r.angle[0])
  }

  /** angle[-1] */
  function StopAngle(r: Reader): (s: Result<real>)
    ensures s.Ok? <==> |r.angle| > 0
    ensures s.Ok? ==> s.value == r.angle[|r.angle| - 1]
  {
    if |r.angle| == 0 then Err(IndexOutOfRange) else Ok(r.angle[|r.angle| - 1])
  }

  /** 1 for a single frame, otherwise (angle[-1] - angle[0]) / (N - 1); with
      no frames angle[-1] raises. */
  function StepAngle(r: Reader): (s: Result<real>)
    ensures s.Ok? <==> |r.angle| > 0
    ensures |r.angle| == 1 ==> s == Ok(1.0)
    ensures |r.angle| >= 2 ==> s.Ok? && s.value * (|r.angle| - 1) as real == r.angle[|r.angle| - 1] - r.angle[0]
  {
    var n := |r.angle|;
    if n == 1 then Ok(1.0)
    else if n == 0 then Err(IndexOutOfRange)
    else Ok((r.angle[n - 1] - r.angle[0]) / (n - 1) as real)
  }

  /** The sum of the first differences s[k+1] - s[k]. */
  function SumDiffs(s: seq<real>): real {
    if |s| < 2 then 0.0 else SumDiffs(s[..|s| - 1]) + (s[|s| - 1] - s[|s| - 2])
  }

  lemma {:induction false} Telescoping(s: seq<real>)
    requires |s| >= 1
    ensures SumDiffs(s) == s[|s| - 1] - s[0]
  {
    if |s| >= 2 {
      Telescoping(s[..|s| - 1]);
    }
  }

  /** step_angle is the mean first difference of the angles. */
  lemma StepAngleIsMeanDifference(r: Reader)
    requires |r.angle| >= 2
    ensures StepAngle(r) == Ok(SumDiffs(r.angle) / (|r.angle| - 1) as real)
  {
    Telescoping(r.angle);
  }

  lemma DivCancel(a: real, d: real)
    requires d != 0.0
    ensures (d * a) / d == a
  {
  }

  /** On an evenly spaced scan a0, a0 + s, a0 + 2s, ... step_angle is s. */
  lemma StepAngleOfUniformScan(r: Reader, a0: real, s: real)
    requires |r.angle| >= 2
    requires forall i :: 0 <= i < |r.angle| ==> r.angle[i] == a0 + i as real * s
    ensures StepAngle(r) == Ok(s)
  {
    var n := |r.angle|;
    assert r.angle[n - 1] == a0 + (n - 1) as real * s;
    assert r.angle[0] == a0;
    DivCancel(s, (n - 1) as real);
    assert (r.angle[n - 1] - r.angle[0]) / (n - 1) as real == s;
  }

  // ---------------------------------------------------------------------
  // Positions: column 1 (Y) of the position array

  function YColumn(p: seq<Vec3>): (ys: seq<real>)
    ensures |ys| == |p|
    ensures forall k :: 0 <= k < |p| ==> ys[k] == p[k].y
  {
    seq(|p|, k requires 0 <= k < |p| => p[k].y)
  }

  /** position[0][1]; an empty array raises IndexError. */
  function StartPosition(r: Reader): (s: Result<real>)
    ensures s.Ok? <==> |r.position| > 0
    ensures s.Ok? ==> s.value == r.position[0].y
  {
    if |r.position| == 0 then Err(IndexOutOfRange) else Ok(r.position[0].y)
  }

  /** position[-1][1] */
  function StopPosition(r: Reader): (s: Result<real>)
    ensures s.Ok? <==> |r.position| > 0
    ensures s.Ok? ==> s.value == r.position[|r.position| - 1].y
  {
    if |r.position| == 0 then Err(IndexOutOfRange) else Ok(r.position[|r.position| - 1].y)
  }

  /** The tolerance of the spacing check, 1e-7. */
  const Tol: real := 0.0000001

  function Abs(x: real): real {
    if x < 0.0 then -x else x
  }

  /** `all(abs((b - a) - step) < tol for a, b in zip(xs, ys))` */
  predicate AllClose(xs: seq<real>, ys: seq<real>, step: real) {
    forall k :: 0 <= k < |xs| && k < |ys| ==> Abs((ys[k] - xs[k]) - step) < Tol
  }

  /** `(position[-1, 1] - position[0, 1]) / (N - 1)`: the mean Y step, the
      value that spreads the Y travel evenly over the N - 1 steps. */
  function MeanYStep(p: seq<Vec3>): (m: real)
    requires |p| > 1
    ensures m * (|p| - 1) as real == p[|p| - 1].y - p[0].y
  {
    (p[|p| - 1].y - p[0].y) / (|p| - 1) as real
  }

  /** step_position as written: for N > 1 the mean first difference of the Y
      column, checked against zip(position[0:-1, 1], position[1:1]). The
      second operand is the empty slice position[1:1] (the source zips its
      rows; being empty, only its length matters), so no pair is ever checked.
      For N <= 1 the step is 0. */
  function StepPosition(r: Reader): (s: Result<real>)
    ensures |r.position| <= 1 ==> s == Ok(0.0)
    ensures |r.position| > 1 ==> s == Ok(MeanYStep(r.position))
  {
    var n := |r.position|;
    if n > 1 then
      var step := MeanYStep(r.position);
      if AllClose(YColumn(r.position)[..n - 1], YColumn(r.position[1..1]), step) then Ok(step)
      else Err(AssertionFailed)
    else Ok(0.0)
  }

  /** The spacing assertion of step_position never fires, whatever the
      positions: it compares against an empty slice. */
  lemma StepPositionNeverChecks(r: Reader)
    ensures StepPosition(r).Ok?
  {
  }

  /** step_position with the check its authors evidently meant: consecutive
      Y values, zip(position[0:-1, 1], position[1:, 1]). */
  function StepPositionChecked(r: Reader): (s: Result<real>)
    ensures |r.position| <= 1 ==> s == Ok(0.0)
  {
    var n := |r.position|;
    if n > 1 then
      var ys := YColumn(r.position);
      var step := MeanYStep(r.position);
      if AllClose(ys[..n - 1], ys[1..], step) then Ok(step)
      else Err(AssertionFailed)
    else Ok(0.0)
  }

  /** The corrected check accepts exactly the scans whose every Y step is
      within 1e-7 of the mean step, and then returns that mean step. */
  lemma StepPositionCheckedSpec(r: Reader)
    requires |r.position| > 1
    ensures StepPositionChecked(r).Ok? <==> forall k :: 0 <= k < |r.position| - 1 ==>
      Abs((r.position[k + 1].y - r.position[k].y) - MeanYStep(r.position)) < Tol
    ensures StepPositionChecked(r).Ok? ==> StepPositionChecked(r) == StepPosition(r)
  {
    ConsecutiveClose(r.position, MeanYStep(r.position));
  }

  /** Zipping the Y column with itself shifted by one pairs each row's Y
      with the next row's. */
  lemma ConsecutiveClose(p: seq<Vec3>, step: real)
    requires |p| > 0
    ensures AllClose(YColumn(p)[..|p| - 1], YColumn(p)[1..], step) <==>
      forall k :: 0 <= k < |p| - 1 ==> Abs((p[k + 1].y - p[k].y) - step) < Tol
  {
    var n := |p|;
    var ys := YColumn(p);
    assert forall k :: 0 <= k < n - 1 ==> ys[..n - 1][k] == p[k].y && ys[1..][k] == p[k + 1].y;
  }

  /** On an evenly spaced scan the corrected check passes and returns the spacing. */
  lemma StepPositionCheckedUniform(r: Reader, y0: real, s: real)
    requires |r.position| > 1
    requires forall i :: 0 <= i < |r.position| ==> r.position[i].y == y0 + i as real * s
    ensures StepPositionChecked(r) == Ok(s)
  {
    var n := |r.position|;
    assert r.position[n - 1].y == y0 + (n - 1) as real * s;
    assert r.position[0].y == y0;
    DivCancel(s, (n - 1) as real);
    var step := MeanYStep(r.position);
    assert step == s;
    forall k | 0 <= k < n - 1
      ensures Abs((r.position[k + 1].y - r.position[k].y) - step) < Tol
    {
      assert r.position[k + 1].y == y0 + (k + 1) as real * s;
      assert r.position[k].y == y0 + k as real * s;
      assert (k + 1) as real * s == k as real * s + s;
    }
    StepPositionCheckedSpec(r);
  }

  /** The discrepancy on a concrete scan: Y = 0, 0, 3 is not evenly spaced;
      as written step_position returns 1.5, the intended check rejects it. */
  lemma UnevenScanExample(r: Reader)
    requires r.position == [Vec3(0.0, 0.0, 0.0), Vec3(0.0, 0.0, 0.0), Vec3(0.0, 3.0, 0.0)]
    ensures StepPosition(r) == Ok(1.5)
    ensures StepPositionChecked(r) == Err(AssertionFailed)
  {
    var ys := YColumn(r.position);
    assert ys[1..][0] - ys[..2][0] == 0.0;
  }

  /** The single-frame convention: step_angle is 1 and step_position is 0,
      whatever the one angle and position are. */
  lemma SingleFrameSteps(r: Reader)
    requires Consistent(r) && |r.data.frames| == 1
    ensures StepAngle(r) == Ok(1.0)
    ensures StepPosition(r) == Ok(0.0)
  {
  }
}

=== FILE: writers.dfy ===
/** The two entry points of the I/O layer: `new`, which opens a writer of the
    backend the file name selects, and `Reader.from_file`, which reads one
    back. A writer is seen through a uniform per-frame view: what is stored
    for the frame, its angle and its position. */
module Writers {
  import opened Common
  import opened DTypes
  import opened Images
  import opened Readers
  import opened Dispatch
  import opened Mrc
  import opened Nexus
  import opened ImageOutput

  datatype Writer =
    | MrcOut(m: MrcFileWriter)
    | NexusOut(x: NexusWriter)
    | ImagesOut(i: ImageWriter)

  ghost function Repr(w: Writer): set<object> {
    match w
    case MrcOut(m) => {m, m.extHeader, m.data}
    case NexusOut(x) => {x, x.detectorData, x.rotationAngle, x.xTranslation, x.yTranslation, x.zTranslation, x.xShift, x.yShift}
    case ImagesOut(i) => {i, i.angle, i.position}
  }

  ghost predicate Valid(w: Writer)
    reads Repr(w)
  {
    match w
    case MrcOut(m) => m.Valid()
    case NexusOut(x) => x.Valid()
    case ImagesOut(i) => i.Valid()
  }

  /** shape[0]: the number of frames the writer was opened for. */
  function Count(w: Writer): nat {
    match w
    case MrcOut(m) => m.data.Length
    case NexusOut(x) => x.count
    case ImagesOut(i) => i.count
  }

  /** `writer.is_image_writer` */
  predicate IsImageWriter(w: Writer) {
    w.ImagesOut?
  }

  ghost function Updates(w: Writer): nat
    reads Repr(w)
  {
    match w
    case MrcOut(m) => m.updates
    case NexusOut(x) => x.updates
    case ImagesOut(i) => i.updates
  }

  /** The stored range of an image writer; other writers have none. */
  function Range(w: Writer): (Option<real>, Option<real>)
    reads if w.ImagesOut? then {w.i} else {}
  {
    if w.ImagesOut? then (w.i.vmin, w.i.vmax) else (None, None)
  }

  /** What a writer holds for one frame: the pixels of a dataset, or the
      rescaled pixels of an image file. */
  datatype Stored = Pixels(image: Image) | Picture(pixels: seq<seq<real>>)

  datatype Slot = Slot(stored: Option<Stored>, angle: real, position: Vec3)

  /** Frame k as the writer's file holds it. */
  function SlotAt(w: Writer, k: nat): Slot
    reads Repr(w)
    requires Valid(w) && k < Count(w)
  {
    match w
    case MrcOut(m) =>
      Slot(Some(Pixels(m.data[k])), m.extHeader[k].alphaTilt, Vec3(m.extHeader[k].shiftX, m.extHeader[k].shiftY, 0.0))
    case NexusOut(x) =>
      Slot(Some(Pixels(x.detectorData[k])), x.rotationAngle[k], Vec3(x.xTranslation[k], x.yTranslation[k], x.zTranslation[k]))
    case ImagesOut(i) =>
      Slot(if k + 1 in i.files then Some(Picture(i.files[k + 1])) else None, i.angle[k], i.position[k])
  }

  /** What an h x w dataset slot of the given kind holds after a frame is
      assigned into it; nothing when the frame cannot be broadcast. */
  function Assigned(img: Image, h: nat, w: nat, complex: bool): (r: Option<Stored>)
    ensures r.Some? <==> BroadcastsTo(img, h, w)
    ensures r.Some? ==> r.value.Pixels? && HasShape(r.value.image, h, w) && r.value.image.complex == complex
    ensures HasShape(img, h, w) ==> r == Some(Pixels(Cast(img, complex)))
  {
    if BroadcastsTo(img, h, w) then
      BroadcastExact(img, h, w);
      Some(Pixels(Cast(Broadcast(img, h, w), complex)))
    else None
  }

  /** What a frame written with the given image, angle and position holds,
      given the writer's element type and, for an image writer, the range
      stored at the time of the write: MRC keeps no Z, an image file holds
      the rescaled intensities. */
  function Expected(w: Writer, img: Image, a: real, p: Vec3, range: (Option<real>, Option<real>)): Slot
    requires WellFormed(img)
  {
    match w
    case MrcOut(m) => Slot(Assigned(img, m.height, m.width, IsComplex(m.dtype)), a, Vec3(p.x, p.y, 0.0))
    case NexusOut(x) => Slot(Assigned(img, x.height, x.width, IsComplex(x.dtype)), a, p)
    case ImagesOut(_) =>
      Slot(match Render(img, range.0, range.1) case Ok(px) => Some(Picture(px)) case Err(_) => None, a, p)
  }

  /** Whether a frame passes the writer's shape check. */
  predicate Accepts(w: Writer, img: Image) {
    match w
    case MrcOut(m) => BroadcastsTo(img, m.height, m.width)
    case NexusOut(x) => BroadcastsTo(img, x.height, x.width)
    case ImagesOut(i) => i.Fits(img)
  }

  /** The element type h5py uses when none is given. */
  const HdfDefaultDType := Float32

  /** A fresh writer holds zero angles and positions for every frame. */
  ghost predicate Blank(w: Writer)
    reads Repr(w)
    requires Valid(w)
  {
    forall k :: 0 <= k < Count(w) ==> SlotAt(w, k).angle == 0.0 && SlotAt(w, k).position == Origin
  }

  method OpenMrc(n: nat, h: nat, w: nat, pixelSize: real, d: DType) returns (wr: Writer)
    requires HasMrcMode(Narrow(d))
    ensures wr.MrcOut? && Valid(wr) && fresh(Repr(wr)) && Count(wr) == n && Updates(wr) == 0 && Blank(wr)
    ensures wr.m.dtype == Narrow(d) && wr.m.voxelSize == pixelSize && wr.m.height == h && wr.m.width == w
  {
    var m := new MrcFileWriter(n, h, w, pixelSize, d);
    wr := MrcOut(m);
  }

  method OpenNexus(n: nat, h: nat, w: nat, pixelSize: real, d: DType) returns (wr: Writer)
    ensures wr.NexusOut? && Valid(wr) && fresh(Repr(wr)) && Count(wr) == n && Updates(wr) == 0 && Blank(wr)
    ensures wr.x.dtype == d && wr.x.pixelSize == pixelSize && wr.x.height == h && wr.x.width == w
  {
    var x := new NexusWriter(n, h, w, pixelSize, d);
    wr := NexusOut(x);
    assert forall k :: 0 <= k < n ==>
      (x.rotationAngle[k] == 0.0 && x.xTranslation[k] == 0.0 && x.yTranslation[k] == 0.0 && x.zTranslation[k] == 0.0);
  }

  method OpenImages(template: string, n: nat, h: int, w: int, vmin: Option<real>, vmax: Option<real>) returns (wr: Writer)
    ensures wr.ImagesOut? && Valid(wr) && fresh(Repr(wr)) && Count(wr) == n && Updates(wr) == 0 && Blank(wr)
    ensures wr.i.vmin == vmin && wr.i.vmax == vmax && wr.i.pixelSize == 0.0
    ensures wr.i.height == h && wr.i.width == w && wr.i.files == map[] && wr.i.template == template
  {
    var i := new ImageWriter(template, n, h, w, vmin, vmax);
    wr := ImagesOut(i);
    assert forall k :: 0 <= k < n ==> i.angle[k] == 0.0 && i.position[k] == Origin;
  }

  /** `new(filename, shape, pixel_size, dtype, vmin, vmax)` */
  method New(path: string, n: int, h: int, w: int, pixelSize: real, dtype: Option<DType>,
             vmin: Option<real>, vmax: Option<real>) returns (r: Result<Writer>)
    ensures WriterFormat(path).Err? ==> r == Err(UnknownExtension)
    ensures WriterFormat(path) == Ok(MrcFormat) ==>
      (r.Ok? <==> HasMrcMode(Narrow(dtype.GetOr(DefaultDType))) && n >= 0 && h >= 0 && w >= 0)
    ensures WriterFormat(path) == Ok(MrcFormat) && !HasMrcMode(Narrow(dtype.GetOr(DefaultDType))) ==>
      r == Err(UnsupportedDType)
    ensures WriterFormat(path) == Ok(NexusFormat) ==> (r.Ok? <==> n >= 0 && h >= 0 && w >= 0)
    ensures WriterFormat(path) == Ok(ImageFormat) ==> (r.Ok? <==> n >= 0)
    ensures r.Err? && WriterFormat(path).Ok? ==>
      r.error == NegativeDimension || (r.error == UnsupportedDType && WriterFormat(path) == Ok(MrcFormat))
    ensures r.Ok? ==> Valid(r.value) && fresh(Repr(r.value)) && Count(r.value) == n && Updates(r.value) == 0
    ensures r.Ok? ==> Blank(r.value)
    ensures r.Ok? ==> (r.value.MrcOut? <==> WriterFormat(path) == Ok(MrcFormat))
    ensures r.Ok? ==> (r.value.NexusOut? <==> WriterFormat(path) == Ok(NexusFormat))
    ensures r.Ok? ==> (r.value.ImagesOut? <==> WriterFormat(path) == Ok(ImageFormat))
    ensures r.Ok? && r.value.MrcOut? ==>
      r.value.m.dtype == Narrow(dtype.GetOr(DefaultDType)) && r.value.m.voxelSize == pixelSize
      && r.value.m.height == h && r.value.m.width == w
    ensures r.Ok? && r.value.NexusOut? ==>
      r.value.x.dtype == dtype.GetOr(HdfDefaultDType) && r.value.x.pixelSize == pixelSize
      && r.value.x.height == h && r.value.x.width == w
    ensures r.Ok? && r.value.ImagesOut? ==>
      r.value.i.vmin == vmin && r.value.i.vmax == vmax && r.value.i.pixelSize == 0.0
      && r.value.i.height == h && r.value.i.width == w && r.value.i.files == map[]
      && r.value.i.template == path
  {
    var format := WriterFormat(path);
    if format.Err? {
      return Err(format.error);
    }
    if format.value == ImageFormat {
      if n < 0 {
        return Err(NegativeDimension);
      }
      var wr := OpenImages(path, n, h, w, vmin, vmax);
      return Ok(wr);
    }
    if format.value == MrcFormat {
      var d := dtype.GetOr(DefaultDType);
      if !HasMrcMode(Narrow(d)) {
        return Err(UnsupportedDType);
      }
      if n < 0 || h < 0 || w < 0 {
        return Err(NegativeDimension);
      }
      var wr := OpenMrc(n, h, w, pixelSize, d);
      return Ok(wr);
    }
    if n < 0 || h < 0 || w < 0 {
      return Err(NegativeDimension);
    }
    var wr := OpenNexus(n, h, w, pixelSize, dtype.GetOr(HdfDefaultDType));
    return Ok(wr);
  }

  /** Whether writing img as frame j goes through, given the range stored
      at the time: the frame passes the writer's shape check and, on an
      image writer, can be rendered and named (the template formats the
      file number j + 1). */
  predicate Takes(w: Writer, img: Image, j: int, range: (Option<real>, Option<real>)) {
    Accepts(w, img) &&
    (w.ImagesOut? ==> WellFormed(img) && Render(img, range.0, range.1).Ok? && FormatsIndex(w.i.template, j + 1))
  }

  /** A complex frame written to an image writer is rendered the same
      whatever range is stored: the write discards it. */
  lemma ComplexRenderIgnoresRange(w: Writer, img: Image, j: int, a: real, p: Vec3,
                                  r0: (Option<real>, Option<real>), r1: (Option<real>, Option<real>))
    requires WellFormed(img) && img.complex
    ensures Render(img, r0.0, r0.1) == Render(img, r1.0, r1.1)
    ensures Expected(w, img, a, p, r0) == Expected(w, img, a, p, r1)
    ensures Takes(w, img, j, r0) <==> Takes(w, img, j, r1)
  {
  }

  /** One step of the copy loop: `writer.data[j, :, :] = image`,
      `writer.angle[j] = angle`, `writer.position[j] = position`. Only frame
      j changes, and it then holds what Expected says for the range stored
      before the write. An image writer forgets its range on complex input,
      and fails unless its template formats the file number j + 1. */
  method WriteFrame(w: Writer, j: nat, img: Image, a: real, p: Vec3) returns (r: Result<()>)
    requires Valid(w) && j < Count(w)
    modifies Repr(w)
    ensures Valid(w) && Updates(w) == old(Updates(w))
    ensures !Accepts(w, img) ==> r == Err(ShapeMismatch)
    ensures r.Ok? <==> Takes(w, img, j, old(Range(w)))
    ensures Accepts(w, img) && img.complex ==> Range(w) == (None, None)
    ensures !img.complex ==> Range(w) == old(Range(w))
    ensures r.Ok? ==> WellFormed(img) && forall k :: 0 <= k < Count(w) ==>
      SlotAt(w, k) == if k == j then Expected(w, img, a, p, old(Range(w))) else old(SlotAt(w, k))
  {
    match w
    case MrcOut(_) =>
      r := WriteMrcFrame(w, j, img, a, p);
    case NexusOut(_) =>
      r := WriteNexusFrame(w, j, img, a, p);
    case ImagesOut(_) =>
      r := WriteImageFrame(w, j, img, a, p);
  }

  method WriteMrcFrame(w: Writer, j: nat, img: Image, a: real, p: Vec3) returns (r: Result<()>)
    requires Valid(w) && j < Count(w) && w.MrcOut?
    modifies Repr(w)
    ensures Valid(w) && Updates(w) == old(Updates(w))
    ensures r.Ok? <==> Accepts(w, img)
    ensures r.Err? ==> r.error == ShapeMismatch
    ensures r.Ok? ==> WellFormed(img) && forall k :: 0 <= k < Count(w) ==>
      SlotAt(w, k) == if k == j then Expected(w, img, a, p, old(Range(w))) else old(SlotAt(w, k))
  {
    var m := w.m;
    r := m.SetFrame(j, img);
    if r.Err? {
      return;
    }
    var _ := m.SetAngle(j, a);
    var _ := m.SetPositionRow(j, [p.x, p.y, p.z]);
  }

  method WriteNexusFrame(w: Writer, j: nat, img: Image, a: real, p: Vec3) returns (r: Result<()>)
    requires Valid(w) && j < Count(w) && w.NexusOut?
    modifies Repr(w)
    ensures Valid(w) && Updates(w) == old(Updates(w))
    ensures r.Ok? <==> Accepts(w, img)
    ensures r.Err? ==> r.error == ShapeMismatch
    ensures r.Ok? ==> WellFormed(img) && forall k :: 0 <= k < Count(w) ==>
      SlotAt(w, k) == if k == j then Expected(w, img, a, p, old(Range(w))) else old(SlotAt(w, k))
  {
    var x := w.x;
    r := x.SetFrame(j, img);
    if r.Err? {
      return;
    }
    var _ := x.SetAngle(j, a);
    var _ := x.SetTranslationRow(j, [p.x, p.y, p.z]);
  }

  method WriteImageFrame(w: Writer, j: nat, img: Image, a: real, p: Vec3) returns (r: Result<()>)
    requires Valid(w) && j < Count(w) && w.ImagesOut?
    modifies Repr(w)
    ensures Valid(w) && Updates(w) == old(Updates(w))
    ensures !Accepts(w, img) ==> r == Err(ShapeMismatch)
    ensures r.Ok? <==> Takes(w, img, j, old(Range(w)))
    ensures Accepts(w, img) && Render(img, old(w.i.vmin), old(w.i.vmax)).Ok? && !FormatsIndex(w.i.template, j + 1) ==>
      r == Err(BadTemplate)
    ensures Accepts(w, img) && img.complex ==> Range(w) == (None, None)
    ensures !img.complex ==> Range(w) == old(Range(w))
    ensures r.Ok? ==> WellFormed(img) && forall k :: 0 <= k < Count(w) ==>
      SlotAt(w, k) == if k == j then Expected(w, img, a, p, old(Range(w))) else old(SlotAt(w, k))
  {
    var i := w.i;
    ghost var range := Range(w);
    ghost var angles, positions, files := i.angle[..], i.position[..], i.files;
    r := i.SetFrame(j, img);
    if r.Err? {
      return;
    }
    var _ := i.SetAngle(j, a);
    var _ := i.SetPosition(j, p);
    assert i.angle[..] == angles[j := a] && i.position[..] == positions[j := p];
    assert i.files == files[j + 1 := Render(img, range.0, range.1).value];
  }

  /** `writer.vmin = lo; writer.vmax = hi` on an image writer. */
  method SetRange(w: Writer, lo: Option<real>, hi: Option<real>)
    requires Valid(w) && w.ImagesOut?
    modifies Repr(w)
    ensures Valid(w) && Updates(w) == old(Updates(w))
    ensures Range(w) == (lo, hi)
    ensures forall k :: 0 <= k < Count(w) ==> SlotAt(w, k) == old(SlotAt(w, k))
  {
    w.i.SetVmin(lo);
    w.i.SetVmax(hi);
  }

  /** `writer.update()` */
  method Update(w: Writer)
    requires Valid(w)
    modifies Repr(w)
    ensures Valid(w) && Updates(w) == old(Updates(w)) + 1
    ensures Range(w) == old(Range(w))
    ensures forall k :: 0 <= k < Count(w) ==> SlotAt(w, k) == old(SlotAt(w, k))
  {
    match w
    case MrcOut(m) =>
      m.Update();
    case NexusOut(x) =>
      x.Update();
    case ImagesOut(i) =>
      i.Update();
  }

  /** The bytes behind a file name, as far as the readers are concerned. */
  datatype StoredFile = MrcBytes(mrc: MrcFile) | NexusBytes(root: Node) | OtherBytes

  /** `Reader.from_file`: the extension picks the reader; a file whose
      content is not of that format cannot be opened. */
  function FromFile(path: string, file: StoredFile): (r: Result<Reader>)
    ensures ReaderFormat(path).Err? ==> r == Err(UnknownExtension)
    ensures ReaderFormat(path) == Ok(MrcFormat) && file.MrcBytes? ==> r == ReadMrc(file.mrc)
    ensures ReaderFormat(path) == Ok(NexusFormat) && file.NexusBytes? ==> r == ReadNexus(file.root)
    ensures r.Ok? ==> Consistent(r.value)
  {
    match ReaderFormat(path)
    case Err(e) => Err(e)
    case Ok(MrcFormat) => if file.MrcBytes? then ReadMrc(file.mrc) else Err(WrongFileKind)
    case Ok(NexusFormat) => if file.NexusBytes? then ReadNexus(file.root) else Err(WrongFileKind)
    case Ok(ImageFormat) => Err(UnknownExtension)
  }

  /** What a writer leaves behind, for the backends that can be read. */
  function Saved(w: Writer): StoredFile
    reads Repr(w)
    requires Valid(w)
  {
    match w
    case MrcOut(m) => MrcBytes(m.Contents())
    case NexusOut(x) => NexusBytes(x.Contents())
    case ImagesOut(_) => OtherBytes
  }

  /** A file that `new` opened for a readable extension is read back by
      `from_file` under the same name with one angle and one position per
      frame, as written (MRC dropping Z); image output cannot be read. */
  lemma ReadBackSaved(path: string, w: Writer)
    requires Valid(w)
    requires WriterFormat(path) == Ok(MrcFormat) ==> w.MrcOut?
    requires WriterFormat(path) == Ok(NexusFormat) ==> w.NexusOut?
    requires WriterFormat(path) == Ok(ImageFormat) ==> w.ImagesOut?
    requires WriterFormat(path).Ok?
    ensures WriterFormat(path) == Ok(ImageFormat) ==> FromFile(path, Saved(w)) == Err(UnknownExtension)
    ensures w.MrcOut? || (w.NexusOut? && Count(w) > 0) ==>
      FromFile(path, Saved(w)).Ok? &&
      NumImages(FromFile(path, Saved(w)).value) == Count(w) &&
      forall k :: 0 <= k < Count(w) ==>
        FromFile(path, Saved(w)).value.angle[k] == SlotAt(w, k).angle &&
        FromFile(path, Saved(w)).value.position[k] == SlotAt(w, k).position
  {
    ReaderAgreesWithWriter(path);
    match w
    case MrcOut(m) =>
      Mrc.ReadBackWriter(m);
    case NexusOut(x) =>
      Nexus.ReadBackWriter(x);
    case ImagesOut(_) =>
  }
}
